=== FILE: README.md ===
# Window chrome and popup menus — a Dafny model

This project models the WPF part of a small C# utility library. The part modelled is a
custom window title bar and the menus that hang from it:

- **Popup menus** (`Wpf/PopupMenu.cs`). A menu holds a list of options. Each option has
  five layout cells: icon, left spacing, name, right spacing and arrow. `MeasureAndArrange`
  gives every cell the largest width in its column, records each option's desired width,
  and sets the border's width. Each option that opens a nested menu places that menu at
  the right edge of the option. Clicking an option collapses every sibling's nested menu
  and toggles its own. Collapsing a menu collapses the whole tree below it.
- **Drop-down menus** (`Wpf/DropDownMenu.cs`). A menu holds options. An option may open a
  child menu, and child menus cascade to the right of their option. The model covers
  visibility toggling, hiding a subtree, column alignment of names and shortcuts, option
  lookup by index or name, and position propagation down the tree.
- **Application buttons** (`Wpf/ApplicationButtonCollection.cs`). These are the exit,
  minimise and maximise buttons plus the optional settings and fullscreen buttons. The
  model covers their sizes and the sprite images that must be activated before use. It
  also covers the click handlers that `Override*` replaces, the maximise/restore
  toggle, and fullscreen entry and exit with the saved window geometry.
- **Window handle** (`Wpf/WindowHandle_1.cs`). This covers:
  - the client-button collection, which keeps a list of buttons and the panel children
    aligned, the panel being the parent of each element it shows;
  - the handle's `SetHeight`;
  - the `WM_GETMINMAXINFO` fix, which keeps a maximised window inside the monitor's
    work area;
  - the Win32 `RECT` structure with its 32-bit arithmetic.
- **Helpers** (`Wpf/Helper.cs`). These are `#AARRGGBB` colour parsing and the
  absolute-position helper.

Layout lengths, which are `double` in the source, are modelled as `real`. The toolkit's
measured sizes (a text block's actual width, an option's actual height) and the screen
size are inputs. Exceptions become `Result`, `Option` or `Outcome` values. Classes whose
fields the source updates in place are Dafny classes with field-level frames. The
recursive hide, collapse, click and positioning operations of both menu kinds take a ghost
`Scope`: the menus they may reach, each with a rank that falls from a menu to its nested
menus, and the options of those menus. A scope exists for every structure whose nested
menus form no cycle, whatever order it was built or grown in; the frames and the
termination of the recursion are stated over the menus `Below` a menu in its scope. Where
an option's element is added to a panel that already has a parent, the toolkit throws
after the option is listed; adds return an error outcome with the list already extended. `MeasureAndArrange` is specified by the value function
`Iterate`, which applies the per-option `Step` to the layouts of the first `n` options.
The alignment properties are proved about `Iterate`.

## Model

| member | source | states |
|---|---|---|
| Helper.ParseHexByte | Wpf/Helper.cs:34-37 | two hexadecimal digits give `16*hi+lo`; one digit followed by white space or a NUL character gives that digit; a character that is neither a digit nor white space makes the parse fail with a format error, except a NUL after a digit |
| Helper.ColorDigits | Wpf/Helper.cs:27-31 | a leading `#` selects the eight characters after it; without `#` the whole string is used |
| Helper.StringToBrush | Wpf/Helper.cs:26-41 | empty input gives IndexOutOfRange; `#` with fewer than eight digits gives ArgumentOutOfRange; no `#` and length other than 8 gives the invalid-colour error; success implies one of the two accepted shapes |
| Helper.DigitsDecode | Wpf/Helper.cs:34-40 | eight hex digits decode to the colour whose A, R, G, B bytes are the four digit pairs, in that order |
| Helper.HashPrefixReadsEightCharacters | Wpf/Helper.cs:27-29 | after `#` only the next eight characters count; anything after them is ignored |
| Helper.BadDigitRejected | Wpf/Helper.cs:34-37 | any non-hex, non-blank character among the eight digits makes the parse fail, except a NUL second in its pair |
| Helper.TrailingNulAccepted | Wpf/Helper.cs:34-37 | a digit followed by a NUL character is accepted as that digit's byte, because a HexNumber parse allows trailing NUL characters |
| Helper.PaddedDigitAccepted | Wpf/Helper.cs:34-37 | a blank beside a single digit is accepted, because a HexNumber parse allows surrounding white space |
| Helper.FormatColor | Wpf/Helper.cs:19-21 | the documented `AARRGGBB` form is eight hex digits |
| Helper.FormatParseRoundTrip | Wpf/Helper.cs:19-41 | parsing the formatted colour returns the colour, with or without `#` and trailing text |
| Helper.GetAbsolutePosition | Wpf/Helper.cs:98-101 | a missing element gives (-1,-1); otherwise the element's screen point |
| PopupMenus.Adjusted | Wpf/PopupMenu.cs:520-524 | the nested menu goes to left = desired width, or the option's own width when no desired width is set, and top = -1; nothing else changes |
| PopupMenus.MaxOfIsMax | Wpf/PopupMenu.cs:113-117 | the column maximum is at least every option's cell and equals some option's cell |
| PopupMenus.MaxIconWidthIsMax | Wpf/PopupMenu.cs:111-112 | the icon column is 0 when no option has an icon; otherwise it is the largest icon width |
| PopupMenus.MaxArrowWidthIsMax | Wpf/PopupMenu.cs:110-116 | the arrow column is 0 when no option has a nested menu; otherwise it is the largest arrow width |
| PopupMenus.StepAligns | Wpf/PopupMenu.cs:126-134 | one loop iteration sets option i's cells to the column maxima and its desired width to the widest option at that moment |
| PopupMenus.StepKeepsMaxima | Wpf/PopupMenu.cs:126-134 | an iteration leaves every column maximum unchanged (loop invariant) |
| PopupMenus.StepKeepsOthers | Wpf/PopupMenu.cs:126-134 | an iteration changes no option other than option i |
| PopupMenus.IterateKeepsMaxima | Wpf/PopupMenu.cs:126-134 | after any number of iterations the column maxima are those of the input |
| PopupMenus.IterateAligns | Wpf/PopupMenu.cs:126-134 | after n iterations the first n options are aligned and the rest are untouched |
| PopupMenus.MeasureAndArrangeAligns | Wpf/PopupMenu.cs:124-137 | afterwards every option's icon, spacing, name box and arrow equal the column maxima (icon and arrow 0 when absent); each option's width is the aligned width of its own name and the border width is the aligned width of the widest name |
| PopupMenus.LastDesiredWidthIsBorder | Wpf/PopupMenu.cs:133-136 | the last option's desired width equals the border width |
| PopupMenus.StaleDesiredWidth | Wpf/PopupMenu.cs:133 | for two fresh options, both with a nested menu and no icon, the first records desired width 114 (the second option still has its 22-wide icon cell) while the border is 92 |
| PopupMenus.ArrangedOption | Wpf/PopupMenu.cs:126-134 | an option aligned to the maxima gets desired width w and its nested menu at (w, -1) |
| PopupMenus.ArrangedIntendedAligns | Wpf/PopupMenu.cs:124-137 | when the border width is computed after the loop, every option's desired width and nested-menu left equal the border width, and all cells are aligned |
| PopupMenus.PopupMenuOption.constructor | Wpf/PopupMenu.cs:434-507 | a new option has icon and arrow cells as wide as its default height 22, spacings 10, measured name width 0 and no desired width; its nested menu sits at (64, -1) and records the option as the one holding it; the option is shown by no menu and cannot be measured yet |
| PopupMenus.PopupMenuOption.AdjustInnerMenuPos | Wpf/PopupMenu.cs:520-524 | the layout becomes `Adjusted` of the old layout |
| PopupMenus.PopupMenuOption.SizeChanged | Wpf/PopupMenu.cs:457-463 | a size change moves the nested menu only when the option has one |
| PopupMenus.PopupMenuOption.SetIconWidth | Wpf/PopupMenu.cs:332-344 | the icon cell changes and the nested menu is placed again; nothing else changes |
| PopupMenus.PopupMenuOption.SetSpacingLeft | Wpf/PopupMenu.cs:234-240 | only the left spacing changes |
| PopupMenus.PopupMenuOption.SetNameWidth | Wpf/PopupMenu.cs:365-376 | the name's text block gets the width and the nested menu is placed again; the measured name width is kept |
| PopupMenus.PopupMenuOption.SetSpacingRight | Wpf/PopupMenu.cs:242-248 | only the right spacing changes |
| PopupMenus.PopupMenuOption.SetArrowWidth | Wpf/PopupMenu.cs:349-360 | the arrow cell changes and the nested menu is placed again; nothing else changes |
| PopupMenus.PopupMenuOption.SetDesiredWidth | Wpf/PopupMenu.cs:212 | only the desired width changes; the nested menu is not placed again |
| PopupMenus.PopupMenuOption.SetIcon | Wpf/PopupMenu.cs:386-412 | only the icon's presence changes |
| PopupMenus.PopupMenuOption.Collapse | Wpf/PopupMenu.cs:538-542 | with a nested menu, the arrow shows collapsed and that menu and every menu below it are collapsed with every arrow in them closed; without one, nothing changes; no menu or arrow anywhere changes except to collapsed; any structure without a cycle is accepted |
| PopupMenus.PopupMenuOption.Expand | Wpf/PopupMenu.cs:547-551 | with a nested menu, the arrow shows expanded and the nested menu is visible |
| PopupMenus.PopupMenuOption.Toggle | Wpf/PopupMenu.cs:529-533 | with a nested menu, expanded afterwards exactly when it was not before: closing collapses the whole tree below and shows the closed arrow, opening shows the open arrow; without one it is never expanded and the arrow is kept |
| PopupMenus.PopupMenu.constructor | Wpf/PopupMenu.cs:71-82 | a new menu is visible, has no options and no border width; the form with options is this constructor followed by one `AddOption` per option, in order |
| PopupMenus.PopupMenu.WriteCell | Wpf/PopupMenu.cs:128-133 | one assignment of the loop body, as the `Write` value function |
| PopupMenus.PopupMenu.AlignOption | Wpf/PopupMenu.cs:126-134 | a loop iteration advances the layouts from `Iterate(start, i)` to `Iterate(start, i+1)` |
| PopupMenus.PopupMenu.MeasureAndArrange | Wpf/PopupMenu.cs:124-137 | on an empty menu, `Max` fails and nothing is written; otherwise the layouts become `Iterate` over all options and the border width is the widest option |
| PopupMenus.PopupMenu.Collapse | Wpf/PopupMenu.cs:151-158 | the menu and every menu below it are collapsed and every arrow in them is closed; no menu or arrow anywhere changes except to collapsed |
| PopupMenus.PopupMenu.CollapseOptions | Wpf/PopupMenu.cs:153-156 | the loop: afterwards every option with a nested menu shows the closed arrow and its tree is collapsed; it only collapses |
| PopupMenus.PopupMenu.CollapseAt | Wpf/PopupMenu.cs:155 | one option's collapse: that option ends collapsed with its tree, options already collapsed stay so, and it only collapses |
| PopupMenus.PopupMenu.Hide | Wpf/PopupMenu.cs:157 | hiding a menu whose options are all collapsed leaves it collapsed with everything below it |
| PopupMenus.PopupMenu.CollapsedFromOptions | Wpf/PopupMenu.cs:151-158 | a hidden menu whose options are all collapsed is collapsed with its whole tree |
| PopupMenus.PopupMenu.CollapsedOptions | Wpf/PopupMenu.cs:151-158 | in a collapsed menu every option is collapsed with its whole tree |
| PopupMenus.PopupMenu.CollapsedKept | Wpf/PopupMenu.cs:151-158 | a change that only collapses keeps a collapsed tree collapsed |
| PopupMenus.PopupMenu.Expand | Wpf/PopupMenu.cs:162-165 | the menu becomes visible |
| PopupMenus.PopupMenu.Toggle | Wpf/PopupMenu.cs:142-146 | expanded flips; closing collapses the whole tree; opening changes no other menu and no arrow |
| PopupMenus.PopupMenu.OptionClicked | Wpf/PopupMenu.cs:97-107 | the clicked option becomes the open option; every other option with a nested menu is collapsed with its whole tree; a clicked option without a nested menu collapses the whole menu, one with a nested menu leaves the menu's visibility and, in a held structure, its own nested menu's visibility as they were |
| PopupMenus.PopupMenu.CollapseOthers | Wpf/PopupMenu.cs:99-103 | the handler's loop: every option but the clicked one is collapsed with its tree; the menu keeps its visibility and, in a held structure, so does the clicked option's nested menu |
| PopupMenus.PopupMenu.CollapseOther | Wpf/PopupMenu.cs:100-103 | one loop iteration: option i is collapsed with its tree unless it is the clicked option; options already collapsed stay so; the menu keeps its visibility; in a held structure the other options' arrows and the clicked option's nested menu are untouched |
| PopupMenus.PopupMenu.HeldArrowsApart | Wpf/PopupMenu.cs:91-102 | in a held menu, collapsing option i reaches no other option's arrow |
| PopupMenus.PopupMenu.HeldApart | Wpf/PopupMenu.cs:91-102 | in a held menu, collapsing option i reaches neither another option's arrow nor another option's nested menu |
| PopupMenus.HeldSeparate | Wpf/PopupMenu.cs:502 | in a held structure the trees below two options of one menu share no menu, because a container gives a nested menu one parent |
| PopupMenus.PopupMenu.Click | Wpf/PopupMenu.cs:97-107 | the clicked option's own handler, registered at PopupMenu.cs:459, toggles its nested menu first; then the option becomes the open option and every sibling's nested tree is collapsed; in a held structure the clicked option ends expanded exactly when it was not; without a nested menu the whole menu collapses |
| PopupMenus.PopupMenu.Append | Wpf/PopupMenu.cs:91-92 | the option is always appended to the list and its layout to the layouts; it goes into the panel and is shown by this menu exactly when no menu showed it, otherwise the add fails with ElementHasParent and the panel is unchanged; a menu whose options are distinct and shown stays so after a successful add |
| PopupMenus.PopupMenu.AddOption | Wpf/PopupMenu.cs:89-108 | fails with ElementHasParent exactly when a menu already shows the option, with the option listed and nothing else changed; otherwise a measurable option makes the layouts `Iterate` over all options with the border the widest option, and an option that cannot be measured yet gets this menu as a listener with the layouts only extended |
| PopupMenus.PopupMenu.Fit | Wpf/PopupMenu.cs:94-95 | a measurable option makes the layouts arranged over all options with the border the widest; otherwise the menu becomes its listener and no layout changes |
| PopupMenus.PopupMenu.Remeasure | Wpf/PopupMenu.cs:94 | re-measuring a non-empty menu makes the layouts `Iterate` over all options and the border the widest option, as `MeasureAndArrange` does |
| PopupMenus.PopupMenu.Listen | Wpf/PopupMenu.cs:95 | the menu is added to the option's measurable listeners and no layout changes |
| DropDownMenus.Toggled | Wpf/DropDownMenu.cs:104-111 | toggling yields Hidden exactly when the menu was Hidden; a shown menu never stays as it was |
| DropDownMenus.ToggledTwice | Wpf/DropDownMenu.cs:104-111 | toggling twice restores the visibility |
| DropDownMenus.SeqMax | Wpf/DropDownMenu.cs:228 | the maximum is one of the widths and bounds them all |
| DropDownMenus.MeasuredUnderAuto | Wpf/DropDownMenu.cs:225-228 | with Auto columns, each measured width is the option's natural width |
| DropDownMenus.FindIndex | Wpf/DropDownMenu.cs:213-215 | gives the first option with that name, or -1 when none has it |
| DropDownMenus.MenuOption.constructor | Wpf/DropDownMenu.cs:318-355 | a new option has a fresh empty child menu of the same name, no submenu flag, a plain arrow, no commands and Auto columns |
| DropDownMenus.MenuOption.SetColumn | Wpf/DropDownMenu.cs:226-230 | sets one column's width and keeps the other |
| DropDownMenus.MenuOption.AddCommand | Wpf/DropDownMenu.cs:404-407 | appends the command to the click handlers and returns the option |
| DropDownMenus.MenuOption.AddDropdownMenu | Wpf/DropDownMenu.cs:386-397 | installs the child menu, shows the submenu arrow, and adds click handlers that hide the siblings' children and toggle the child |
| DropDownMenus.MenuOption.HideChildrenMenu | Wpf/DropDownMenu.cs:412-414 | the child menu and every menu below it are collapsed, and no other menu changes; any structure without a cycle is accepted |
| DropDownMenus.MenuOption.UpdateMenuPosition | Wpf/DropDownMenu.cs:419-421 | the child menu moves to the position its parents give, recording that offset, or stays without them; in a linked structure every menu below it is cascaded afterwards; no menu outside moves |
| DropDownMenus.DropDownMenu.constructor | Wpf/DropDownMenu.cs:61-91 | a new menu is visible at the origin with the initial background, no options and no parent |
| DropDownMenus.DropDownMenu.Instanciate | Wpf/DropDownMenu.cs:71-78 | records the parent element |
| DropDownMenus.DropDownMenu.InstanciateChild | Wpf/DropDownMenu.cs:80-84 | marks the menu as a child and records the parent menu and option |
| DropDownMenus.DropDownMenu.Show | Wpf/DropDownMenu.cs:116 | visibility becomes Visible |
| DropDownMenus.DropDownMenu.Hide | Wpf/DropDownMenu.cs:121 | visibility becomes Collapsed |
| DropDownMenus.DropDownMenu.ToggleVisibility | Wpf/DropDownMenu.cs:104-111 | visibility becomes `Toggled` of the old visibility |
| DropDownMenus.DropDownMenu.HideChildrenMenus | Wpf/DropDownMenu.cs:138-144 | every option's child menu is collapsed with its whole subtree; the menu itself keeps its visibility and no menu outside changes |
| DropDownMenus.DropDownMenu.HideChild | Wpf/DropDownMenu.cs:139-143 | one loop iteration: option i's child subtree is collapsed and the subtrees already collapsed stay so |
| DropDownMenus.DropDownMenu.HideWidthChildrenMenus | Wpf/DropDownMenu.cs:126-133 | the menu and its whole subtree are collapsed, and no menu outside changes |
| DropDownMenus.DropDownMenu.ChangeBGColor | Wpf/DropDownMenu.cs:150-152 | the background becomes the colour |
| DropDownMenus.DropDownMenu.ChangeBGColorWithChildren | Wpf/DropDownMenu.cs:158-165 | the menu and every direct child menu get the colour |
| DropDownMenus.DropDownMenu.GetOption | Wpf/DropDownMenu.cs:204-206 | an index outside the list gives ArgumentOutOfRange; otherwise the option at that index |
| DropDownMenus.DropDownMenu.GetOptionByName | Wpf/DropDownMenu.cs:213-215 | None exactly when no option has the name; otherwise the first option with it |
| DropDownMenus.DropDownMenu.SetColumns | Wpf/DropDownMenu.cs:225-227 | every option's given column gets the same width; other columns are kept |
| DropDownMenus.DropDownMenu.WidestColumn | Wpf/DropDownMenu.cs:224-228 | every option's column is set to Auto and the widest measured width is the largest natural width; the other column is kept |
| DropDownMenus.DropDownMenu.AlignColumn | Wpf/DropDownMenu.cs:224-231 | every option's column becomes a pixel width equal to the largest natural width |
| DropDownMenus.DropDownMenu.UpdateOptionLayout | Wpf/DropDownMenu.cs:220-241 | with no options, `Max` fails; otherwise the name and shortcut columns of every option are the largest natural widths |
| DropDownMenus.DropDownMenu.Append | Wpf/DropDownMenu.cs:183-184 | the option is always appended to the list; its grid goes into the panel, which becomes its parent, exactly when no panel held it; otherwise the add fails with ElementHasParent and the panel is unchanged |
| DropDownMenus.DropDownMenu.AddOption | Wpf/DropDownMenu.cs:182-187 | fails with ElementHasParent exactly when another panel holds the option, with the option listed and no column touched; otherwise returns the option and every shown option's name and shortcut columns become the largest natural widths |
| DropDownMenus.DropDownMenu.NewOption | Wpf/DropDownMenu.cs:195-197 | a fresh option with that name and height (22 unless given) whose parent is this menu; it is not added |
| DropDownMenus.DropDownMenu.AddNamedOption | Wpf/DropDownMenu.cs:173-175 | a fresh option with that name and height (22 unless given) is appended to the list and the panel, and every shown option's columns become the largest natural widths |
| DropDownMenus.DropDownMenu.UpdateMenuPosition | Wpf/DropDownMenu.cs:246-261 | a child menu moves to (parent x + option width, parent y + index × option height) and records that offset; a menu without a parent keeps its position |
| DropDownMenus.DropDownMenu.UpdateMenuPositionWithChildren | Wpf/DropDownMenu.cs:266-273 | the menu moves to its new position, then every subtree below it; in a linked structure every child menu below ends at its cascade position; no menu outside moves |
| DropDownMenus.DropDownMenu.PositionChildren | Wpf/DropDownMenu.cs:268-272 | this menu stays where it is; after the loop, every menu below a linked menu sits at its cascade position |
| DropDownMenus.DropDownMenu.LinkedChildPosition | Wpf/DropDownMenu.cs:255-259 | a linked child's new position is the cascade position of its option |
| DropDownMenus.NamedChildPosition | Wpf/DropDownMenu.cs:255-259 | a child menu naming option i of a menu without repeated options goes to that option's cascade position |
| DropDownMenus.LinkedSeparate | Wpf/DropDownMenu.cs:80-84 | in a linked structure the subtrees below two options of one menu share no menu, because each child menu names one parent |
| DropDownMenus.DropDownMenu.CascadedFromChildren | Wpf/DropDownMenu.cs:266-273 | a menu whose child menus are placed and cascaded is cascaded |
| DropDownMenus.DropDownMenu.CascadedKept | Wpf/DropDownMenu.cs:266-273 | a subtree stays cascaded while its menus keep their positions |
| DropDownMenus.DropDownMenu.PlacedKept | Wpf/DropDownMenu.cs:268-272 | a placed child stays placed while this menu and the menus below the child keep their positions |
| DropDownMenus.DropDownMenu.PositionChild | Wpf/DropDownMenu.cs:268-272 | one loop iteration: child i moves to the position its parents give, or stays without them, in any structure; in a linked menu child i is placed and cascaded and the children already placed stay placed |
| DropDownMenus.DropDownMenu.PlaceChild | Wpf/DropDownMenu.cs:269-271 | child i moves to the position its parents give, or stays without them, in any structure; in a linked menu it is placed and the subtree below it cascaded; this menu stays where it was |
| ApplicationButtons.ButtonSize.constructor | Wpf/ApplicationButtonCollection.cs:54-55 | buttons are 40 wide and 30 high by default |
| ApplicationButtons.Overridden | Wpf/ApplicationButtonCollection.cs:603-607 | removing the default handler and adding the action keeps the size and sprite, and changes the handler multiset by exactly that swap |
| ApplicationButtons.OverrideReplacesDefault | Wpf/ApplicationButtonCollection.cs:603-607 | a button with only its default handler ends with only the user's action |
| ApplicationButtons.OverrideOfAbsentHandlerKeepsOthers | Wpf/ApplicationButtonCollection.cs:612-616 | removing a handler the button lacks removes nothing; the action is appended |
| ApplicationButtons.FullscreenToggled | Wpf/ApplicationButtonCollection.cs:689-720 | fullscreen flips; geometry is saved exactly while fullscreen; corners are rounded exactly while fullscreen |
| ApplicationButtons.FullscreenRoundTrip | Wpf/ApplicationButtonCollection.cs:691-719 | entering then leaving fullscreen restores the window's state, position and size |
| ApplicationButtons.FullscreenCoversScreen | Wpf/ApplicationButtonCollection.cs:691-705 | entering fullscreen puts a Normal window at (0,0) with the screen's size and saves the old geometry |
| ApplicationButtons.ApplicationButtonCollection.constructor | Wpf/ApplicationButtonCollection.cs:413-454 | the three buttons get the current size, no sprite and their default handlers; the panel is minimise, maximise, exit, left to right; not fullscreen |
| ApplicationButtons.ApplicationButtonCollection.ImageSource | Wpf/ApplicationButtonCollection.cs:109-124 | reading a sprite property before activation fails; afterwards it gives the image source or fails on a missing one (same for minimise 146-161 and maximise 183-196) |
| ApplicationButtons.ApplicationButtonCollection.ImagePadding | Wpf/ApplicationButtonCollection.cs:126-142 | the padding fails before activation; afterwards it is the sprite's margin |
| ApplicationButtons.ApplicationButtonCollection.OptionalImageSource | Wpf/ApplicationButtonCollection.cs:262-277 | an absent settings or fullscreen button reads as no source; a present one gives its sprite's source, or fails on a missing one |
| ApplicationButtons.ApplicationButtonCollection.OptionalImagePadding | Wpf/ApplicationButtonCollection.cs:349-363 | an absent button reads as the default thickness; otherwise the sprite's margin |
| ApplicationButtons.ApplicationButtonCollection.ActivateSprite | Wpf/ApplicationButtonCollection.cs:467-506 | only the chosen button gets a fresh sprite with no source and default padding |
| ApplicationButtons.ApplicationButtonCollection.SetImageSource | Wpf/ApplicationButtonCollection.cs:117-123 | fails before activation and on a null source, leaving every button as it was; otherwise the button becomes itself with only its image source replaced (size, padding and handlers kept) and the other buttons are untouched |
| ApplicationButtons.ApplicationButtonCollection.SetImagePadding | Wpf/ApplicationButtonCollection.cs:134-141 | fails exactly before activation; otherwise succeeds, the padding becomes the value and the source is kept |
| ApplicationButtons.ApplicationButtonCollection.SetOptionalImageSource | Wpf/ApplicationButtonCollection.cs:262-277 | does nothing when the button is absent; fails on a null source; otherwise succeeds, sets the source and keeps the padding |
| ApplicationButtons.ApplicationButtonCollection.SetOptionalImagePadding | Wpf/ApplicationButtonCollection.cs:349-363 | does nothing when the button is absent; otherwise sets the padding and keeps the source |
| ApplicationButtons.ApplicationButtonCollection.MaximizedSource | Wpf/ApplicationButtonCollection.cs:198-205 | fails before activation; otherwise the stored maximised-state image |
| ApplicationButtons.ApplicationButtonCollection.WindowedSource | Wpf/ApplicationButtonCollection.cs:236-243 | fails before activation; otherwise the stored windowed-state image |
| ApplicationButtons.ApplicationButtonCollection.SetMaximizedSource | Wpf/ApplicationButtonCollection.cs:206-217 | as written: stores the image and shows it when the window is Maximized, the maximise button otherwise unchanged; on any failure, and in any other state, the maximise button is untouched |
| ApplicationButtons.ApplicationButtonCollection.SetMaximizedSourceIntended | Wpf/ApplicationButtonCollection.cs:206-217 | fails before activation; otherwise stores the image; when the window is Normal it shows it (a null image fails), in any other state it succeeds and leaves the maximise button alone; the shown image stays consistent with the state; a shown image changes only the maximise button's source, and a failure leaves the button untouched |
| ApplicationButtons.ApplicationButtonCollection.SetWindowedSource | Wpf/ApplicationButtonCollection.cs:244-256 | fails before activation; otherwise stores the image; unless the window is Normal it shows it at once (a null image fails); while Normal it succeeds and leaves the maximise button alone; a shown image changes only the maximise button's source, and a failure leaves the button untouched |
| ApplicationButtons.ApplicationButtonCollection.Minimize | Wpf/ApplicationButtonCollection.cs:656-659 | the window becomes Minimized |
| ApplicationButtons.ApplicationButtonCollection.Maximize | Wpf/ApplicationButtonCollection.cs:660-684 | a Maximized window becomes Normal and any other becomes Maximized; with an activated sprite the shown image is the stored one for the new state, and a missing image is an error that leaves the maximise button untouched; switching the image changes only its source, keeping its size, padding and handlers |
| ApplicationButtons.ApplicationButtonCollection.Fullscreen | Wpf/ApplicationButtonCollection.cs:689-720 | the window view becomes `FullscreenToggled` of the old view |
| ApplicationButtons.ApplicationButtonCollection.SetHeight | Wpf/ApplicationButtonCollection.cs:60-76 | as written: a height above the window's is ignored; otherwise the size and the exit, minimise, maximise and settings buttons take it |
| ApplicationButtons.ApplicationButtonCollection.SetHeightIntended | Wpf/ApplicationButtonCollection.cs:60-76 | a height above the window's is ignored; otherwise the size and every existing button, the fullscreen button included, take it and nothing else about the buttons changes |
| ApplicationButtons.ApplicationButtonCollection.SetWidth | Wpf/ApplicationButtonCollection.cs:79-94 | as written: a width above a third of the window's is ignored; otherwise the same four buttons take it |
| ApplicationButtons.ApplicationButtonCollection.SetWidthIntended | Wpf/ApplicationButtonCollection.cs:79-94 | a width above a third of the window's is ignored; otherwise the size and every existing button, the fullscreen button included, take it and nothing else about the buttons changes |
| ApplicationButtons.ApplicationButtonCollection.UpdateButtonSize | Wpf/ApplicationButtonCollection.cs:725-747 | every existing button takes the current size |
| ApplicationButtons.ApplicationButtonCollection.AddSettingsButton | Wpf/ApplicationButtonCollection.cs:511-529 | a sized settings button with an activated sprite and the settings handler is put first in the panel; the column widens to hold all buttons |
| ApplicationButtons.ApplicationButtonCollection.AddFullcreenButton | Wpf/ApplicationButtonCollection.cs:534-552 | the same for the fullscreen button with the fullscreen handler |
| ApplicationButtons.ApplicationButtonCollection.OverrideShutdown | Wpf/ApplicationButtonCollection.cs:603-607 | the exit button's shutdown handler is replaced by the action |
| ApplicationButtons.ApplicationButtonCollection.OverrideMinimize | Wpf/ApplicationButtonCollection.cs:612-616 | as written: the override is applied to the exit button |
| ApplicationButtons.ApplicationButtonCollection.OverrideMaximize | Wpf/ApplicationButtonCollection.cs:621-625 | as written: the override is applied to the exit button |
| ApplicationButtons.ApplicationButtonCollection.OverrideMinimizeIntended | Wpf/ApplicationButtonCollection.cs:612-616 | the minimise button's handler is replaced by the action |
| ApplicationButtons.ApplicationButtonCollection.OverrideMaximizeIntended | Wpf/ApplicationButtonCollection.cs:621-625 | the maximise button's handler is replaced by the action |
| ApplicationButtons.ApplicationButtonCollection.OverrideSettings | Wpf/ApplicationButtonCollection.cs:630-636 | an absent settings button stays absent; otherwise its handler is replaced |
| ApplicationButtons.ApplicationButtonCollection.OverrideFullscreen | Wpf/ApplicationButtonCollection.cs:641-647 | an absent fullscreen button stays absent; otherwise its handler is replaced |
| ApplicationButtons.MinimizeOverrideHitsExitButton | Wpf/ApplicationButtonCollection.cs:612-616 | after OverrideMinimize the minimise button still minimises and the exit button runs both shutdown and the action |
| ApplicationButtons.HeightSetterSkipsFullscreenButton | Wpf/ApplicationButtonCollection.cs:60-76 | after setting height 20 the fullscreen button stays 30 high |
| ApplicationButtons.MaximizedSourceShownWhileMaximized | Wpf/ApplicationButtonCollection.cs:206-217 | on a maximised window, setting the maximised-state image shows it although the restore image belongs there |
| WindowHandles.Wrap | Wpf/WindowHandle_1.cs:483-484 | 32-bit two's-complement wrap-around of an int result |
| WindowHandles.Abs | Wpf/WindowHandle_1.cs:483 | `Math.Abs` overflows exactly on the minimum int; otherwise it gives the magnitude |
| WindowHandles.Rect.Width | Wpf/WindowHandle_1.cs:483 | the absolute wrapped difference of right and left; fails exactly when that difference is the minimum int |
| WindowHandles.Rect.Height | Wpf/WindowHandle_1.cs:484 | the signed difference of bottom and top, negative when bottom is above top |
| WindowHandles.Rect.HashCode | Wpf/WindowHandle_1.cs:511 | the wrapped sum of the four coordinates |
| WindowHandles.Rect.Equals | Wpf/WindowHandle_1.cs:505-509 | as written: never true; a boxed toolkit rectangle makes the cast fail |
| WindowHandles.SameIsEquality | Wpf/WindowHandle_1.cs:513 | `==` holds exactly for equal coordinates; the empty rectangle is empty |
| WindowHandles.NonEmptyExtents | Wpf/WindowHandle_1.cs:483-499 | without overflow, a rectangle is non-empty exactly when its width and height are positive and right is greater than left (Rect(10,0,0,5) has width 10 and height 5 but is empty) |
| WindowHandles.TallRectHeightWraps | Wpf/WindowHandle_1.cs:484 | a non-empty rectangle spanning the whole int range has height -1 |
| WindowHandles.EqualsNotReflexive | Wpf/WindowHandle_1.cs:505-509 | a rectangle is not `Equals` to itself boxed, though the intended comparison holds |
| WindowHandles.EqualsIntendedIsEquality | Wpf/WindowHandle_1.cs:505-513 | the corrected comparison is `==` on the boxed rectangle, symmetric and consistent with the hash code |
| WindowHandles.WmGetMinMaxInfo | Wpf/WindowHandle_1.cs:422-439 | without a monitor nothing changes; otherwise the maximised window is placed at the work area's offset with the work area's size, and overflow in `Math.Abs` is an error |
| WindowHandles.ClientButton.InitSpacing | Wpf/WindowHandle_1.cs:253-257 | the menu goes at the button's left, one button height below its top |
| WindowHandles.ClientButtonCollection.constructor | Wpf/WindowHandle_1.cs:69-73 | a new collection has no buttons and no panel children |
| WindowHandles.ClientButtonCollection.Count | Wpf/WindowHandle_1.cs:44 | the count is the number of panel children, equal to the number of buttons |
| WindowHandles.ClientButtonCollection.Get | Wpf/WindowHandle_1.cs:56-58 | an out-of-range index fails; otherwise the button at that index, whose element is the panel child there |
| WindowHandles.ClientButtonCollection.Contains | Wpf/WindowHandle_1.cs:106-110 | true exactly when the button is in the list |
| WindowHandles.ClientButtonCollection.IndexOf | Wpf/WindowHandle_1.cs:135-138 | the first position of the button, or -1; it is the same as the element's index among the panel children |
| WindowHandles.ClientButtonCollection.Add | Wpf/WindowHandle_1.cs:94-98 | the button is appended to the list; its element is appended to the panel, which becomes its parent, unless it already has a parent, which fails after the list append |
| WindowHandles.ClientButtonCollection.Clear | Wpf/WindowHandle_1.cs:100-104 | both the list and the panel become empty, and the elements it showed lose their parent |
| WindowHandles.ClientButtonCollection.Insert | Wpf/WindowHandle_1.cs:140-144 | an index outside 0..Count fails with nothing changed; otherwise the button is inserted at the index, and so is its element unless it already has a parent, which fails after the list insert |
| WindowHandles.ClientButtonCollection.RemoveAt | Wpf/WindowHandle_1.cs:146-150 | an out-of-range index fails; otherwise both are removed at the index and stay aligned, and the removed element loses its parent |
| WindowHandles.ClientButtonCollection.Remove | Wpf/WindowHandle_1.cs:117-123 | reports whether the button was present; removes its first occurrence and its element, at the same index; the element loses its parent |
| WindowHandles.ClientButtonCollection.RemoveChild | Wpf/WindowHandle_1.cs:120 | the panel drops the element and stops being its parent; an element it does not show is left alone |
| WindowHandles.ClientButtonCollection.RemoveObject | Wpf/WindowHandle_1.cs:121 | the list drops the button's first occurrence and reports whether it held one |
| WindowHandles.ClientButtonCollection.Set | Wpf/WindowHandle_1.cs:59-63 | an out-of-range index fails; otherwise the button at the index is replaced, and so is the panel child unless the new element already has a parent; the old element loses its parent |
| WindowHandles.RemovedAtStaysAligned | Wpf/WindowHandle_1.cs:146-150 | removing the same index from both lists keeps them aligned |
| WindowHandles.SameIndex | Wpf/WindowHandle_1.cs:135-138 | in aligned lists a button and its element have the same index |
| WindowHandles.RemoveFirstStaysAligned | Wpf/WindowHandle_1.cs:117-123 | removing a held button and its element removes the same index from both and keeps them aligned |
| WindowHandles.RemovedElementGone | Wpf/WindowHandle_1.cs:146-150 | an element removed from a panel of distinct elements is no longer shown |
| WindowHandles.WindowHandle.constructor | Wpf/WindowHandle_1.cs:335-354 | a new handle is 30 high, and its grid is 30 high |
| WindowHandles.WindowHandle.SetHeight | Wpf/WindowHandle_1.cs:396-408 | the handle, grid and caption take the height; when it is larger and fits the window, the exit, minimise, maximise and settings buttons take it through the as-written height setter while the fullscreen button keeps its height; the buttons never shrink |

## Left out

- Styles, colours, hover brushes and `UpdateButtonColors`: presentation only.
- Image loading, XAML settings content (`SettingsButtonXmlSource`, `SettingsButtonContent`) and `Helper.SetImageSource`: file and URI I/O. An image is its source string.
- The Win32 calls `GetMonitorInfo`, `MonitorFromWindow`, the window-procedure hook and `Marshal`: foreign calls. The monitor information is an input to `WmGetMinMaxInfo`, and `None` stands for no monitor.
- WPF measure and arrange: a text block's actual width, an option's actual size and a menu's absolute screen point are inputs. The screen size is a parameter of `Fullscreen`.
- Event wiring is not modelled as such:
  - the `OnFullscreen` event;
  - `Loaded` and mouse handlers;
  - the client button's click-to-toggle wiring and `SetWindowChromeActive`;
  - the option's `CanBeMeasured`/`OnMeasurable` firing, which caches the name width, collapses the option and places its nested menu.
  The handlers are modelled as the methods they call.
- `ClientButtonCollection.CopyTo`, `GetEnumerator` and `IsReadOnly`: plain delegation to the list.
- `RECT.ToString`, `PopupMenu.Instanciate` (an empty method), `SetCanvas`, `AddSymbol`, `SetKeyboardShortcut`, `AddIcon` and `PopupMenuOption.SetAction`: no state the model tracks.
- `Math.cs`, `WindowHandle.cs` and `WindowWrapper.cs` are not part of this model. `WindowWrapping` keeps only its rounded-corner flag.
- `double` arithmetic is modelled as exact `real` arithmetic, so rounding is not captured.
- Menu structures with a cycle (a menu nested, directly or not, in one of its own options): the source's recursion never ends on them, and no scope ranks them, so the recursive menu operations are not modelled there. Every other structure, in any build order and grown at any time, has a scope.
- PopupMenus.PopupMenu.OptionClicked: that the clicked option's nested menu keeps its visibility is promised only in a held structure, where no menu lists an option twice, every option is shown by the menu that lists it and every nested menu is held by its option. A structure that breaks this, for example through a failed add, can share a menu between siblings, and collapsing one sibling then reaches it.
- PopupMenus.PopupMenu.Click: its toggle of the clicked option is promised only in a held structure, as for `OptionClicked`.
- PopupMenus.PopupMenu.CollapseOthers: as for `OptionClicked`, the clicked option's nested menu keeps its visibility only in a held structure.
- PopupMenus.PopupMenu.CollapseOther: the other options' arrows and the clicked option's nested menu are kept only in a held structure.
- PopupMenus.PopupMenu.AddOption: requires that the menu lists no option twice and that every option it lists is shown by some menu. Adds through this model keep both, except that re-adding an option the menu already shows fails with the option listed twice; the source would go on measuring such a list, and the model does not follow it there.
- PopupMenus.PopupMenu.WriteCell: requires that the menu lists no option twice. A failed re-add (the append at Wpf/PopupMenu.cs:91 comes before the throw at :92) leaves an option listed twice, and the source still measures that list; there one write changes every entry holding that option, which the model does not follow.
- PopupMenus.PopupMenu.AlignOption: requires that the menu lists no option twice; the list with a duplicate that a failed re-add leaves behind is not modelled, as for `WriteCell`.
- PopupMenus.PopupMenu.MeasureAndArrange: requires that the menu lists no option twice; how the source aligns a list holding one option twice after a failed re-add is not modelled, as for `WriteCell`.
- PopupMenus.PopupMenu.Fit: requires that the menu lists no option twice; fitting a list with the duplicate a failed re-add leaves is not modelled, as for `WriteCell`.
- PopupMenus.PopupMenu.Remeasure: requires that the menu lists no option twice; re-measuring a list with the duplicate a failed re-add leaves is not modelled, as for `WriteCell`.
- PopupMenus.PopupMenuOption.constructor: requires the nested menu not to be held by another option. The toolkit throws when a second container adopts a menu, and no option is created.
- PopupMenus.PopupMenu: `holder` records only the option whose container shows a nested menu; a window or other element hosting a top menu is not modelled.
- DropDownMenus.MenuOption.UpdateMenuPosition: the child menu's own move is promised in any structure; the cascade of the menus below it only in a linked structure, as for `UpdateMenuPositionWithChildren`.
- DropDownMenus.DropDownMenu.PositionChildren: promises the children's cascade only in a linked structure. In an unlinked one a child menu reached through two options ends wherever the later visit puts it, and a child that names other parents goes where they say; the model promises only that no menu outside this one's subtree moves and that this menu stays.
- DropDownMenus.DropDownMenu.PositionChild: child i's move to the position its parents give holds in any structure; that it ends placed at its cascade position, and that the other children stay placed, only in a linked structure.
- DropDownMenus.DropDownMenu.PlaceChild: child i's move to the position its parents give holds in any structure; that it ends placed at its cascade position, with the menus below it cascaded, only in a linked structure.
- DropDownMenus.DropDownMenu.UpdateMenuPositionWithChildren: the cascade is promised only in a linked structure, where no menu lists an option twice and every child menu names its option and that option's menu as its parents; the source positions a child from whatever parents it names.
- Helper.ColorDigits: strings are sequences of Unicode scalar values, while .NET strings count UTF-16 code units. A character outside the Basic Multilingual Plane counts once here and twice in the source, so it shifts which eight characters `Substring` reads.
- Helper.StringToBrush: its length tests count Unicode scalar values, not UTF-16 code units. With a character outside the Basic Multilingual Plane the reported error can differ: "😀1234567" is the invalid-colour error in the source (length 9) and a format error here, and "#😀123456" is a format error in the source and ArgumentOutOfRange here.
- ApplicationButtons.ApplicationButtonCollection.Fullscreen: the handler at Wpf/ApplicationButtonCollection.cs:689-720 branches on `isFullscreen`, so it toggles: a first call saves the window and fills the screen, a second call restores the saved window (`FullscreenToggled`, `FullscreenRoundTrip`). Calling it twice is not idempotent.
- DropDownMenus.DropDownMenu.ToggleVisibility: a Hidden menu (neither Visible nor Collapsed) stays Hidden, as the code's two branches imply.

## Findings

| source | as written | input that shows it | evidently intended | confidence | as-written member | corrected member |
|---|---|---|---|---|---|---|
| Wpf/PopupMenu.cs:133 | each option's `DesiredWidth` is the widest option at the moment that option is aligned, before later options are aligned | two fresh options, both with a nested menu and no icon: the first records 114, because the second still has its 22-wide icon cell; the border is 92 | every option's desired width, and so its nested-menu position, equals the final border width | medium, not executed | PopupMenus.StaleDesiredWidth | PopupMenus.ArrangedIntendedAligns |
| Wpf/ApplicationButtonCollection.cs:612-625 | `OverrideMinimize` and `OverrideMaximize` change the exit button's handlers | exit handlers [Shutdown], minimise handlers [Minimize], then OverrideMinimize(a): exit runs Shutdown and a, minimise still minimises | the minimise and maximise buttons get the action | high, not executed | ApplicationButtons.MinimizeOverrideHitsExitButton | ApplicationButtons.ApplicationButtonCollection.OverrideMinimizeIntended |
| Wpf/ApplicationButtonCollection.cs:60-94 | the Height and Width setters resize four buttons, but not the fullscreen button | a collection with a fullscreen button, height set from 30 to 20: the fullscreen button stays 30 high; `WindowHandle.SetHeight` raising the buttons leaves it behind the same way | all existing buttons take the new size, as `UpdateButtonSize` does | medium, not executed | ApplicationButtons.HeightSetterSkipsFullscreenButton | ApplicationButtons.ApplicationButtonCollection.SetHeightIntended |
| Wpf/ApplicationButtonCollection.cs:212 | the maximised-state image is shown when the window is Maximized, while the Maximize handler shows it only when the window is Normal | a maximised window showing the restore image, then setting the maximised-state image: it replaces the restore image | show it when the window is Normal | medium, not executed | ApplicationButtons.MaximizedSourceShownWhileMaximized | ApplicationButtons.ApplicationButtonCollection.SetMaximizedSourceIntended |
| Wpf/WindowHandle_1.cs:505-509 | `Equals` rejects any object that is not the toolkit's floating-point `Rect`, then casts it to `RECT` | `r.Equals((object)r)` for any RECT r is false; a boxed toolkit `Rect` throws an invalid cast | `Equals` agrees with `==` on a boxed `RECT` | high, not executed | WindowHandles.EqualsNotReflexive | WindowHandles.EqualsIntendedIsEquality |

=== FILE: application_buttons.dfy ===
/**
 * The application buttons of the title bar: exit, minimize and maximize,
 * optional settings and fullscreen buttons, their sprites, sizes and click
 * handlers, and what the built-in handlers do to the window.
 */
module ApplicationButtons {
  import opened Toolkit
  import opened Lists

  /** The size every application button shares; one object stands for the class's static fields. */
  class ButtonSize {
    var width: real
    var height: real

    constructor ()
      ensures width == 40.0 && height == 30.0
    {
      width := 40.0;
      height := 30.0;
    }
  }

  /** The five buttons, also naming the entries of the horizontal panel that shows them. */
  datatype Kind = ExitButton | MinimizeButton | MaximizeButton | SettingsButton | FullscreenButton

  /** The three buttons whose sprite accessors throw until the sprite is activated. */
  predicate Gated(k: Kind) {
    k.ExitButton? || k.MinimizeButton? || k.MaximizeButton?
  }

  /** The two buttons that exist only once they are added. */
  predicate Optional(k: Kind) {
    k.SettingsButton? || k.FullscreenButton?
  }

  /** The panel's layout: optional buttons, then minimize, maximize and exit. */
  predicate PanelShape(panel: seq<Kind>) {
    |panel| >= 3 && panel[|panel| - 3] == MinimizeButton && panel[|panel| - 2] == MaximizeButton &&
    panel[|panel| - 1] == ExitButton &&
    (forall k :: 0 <= k < |panel| - 3 ==> Optional(panel[k]))
  }

  /** Putting an optional button at the left keeps the layout and adds exactly that button. */
  lemma PrependedShape(panel: seq<Kind>, b: Kind)
    requires PanelShape(panel) && Optional(b)
    ensures PanelShape([b] + panel)
    ensures forall c :: c in [b] + panel <==> c == b || c in panel
  {
  }

  /** The handlers a button's click event can hold. */
  datatype ClickHandler =
    | Shutdown
    | MinimizeWindow
    | MaximizeWindow
    | OpenSettings
    | ToggleFullscreen
    | UserAction(id: nat)  // an action handed to one of the override methods

  /** A sprite: a border with a padding holding an image whose source may be unset. */
  datatype Sprite = Sprite(source: Option<string>, padding: Thickness)

  /** A button: its size, its sprite once activated (text content before), its click handlers in order. */
  datatype Button = Button(width: real, height: real, sprite: Option<Sprite>, click: seq<ClickHandler>)

  /** The exceptions the accessors can raise. */
  datatype AccessError =
    | NotActivated   // a sprite accessor used before the sprite was activated
    | NullReference  // an image whose source was never set is read
    | ArgumentNull   // a null image source is written

  /** Position, size and state of the window, as saved before entering fullscreen. */
  datatype WindowSnapshot = WindowSnapshot(state: WindowState, top: real, left: real, width: real, height: real)

  /** Everything the fullscreen handler reads and writes. */
  datatype FullscreenView = FullscreenView(window: WindowSnapshot, isFullscreen: bool,
                                           saved: Option<WindowSnapshot>, roundedCorners: bool)

  /** The button `b` with its activated sprite showing the image `value`; everything else kept. */
  function Sourced(b: Button, value: Option<string>): (r: Button)
    requires b.sprite.Some?
    ensures r.sprite.Some? && r.sprite.value.source == value && r.sprite.value.padding == b.sprite.value.padding
    ensures r.width == b.width && r.height == b.height && r.click == b.click
  {
    b.(sprite := Some(b.sprite.value.(source := value)))
  }

  /** Content and padding of a fresh sprite. */
  const FreshSprite := Sprite(None, DefaultThickness)

  /**
   * The button with a handler replaced: the first handler equal to `h`
   * removed, as a routed event's handler store removes one, and the action
   * appended.
   */
  function Overridden(b: Button, h: ClickHandler, action: nat): (r: Button)
    ensures r.width == b.width && r.height == b.height && r.sprite == b.sprite
    ensures |r.click| == |b.click| + (if h in b.click then 0 else 1)
    ensures multiset(r.click) == multiset(b.click) - multiset{h} + multiset{UserAction(action)}
  {
    b.(click := RemoveFirst(b.click, h) + [UserAction(action)])
  }

  /** Overriding a button's only handler leaves just the action. */
  lemma OverrideReplacesDefault(b: Button, h: ClickHandler, action: nat)
    requires b.click == [h]
    ensures Overridden(b, h, action).click == [UserAction(action)]
  {
  }

  /** Overriding a handler the button does not hold keeps all of its handlers and adds the action. */
  lemma OverrideOfAbsentHandlerKeepsOthers(b: Button, h: ClickHandler, action: nat)
    requires h !in b.click
    ensures Overridden(b, h, action).click == b.click + [UserAction(action)]
    ensures forall g :: g in b.click ==> g in Overridden(b, h, action).click
  {
  }

  /**
   * What the fullscreen handler does: entering saves the window's state and
   * spreads the window over the primary screen with rounded corners;
   * leaving restores the saved state, squares the corners and forgets it.
   */
  function FullscreenToggled(v: FullscreenView, screenWidth: real, screenHeight: real): (r: FullscreenView)
    requires v.isFullscreen ==> v.saved.Some?
    ensures r.isFullscreen == !v.isFullscreen
    ensures r.isFullscreen <==> r.saved.Some?
    ensures r.roundedCorners == r.isFullscreen
  {
    if !v.isFullscreen then
      FullscreenView(WindowSnapshot(Normal, 0.0, 0.0, screenWidth, screenHeight), true, Some(v.window), true)
    else
      FullscreenView(v.saved.value, false, None, false)
  }

  /** Entering and then leaving fullscreen puts the window back where, how large and in which state it was. */
  lemma FullscreenRoundTrip(v: FullscreenView, screenWidth: real, screenHeight: real)
    requires !v.isFullscreen
    ensures var w := FullscreenToggled(FullscreenToggled(v, screenWidth, screenHeight), screenWidth, screenHeight);
            w.window == v.window && !w.isFullscreen && w.saved.None? && !w.roundedCorners
  {
  }

  /** Entering fullscreen covers the primary screen from the origin, whatever the window was before. */
  lemma FullscreenCoversScreen(v: FullscreenView, screenWidth: real, screenHeight: real)
    requires !v.isFullscreen
    ensures FullscreenToggled(v, screenWidth, screenHeight).window ==
            WindowSnapshot(Normal, 0.0, 0.0, screenWidth, screenHeight)
    ensures FullscreenToggled(v, screenWidth, screenHeight).saved == Some(v.window)
  {
  }

  /** The strip of application buttons a window handle shows at the right of its title bar. */
  class ApplicationButtonCollection {
    const window: Window
    const size: ButtonSize
    /** The title-bar grid column that holds the buttons. */
    const column: ColumnDefinition
    const wrap: WindowWrapping

    var isFullscreen: bool
    var prevWindowState: Option<WindowSnapshot>
    var exitSpriteActivated: bool
    var minimizeSpriteActivated: bool
    var maximizeSpriteActivated: bool

    var exitButton: Button
    var minimizeButton: Button
    var maximizeButton: Button
    var settingsButton: Option<Button>
    var fullscreenButton: Option<Button>
    var windowedButtonSource: Option<string>
    var maximizedButtonSource: Option<string>

    /** The buttons in the panel, left to right. */
    var panel: seq<Kind>

    /**
     * The collection's invariant: a window snapshot is held exactly while in
     * fullscreen, a sprite is present exactly when activated (always for the
     * optional buttons), and the panel holds added buttons followed by
     * minimize, maximize and exit.
     */
    ghost predicate Valid()
      reads this
    {
      (isFullscreen <==> prevWindowState.Some?) &&
      (exitSpriteActivated <==> exitButton.sprite.Some?) &&
      (minimizeSpriteActivated <==> minimizeButton.sprite.Some?) &&
      (maximizeSpriteActivated <==> maximizeButton.sprite.Some?) &&
      (settingsButton.Some? ==> settingsButton.value.sprite.Some?) &&
      (fullscreenButton.Some? ==> fullscreenButton.value.sprite.Some?) &&
      PanelShape(panel) &&
      (settingsButton.Some? <==> SettingsButton in panel) &&
      (fullscreenButton.Some? <==> FullscreenButton in panel)
    }

    /** Every button present has the shared size. */
    ghost predicate Sized()
      reads this, size
    {
      HasSize(exitButton) && HasSize(minimizeButton) && HasSize(maximizeButton) &&
      (settingsButton.Some? ==> HasSize(settingsButton.value)) &&
      (fullscreenButton.Some? ==> HasSize(fullscreenButton.value))
    }

    ghost predicate HasSize(b: Button)
      reads size
    {
      b.width == size.width && b.height == size.height
    }

    constructor (window: Window, size: ButtonSize, column: ColumnDefinition, wrap: WindowWrapping)
      ensures this.window == window && this.size == size && this.column == column && this.wrap == wrap
      ensures Valid() && Sized() && !isFullscreen
      ensures exitButton == Button(size.width, size.height, None, [Shutdown])
      ensures minimizeButton == Button(size.width, size.height, None, [MinimizeWindow])
      ensures maximizeButton == Button(size.width, size.height, None, [MaximizeWindow])
      ensures settingsButton.None? && fullscreenButton.None?
      ensures !exitSpriteActivated && !minimizeSpriteActivated && !maximizeSpriteActivated
      ensures windowedButtonSource.None? && maximizedButtonSource.None?
      ensures panel == [MinimizeButton, MaximizeButton, ExitButton]
    {
      this.window := window;
      this.size := size;
      this.column := column;
      this.wrap := wrap;
      isFullscreen := false;
      prevWindowState := None;
      exitSpriteActivated := false;
      minimizeSpriteActivated := false;
      maximizeSpriteActivated := false;
      exitButton := Button(size.width, size.height, None, [Shutdown]);
      minimizeButton := Button(size.width, size.height, None, [MinimizeWindow]);
      maximizeButton := Button(size.width, size.height, None, [MaximizeWindow]);
      settingsButton := None;
      fullscreenButton := None;
      windowedButtonSource := None;
      maximizedButtonSource := None;
      panel := [MinimizeButton, MaximizeButton, ExitButton];
      new;
    }

    /** The button a gated accessor works on. */
    function ButtonOf(k: Kind): Button
      requires Gated(k)
      reads this
    {
      match k
      case ExitButton => exitButton
      case MinimizeButton => minimizeButton
      case _ => maximizeButton
    }

    function SpriteActivated(k: Kind): bool
      requires Gated(k)
      reads this
    {
      match k
      case ExitButton => exitSpriteActivated
      case MinimizeButton => minimizeSpriteActivated
      case _ => maximizeSpriteActivated
    }

    /** The optional button `k`, if it was added. */
    function OptionalButton(k: Kind): Option<Button>
      requires Optional(k)
      reads this
    {
      if k.SettingsButton? then settingsButton else fullscreenButton
    }

    /** Reading the image source of the exit, minimize or maximize button. */
    function ImageSource(k: Kind): (r: Result<string, AccessError>)
      requires Gated(k) && Valid()
      reads this
      ensures r == Err(NotActivated) <==> !SpriteActivated(k)
      ensures r.Ok? ==> SpriteActivated(k) && ButtonOf(k).sprite.value.source == Some(r.value)
      ensures SpriteActivated(k) && ButtonOf(k).sprite.value.source.Some? ==> r.Ok?
    {
      if !SpriteActivated(k) then Err(NotActivated)
      else match ButtonOf(k).sprite.value.source
        case None => Err(NullReference)
        case Some(s) => Ok(s)
    }

    /** Reading the image padding of the exit, minimize or maximize button. */
    function ImagePadding(k: Kind): (r: Result<Thickness, AccessError>)
      requires Gated(k) && Valid()
      reads this
      ensures r.Err? <==> !SpriteActivated(k)
      ensures r.Err? ==> r.error == NotActivated
      ensures r.Ok? ==> ButtonOf(k).sprite.value.padding == r.value
    {
      if !SpriteActivated(k) then Err(NotActivated) else Ok(ButtonOf(k).sprite.value.padding)
    }

    /** Reading the image source of the settings or fullscreen button; nothing while it is absent. */
    function OptionalImageSource(k: Kind): (r: Result<Option<string>, AccessError>)
      requires Optional(k) && Valid()
      reads this
      ensures OptionalButton(k).None? ==> r == Ok(None)
      ensures r.Err? ==> r.error == NullReference
      ensures r.Ok? && r.value.Some? ==> OptionalButton(k).value.sprite.value.source == r.value
      ensures OptionalButton(k).Some? && OptionalButton(k).value.sprite.value.source.Some? ==>
        r == Ok(OptionalButton(k).value.sprite.value.source)
      ensures OptionalButton(k).Some? && OptionalButton(k).value.sprite.value.source.None? ==> r == Err(NullReference)
    {
      match OptionalButton(k)
      case None => Ok(None)
      case Some(b) =>
        match b.sprite.value.source
        case None => Err(NullReference)
        case Some(s) => Ok(Some(s))
    }

    /** Reading the image padding of the settings or fullscreen button; zero while it is absent. */
    function OptionalImagePadding(k: Kind): (r: Thickness)
      requires Optional(k) && Valid()
      reads this
      ensures OptionalButton(k).None? ==> r == DefaultThickness
      ensures OptionalButton(k).Some? ==> r == OptionalButton(k).value.sprite.value.padding
    {
      match OptionalButton(k)
      case None => DefaultThickness
      case Some(b) => b.sprite.value.padding
    }

    /** Replaces the button a gated accessor works on. */
    method SetButton(k: Kind, b: Button)
      requires Gated(k)
      modifies this`exitButton, this`minimizeButton, this`maximizeButton
      ensures exitButton == (if k.ExitButton? then b else old(exitButton))
      ensures minimizeButton == (if k.MinimizeButton? then b else old(minimizeButton))
      ensures maximizeButton == (if k.MaximizeButton? then b else old(maximizeButton))
    {
      match k
      case ExitButton => exitButton := b;
      case MinimizeButton => minimizeButton := b;
      case MaximizeButton => maximizeButton := b;
    }

    /** Prepares the exit, minimize or maximize button to show an image. */
    method ActivateSprite(k: Kind)
      requires Gated(k) && Valid()
      modifies this`exitButton, this`minimizeButton, this`maximizeButton
      modifies this`exitSpriteActivated, this`minimizeSpriteActivated, this`maximizeSpriteActivated
      ensures Valid()
      ensures ButtonOf(k) == old(ButtonOf(k)).(sprite := Some(FreshSprite))
      ensures ImageSource(k) == Err(NullReference) && ImagePadding(k) == Ok(DefaultThickness)
      ensures !k.ExitButton? ==> exitButton == old(exitButton)
      ensures !k.MinimizeButton? ==> minimizeButton == old(minimizeButton)
      ensures !k.MaximizeButton? ==> maximizeButton == old(maximizeButton)
      ensures forall j :: Gated(j) && j != k ==> SpriteActivated(j) == old(SpriteActivated(j))
    {
      SetButton(k, ButtonOf(k).(sprite := Some(FreshSprite)));
      match k
      case ExitButton => exitSpriteActivated := true;
      case MinimizeButton => minimizeSpriteActivated := true;
      case MaximizeButton => maximizeSpriteActivated := true;
    }

    /** Writing the image source of the exit, minimize or maximize button. */
    method SetImageSource(k: Kind, value: Option<string>) returns (r: Outcome<AccessError>)
      requires Gated(k) && Valid()
      modifies this`exitButton, this`minimizeButton, this`maximizeButton
      ensures Valid()
      ensures !SpriteActivated(k) ==> r == Fail(NotActivated)
      ensures SpriteActivated(k) && value.None? ==> r == Fail(ArgumentNull)
      ensures SpriteActivated(k) && value.Some? ==> r == Pass
      ensures r.Fail? ==> ButtonOf(k) == old(ButtonOf(k))
      ensures r.Pass? ==> ImageSource(k) == Ok(value.value) && ImagePadding(k) == old(ImagePadding(k))
      ensures r.Pass? ==> ButtonOf(k).click == old(ButtonOf(k).click)
      ensures r.Pass? ==> ButtonOf(k) == Sourced(old(ButtonOf(k)), value)
      ensures !k.ExitButton? ==> exitButton == old(exitButton)
      ensures !k.MinimizeButton? ==> minimizeButton == old(minimizeButton)
      ensures !k.MaximizeButton? ==> maximizeButton == old(maximizeButton)
    {
      if !SpriteActivated(k) {
        return Fail(NotActivated);
      }
      if value.None? {
        return Fail(ArgumentNull);
      }
      SetButton(k, Sourced(ButtonOf(k), value));
      r := Pass;
    }

    /** Writing the image padding of the exit, minimize or maximize button. */
    method SetImagePadding(k: Kind, value: Thickness) returns (r: Outcome<AccessError>)
      requires Gated(k) && Valid()
      modifies this`exitButton, this`minimizeButton, this`maximizeButton
      ensures Valid()
      ensures r == Fail(NotActivated) <==> !SpriteActivated(k)
      ensures SpriteActivated(k) ==> r == Pass
      ensures r.Fail? ==> ButtonOf(k) == old(ButtonOf(k))
      ensures r.Pass? ==> ImagePadding(k) == Ok(value) && ImageSource(k) == old(ImageSource(k))
      ensures !k.ExitButton? ==> exitButton == old(exitButton)
      ensures !k.MinimizeButton? ==> minimizeButton == old(minimizeButton)
      ensures !k.MaximizeButton? ==> maximizeButton == old(maximizeButton)
    {
      if !SpriteActivated(k) {
        return Fail(NotActivated);
      }
      var b := ButtonOf(k);
      SetButton(k, b.(sprite := Some(b.sprite.value.(padding := value))));
      r := Pass;
    }

    /** Writing the image source of the settings or fullscreen button; nothing happens while it is absent. */
    method SetOptionalImageSource(k: Kind, value: Option<string>) returns (r: Outcome<AccessError>)
      requires Optional(k) && Valid()
      modifies this`settingsButton, this`fullscreenButton
      ensures Valid()
      ensures old(OptionalButton(k)).None? ==> r == Pass && OptionalButton(k).None?
      ensures old(OptionalButton(k)).Some? && value.None? ==> r == Fail(ArgumentNull)
      ensures old(OptionalButton(k)).Some? && value.Some? ==> r == Pass && OptionalImageSource(k) == Ok(value)
      ensures r.Fail? ==> OptionalButton(k) == old(OptionalButton(k))
      ensures r.Pass? && old(OptionalButton(k)).Some? ==>
        OptionalImageSource(k) == Ok(value) && OptionalImagePadding(k) == old(OptionalImagePadding(k))
      ensures forall j :: Optional(j) && j != k ==> OptionalButton(j) == old(OptionalButton(j))
    {
      match OptionalButton(k)
      case None => return Pass;
      case Some(b) =>
        if value.None? {
          return Fail(ArgumentNull);
        }
        var nb := b.(sprite := Some(b.sprite.value.(source := value)));
        if k.SettingsButton? { settingsButton := Some(nb); } else { fullscreenButton := Some(nb); }
        r := Pass;
    }

    /** Writing the image padding of the settings or fullscreen button; nothing happens while it is absent. */
    method SetOptionalImagePadding(k: Kind, value: Thickness)
      requires Optional(k) && Valid()
      modifies this`settingsButton, this`fullscreenButton
      ensures Valid()
      ensures old(OptionalButton(k)).None? ==> OptionalButton(k).None?
      ensures old(OptionalButton(k)).Some? ==>
        OptionalImagePadding(k) == value && OptionalImageSource(k) == old(OptionalImageSource(k))
      ensures forall j :: Optional(j) && j != k ==> OptionalButton(j) == old(OptionalButton(j))
    {
      match OptionalButton(k)
      case None =>
      case Some(b) =>
        var nb := b.(sprite := Some(b.sprite.value.(padding := value)));
        if k.SettingsButton? { settingsButton := Some(nb); } else { fullscreenButton := Some(nb); }
    }

    /**
     * The maximize button shows the image that leads out of the window's
     * state: the windowed image while maximized, the maximized image while
     * windowed.
     */
    ghost predicate ImageMatchesState()
      reads this, window
    {
      maximizeSpriteActivated && maximizeButton.sprite.Some? ==>
        (window.state == Maximized ==> maximizeButton.sprite.value.source == windowedButtonSource) &&
        (window.state == Normal ==> maximizeButton.sprite.value.source == maximizedButtonSource)
    }

    /** Reading the stored image for a maximized window. */
    function MaximizedSource(): (r: Result<Option<string>, AccessError>)
      reads this
      ensures r.Err? <==> !maximizeSpriteActivated
      ensures r.Ok? ==> r.value == maximizedButtonSource
    {
      if !maximizeSpriteActivated then Err(NotActivated) else Ok(maximizedButtonSource)
    }

    /** Reading the stored image for a windowed window. */
    function WindowedSource(): (r: Result<Option<string>, AccessError>)
      reads this
      ensures r.Err? <==> !maximizeSpriteActivated
      ensures r.Ok? ==> r.value == windowedButtonSource
    {
      if !maximizeSpriteActivated then Err(NotActivated) else Ok(windowedButtonSource)
    }

    /**
     * Storing the image for a maximized window, as written: the maximize
     * button shows it at once if the window is maximized.
     */
    method SetMaximizedSource(value: Option<string>) returns (r: Outcome<AccessError>)
      requires Valid()
      modifies this`maximizedButtonSource, this`exitButton, this`minimizeButton, this`maximizeButton
      ensures Valid()
      ensures exitButton == old(exitButton) && minimizeButton == old(minimizeButton)
      ensures !maximizeSpriteActivated ==> r == Fail(NotActivated) && unchanged(this)
      ensures maximizeSpriteActivated ==> MaximizedSource() == Ok(value)
      ensures maximizeSpriteActivated && window.state == Maximized && value.Some? ==>
        r == Pass && ImageSource(MaximizeButton) == Ok(value.value)
      ensures maximizeSpriteActivated && window.state == Maximized && value.None? ==> r == Fail(ArgumentNull)
      ensures window.state != Maximized ==> maximizeButton == old(maximizeButton)
      ensures window.state == Maximized && r.Pass? ==> maximizeButton == Sourced(old(maximizeButton), value)
      ensures r.Fail? ==> maximizeButton == old(maximizeButton)
      ensures maximizeSpriteActivated && window.state != Maximized ==> r == Pass
    {
      if !maximizeSpriteActivated {
        return Fail(NotActivated);
      }
      maximizedButtonSource := value;
      r := Pass;
      if window.state == Maximized {
        r := SetImageSource(MaximizeButton, value);
      }
    }

    /**
     * Storing the image for a maximized window, corrected: the maximize
     * button shows it at once if the window is windowed, which is when the
     * maximize handler would show it.
     */
    method SetMaximizedSourceIntended(value: Option<string>) returns (r: Outcome<AccessError>)
      requires Valid()
      modifies this`maximizedButtonSource, this`exitButton, this`minimizeButton, this`maximizeButton
      ensures Valid()
      ensures exitButton == old(exitButton) && minimizeButton == old(minimizeButton)
      ensures !maximizeSpriteActivated ==> r == Fail(NotActivated) && unchanged(this)
      ensures maximizeSpriteActivated ==> MaximizedSource() == Ok(value)
      ensures maximizeSpriteActivated && window.state == Normal && value.Some? ==>
        r == Pass && ImageSource(MaximizeButton) == Ok(value.value)
      ensures maximizeSpriteActivated && window.state == Normal && value.None? ==> r == Fail(ArgumentNull)
      ensures window.state != Normal ==> maximizeButton == old(maximizeButton)
      ensures window.state == Normal && r.Pass? ==> maximizeButton == Sourced(old(maximizeButton), value)
      ensures r.Fail? ==> maximizeButton == old(maximizeButton)
      ensures maximizeSpriteActivated && window.state != Normal ==> r == Pass
      ensures old(ImageMatchesState()) && r.Pass? ==> ImageMatchesState()
    {
      if !maximizeSpriteActivated {
        return Fail(NotActivated);
      }
      maximizedButtonSource := value;
      r := Pass;
      if window.state == Normal {
        r := SetImageSource(MaximizeButton, value);
      }
    }

    /** Storing the image for a windowed window; the maximize button shows it at once unless the window is windowed. */
    method SetWindowedSource(value: Option<string>) returns (r: Outcome<AccessError>)
      requires Valid()
      modifies this`windowedButtonSource, this`exitButton, this`minimizeButton, this`maximizeButton
      ensures Valid()
      ensures exitButton == old(exitButton) && minimizeButton == old(minimizeButton)
      ensures !maximizeSpriteActivated ==> r == Fail(NotActivated) && unchanged(this)
      ensures maximizeSpriteActivated ==> WindowedSource() == Ok(value)
      ensures maximizeSpriteActivated && window.state != Normal && value.Some? ==>
        r == Pass && ImageSource(MaximizeButton) == Ok(value.value)
      ensures maximizeSpriteActivated && window.state != Normal && value.None? ==> r == Fail(ArgumentNull)
      ensures window.state == Normal ==> maximizeButton == old(maximizeButton)
      ensures window.state != Normal && r.Pass? ==> maximizeButton == Sourced(old(maximizeButton), value)
      ensures r.Fail? ==> maximizeButton == old(maximizeButton)
      ensures maximizeSpriteActivated && window.state == Normal ==> r == Pass
      ensures old(ImageMatchesState()) && r.Pass? ==> ImageMatchesState()
    {
      if !maximizeSpriteActivated {
        return Fail(NotActivated);
      }
      windowedButtonSource := value;
      r := Pass;
      if window.state != Normal {
        r := SetImageSource(MaximizeButton, value);
      }
    }

    /** The minimize handler. */
    method Minimize()
      modifies window`state
      ensures window.state == Minimized
    {
      window.state := Minimized;
    }

    /**
     * The maximize handler: a maximized window becomes windowed, any other
     * becomes maximized, and an activated maximize sprite switches to the
     * stored image for the new state.
     */
    method Maximize() returns (r: Outcome<AccessError>)
      requires Valid()
      modifies window`state, this`exitButton, this`minimizeButton, this`maximizeButton
      ensures Valid()
      ensures exitButton == old(exitButton) && minimizeButton == old(minimizeButton)
      ensures window.state == (if old(window.state) == Maximized then Normal else Maximized)
      ensures !maximizeSpriteActivated ==> r == Pass && maximizeButton == old(maximizeButton)
      ensures r.Pass? ==> ImageMatchesState()
      ensures maximizeSpriteActivated && window.state == Normal ==>
        r == (if maximizedButtonSource.None? then Fail(ArgumentNull) else Pass)
      ensures maximizeSpriteActivated && window.state == Maximized ==>
        r == (if windowedButtonSource.None? then Fail(ArgumentNull) else Pass)
      ensures maximizeSpriteActivated && r.Pass? ==>
        maximizeButton == Sourced(old(maximizeButton),
                                  if window.state == Normal then maximizedButtonSource else windowedButtonSource)
      ensures r.Fail? ==> maximizeButton == old(maximizeButton)
    {
      r := Pass;
      if window.state == Maximized {
        window.state := Normal;
        if maximizeSpriteActivated {
          r := SetImageSource(MaximizeButton, maximizedButtonSource);
        }
      } else {
        window.state := Maximized;
        if maximizeSpriteActivated {
          r := SetImageSource(MaximizeButton, windowedButtonSource);
        }
      }
    }

    /** The state the fullscreen handler reads and writes. */
    ghost function View(): FullscreenView
      reads this, window, wrap
    {
      FullscreenView(WindowSnapshot(window.state, window.top, window.left, window.width, window.height),
                     isFullscreen, prevWindowState, wrap.roundedCorners)
    }

    /** The fullscreen handler; the primary screen's size is a parameter. */
    method Fullscreen(screenWidth: real, screenHeight: real)
      requires Valid()
      modifies this`isFullscreen, this`prevWindowState, window, wrap`roundedCorners
      ensures Valid()
      ensures View() == FullscreenToggled(old(View()), screenWidth, screenHeight)
    {
      if !isFullscreen {
        isFullscreen := true;
        prevWindowState := Some(WindowSnapshot(window.state, window.top, window.left, window.width, window.height));
        window.state := Normal;
        window.left := 0.0;
        window.top := 0.0;
        window.width := screenWidth;
        window.height := screenHeight;
        wrap.roundedCorners := true;
      } else {
        isFullscreen := false;
        var saved := prevWindowState.value;
        window.state := saved.state;
        window.left := saved.left;
        window.top := saved.top;
        window.width := saved.width;
        window.height := saved.height;
        wrap.roundedCorners := false;
        prevWindowState := None;
      }
    }

    /** The height setter, as written: ignored above the window's height, and it skips the fullscreen button. */
    method SetHeight(value: real)
      modifies size`height, this`exitButton, this`minimizeButton, this`maximizeButton, this`settingsButton
      ensures value > window.height ==> size.height == old(size.height) && unchanged(this)
      ensures value <= window.height ==>
        size.height == value &&
        exitButton == old(exitButton).(height := value) &&
        minimizeButton == old(minimizeButton).(height := value) &&
        maximizeButton == old(maximizeButton).(height := value) &&
        settingsButton == (if old(settingsButton).None? then None else Some(old(settingsButton).value.(height := value)))
    {
      if value <= window.height {
        size.height := value;
        exitButton := exitButton.(height := value);
        minimizeButton := minimizeButton.(height := value);
        maximizeButton := maximizeButton.(height := value);
        if settingsButton.Some? {
          settingsButton := Some(settingsButton.value.(height := value));
        }
      }
    }

    /**
     * Whether the collection is valid depends on the buttons only through
     * which of them are present and their sprites.
     */
    twostate lemma ResizedKeepsValid()
      requires unchanged(this`isFullscreen, this`prevWindowState, this`panel)
      requires unchanged(this`exitSpriteActivated, this`minimizeSpriteActivated, this`maximizeSpriteActivated)
      requires exitButton.sprite == old(exitButton.sprite) && minimizeButton.sprite == old(minimizeButton.sprite)
      requires maximizeButton.sprite == old(maximizeButton.sprite)
      requires settingsButton.Some? == old(settingsButton.Some?)
      requires settingsButton.Some? ==> settingsButton.value.sprite == old(settingsButton.value.sprite)
      requires fullscreenButton.Some? == old(fullscreenButton.Some?)
      requires fullscreenButton.Some? ==> fullscreenButton.value.sprite == old(fullscreenButton.value.sprite)
      ensures Valid() <==> old(Valid())
    {
    }

    /** The height setter, corrected: every button present takes the new height. */
    method SetHeightIntended(value: real)
      modifies size`height, this`exitButton, this`minimizeButton, this`maximizeButton
      modifies this`settingsButton, this`fullscreenButton
      ensures value > window.height ==> size.height == old(size.height) && unchanged(this)
      ensures value <= window.height ==>
        size.height == value &&
        exitButton == old(exitButton).(height := value) &&
        minimizeButton == old(minimizeButton).(height := value) &&
        maximizeButton == old(maximizeButton).(height := value) &&
        settingsButton == (if old(settingsButton).None? then None else Some(old(settingsButton).value.(height := value))) &&
        fullscreenButton == (if old(fullscreenButton).None? then None else Some(old(fullscreenButton).value.(height := value)))
      ensures old(Sized()) ==> Sized()
      ensures Valid() <==> old(Valid())
    {
      if value <= window.height {
        size.height := value;
        exitButton := exitButton.(height := value);
        minimizeButton := minimizeButton.(height := value);
        maximizeButton := maximizeButton.(height := value);
        if settingsButton.Some? {
          settingsButton := Some(settingsButton.value.(height := value));
        }
        if fullscreenButton.Some? {
          fullscreenButton := Some(fullscreenButton.value.(height := value));
        }
      }
      ResizedKeepsValid();
    }

    /** The width setter, as written: ignored above a third of the window's width, and it skips the fullscreen button. */
    method SetWidth(value: real)
      modifies size`width, this`exitButton, this`minimizeButton, this`maximizeButton, this`settingsButton
      ensures value > window.width / 3.0 ==> size.width == old(size.width) && unchanged(this)
      ensures value <= window.width / 3.0 ==>
        size.width == value &&
        exitButton == old(exitButton).(width := value) &&
        minimizeButton == old(minimizeButton).(width := value) &&
        maximizeButton == old(maximizeButton).(width := value) &&
        settingsButton == (if old(settingsButton).None? then None else Some(old(settingsButton).value.(width := value)))
    {
      if value <= window.width / 3.0 {
        size.width := value;
        exitButton := exitButton.(width := value);
        minimizeButton := minimizeButton.(width := value);
        maximizeButton := maximizeButton.(width := value);
        if settingsButton.Some? {
          settingsButton := Some(settingsButton.value.(width := value));
        }
      }
    }

    /** The width setter, corrected: every button present takes the new width. */
    method SetWidthIntended(value: real)
      modifies size`width, this`exitButton, this`minimizeButton, this`maximizeButton
      modifies this`settingsButton, this`fullscreenButton
      ensures value > window.width / 3.0 ==> size.width == old(size.width) && unchanged(this)
      ensures value <= window.width / 3.0 ==>
        size.width == value &&
        exitButton == old(exitButton).(width := value) &&
        minimizeButton == old(minimizeButton).(width := value) &&
        maximizeButton == old(maximizeButton).(width := value) &&
        settingsButton == (if old(settingsButton).None? then None else Some(old(settingsButton).value.(width := value))) &&
        fullscreenButton == (if old(fullscreenButton).None? then None else Some(old(fullscreenButton).value.(width := value)))
      ensures old(Sized()) ==> Sized()
      ensures Valid() <==> old(Valid())
    {
      if value <= window.width / 3.0 {
        size.width := value;
        exitButton := exitButton.(width := value);
        minimizeButton := minimizeButton.(width := value);
        maximizeButton := maximizeButton.(width := value);
        if settingsButton.Some? {
          settingsButton := Some(settingsButton.value.(width := value));
        }
        if fullscreenButton.Some? {
          fullscreenButton := Some(fullscreenButton.value.(width := value));
        }
      }
      ResizedKeepsValid();
    }

    /** Gives every button present the shared size. */
    method UpdateButtonSize()
      modifies this`exitButton, this`minimizeButton, this`maximizeButton
      modifies this`settingsButton, this`fullscreenButton
      ensures Sized()
      ensures Valid() <==> old(Valid())
      ensures exitButton == old(exitButton).(width := size.width, height := size.height)
      ensures minimizeButton == old(minimizeButton).(width := size.width, height := size.height)
      ensures maximizeButton == old(maximizeButton).(width := size.width, height := size.height)
      ensures settingsButton.Some? <==> old(settingsButton).Some?
      ensures settingsButton.Some? ==>
        settingsButton.value == old(settingsButton).value.(width := size.width, height := size.height)
      ensures fullscreenButton.Some? <==> old(fullscreenButton).Some?
      ensures fullscreenButton.Some? ==>
        fullscreenButton.value == old(fullscreenButton).value.(width := size.width, height := size.height)
    {
      exitButton := exitButton.(width := size.width, height := size.height);
      minimizeButton := minimizeButton.(width := size.width, height := size.height);
      maximizeButton := maximizeButton.(width := size.width, height := size.height);
      if settingsButton.Some? {
        settingsButton := Some(settingsButton.value.(width := size.width, height := size.height));
      }
      if fullscreenButton.Some? {
        fullscreenButton := Some(fullscreenButton.value.(width := size.width, height := size.height));
      }
      ResizedKeepsValid();
    }

    /**
     * Adds a settings button with a fresh sprite at the left of the panel
     * and widens the column to fit one more button.
     */
    method AddSettingsButton()
      requires Valid()
      modifies this`settingsButton, this`panel, column`width
      modifies this`exitButton, this`minimizeButton, this`maximizeButton, this`fullscreenButton
      ensures Valid() && Sized()
      ensures column.width == (|old(panel)| + 1) as real * size.width
      ensures panel == [SettingsButton] + old(panel)
      ensures settingsButton == Some(Button(size.width, size.height, Some(FreshSprite), [OpenSettings]))
      ensures exitButton.sprite == old(exitButton.sprite) && exitButton.click == old(exitButton.click)
      ensures minimizeButton.sprite == old(minimizeButton.sprite) && minimizeButton.click == old(minimizeButton.click)
      ensures maximizeButton.sprite == old(maximizeButton.sprite) && maximizeButton.click == old(maximizeButton.click)
      ensures fullscreenButton.Some? <==> old(fullscreenButton).Some?
    {
      settingsButton := Some(Button(0.0, 0.0, Some(FreshSprite), [OpenSettings]));
      column.width := (|panel| + 1) as real * size.width;
      PrependedShape(panel, SettingsButton);
      panel := [SettingsButton] + panel;
      UpdateButtonSize();
    }

    /**
     * Adds a fullscreen button with a fresh sprite at the left of the panel
     * and widens the column to fit one more button.
     */
    method AddFullcreenButton()
      requires Valid()
      modifies this`fullscreenButton, this`panel, column`width
      modifies this`exitButton, this`minimizeButton, this`maximizeButton, this`settingsButton
      ensures Valid() && Sized()
      ensures column.width == (|old(panel)| + 1) as real * size.width
      ensures panel == [FullscreenButton] + old(panel)
      ensures fullscreenButton == Some(Button(size.width, size.height, Some(FreshSprite), [ToggleFullscreen]))
      ensures exitButton.sprite == old(exitButton.sprite) && exitButton.click == old(exitButton.click)
      ensures minimizeButton.sprite == old(minimizeButton.sprite) && minimizeButton.click == old(minimizeButton.click)
      ensures maximizeButton.sprite == old(maximizeButton.sprite) && maximizeButton.click == old(maximizeButton.click)
      ensures settingsButton.Some? <==> old(settingsButton).Some?
    {
      fullscreenButton := Some(Button(0.0, 0.0, Some(FreshSprite), [ToggleFullscreen]));
      column.width := (|panel| + 1) as real * size.width;
      PrependedShape(panel, FullscreenButton);
      panel := [FullscreenButton] + panel;
      UpdateButtonSize();
    }

    /** Replaces the exit button's shutdown handler with an action. */
    method OverrideShutdown(action: nat)
      modifies this`exitButton
      ensures exitButton == Overridden(old(exitButton), Shutdown, action)
    {
      exitButton := Overridden(exitButton, Shutdown, action);
    }

    /** Meant to replace the minimize button's handler; as written it works on the exit button. */
    method OverrideMinimize(action: nat)
      modifies this`exitButton
      ensures exitButton == Overridden(old(exitButton), MinimizeWindow, action)
    {
      exitButton := Overridden(exitButton, MinimizeWindow, action);
    }

    /** Meant to replace the maximize button's handler; as written it works on the exit button. */
    method OverrideMaximize(action: nat)
      modifies this`exitButton
      ensures exitButton == Overridden(old(exitButton), MaximizeWindow, action)
    {
      exitButton := Overridden(exitButton, MaximizeWindow, action);
    }

    /** Replaces the minimize button's own handler with an action. */
    method OverrideMinimizeIntended(action: nat)
      modifies this`minimizeButton
      ensures minimizeButton == Overridden(old(minimizeButton), MinimizeWindow, action)
      ensures old(minimizeButton.click) == [MinimizeWindow] ==> minimizeButton.click == [UserAction(action)]
    {
      if minimizeButton.click == [MinimizeWindow] {
        OverrideReplacesDefault(minimizeButton, MinimizeWindow, action);
      }
      minimizeButton := Overridden(minimizeButton, MinimizeWindow, action);
    }

    /** Replaces the maximize button's own handler with an action. */
    method OverrideMaximizeIntended(action: nat)
      modifies this`maximizeButton
      ensures maximizeButton == Overridden(old(maximizeButton), MaximizeWindow, action)
      ensures old(maximizeButton.click) == [MaximizeWindow] ==> maximizeButton.click == [UserAction(action)]
    {
      if maximizeButton.click == [MaximizeWindow] {
        OverrideReplacesDefault(maximizeButton, MaximizeWindow, action);
      }
      maximizeButton := Overridden(maximizeButton, MaximizeWindow, action);
    }

    /** Replaces the settings button's handler with an action; nothing happens while it is absent. */
    method OverrideSettings(action: nat)
      modifies this`settingsButton
      ensures old(settingsButton).None? ==> settingsButton.None?
      ensures old(settingsButton).Some? ==>
        settingsButton == Some(Overridden(old(settingsButton).value, OpenSettings, action))
    {
      if settingsButton.Some? {
        settingsButton := Some(Overridden(settingsButton.value, OpenSettings, action));
      }
    }

    /** Replaces the fullscreen button's handler with an action; nothing happens while it is absent. */
    method OverrideFullscreen(action: nat)
      modifies this`fullscreenButton
      ensures old(fullscreenButton).None? ==> fullscreenButton.None?
      ensures old(fullscreenButton).Some? ==>
        fullscreenButton == Some(Overridden(old(fullscreenButton).value, ToggleFullscreen, action))
    {
      if fullscreenButton.Some? {
        fullscreenButton := Some(Overridden(fullscreenButton.value, ToggleFullscreen, action));
      }
    }
  }

  /**
   * On a collection with its default handlers, overriding the minimize
   * behaviour leaves the minimize button minimizing and gives the exit
   * button both the shutdown and the action.
   */
  method MinimizeOverrideHitsExitButton(c: ApplicationButtonCollection, action: nat)
    requires c.exitButton.click == [Shutdown] && c.minimizeButton.click == [MinimizeWindow]
    modifies c
    ensures c.minimizeButton.click == [MinimizeWindow]
    ensures c.exitButton.click == [Shutdown, UserAction(action)]
  {
    var e := c.exitButton;
    c.OverrideMinimize(action);
    assert c.exitButton == Overridden(e, MinimizeWindow, action);
    assert RemoveFirst(e.click, MinimizeWindow) == e.click;
  }

  /**
   * With a fullscreen button present, setting the height leaves that button
   * at the old height.
   */
  method HeightSetterSkipsFullscreenButton(c: ApplicationButtonCollection)
    requires c.Valid() && c.Sized() && c.size.height == 30.0 && c.window.height >= 20.0
    modifies c, c.size, c.column
    ensures c.fullscreenButton.Some? && c.fullscreenButton.value.height == 30.0 && c.size.height == 20.0
    ensures !c.Sized()
  {
    c.AddFullcreenButton();
    c.SetHeight(20.0);
  }

  /**
   * While the window is maximized and the button shows the windowed image,
   * storing a new image for the maximized state shows it instead.
   */
  method MaximizedSourceShownWhileMaximized(c: ApplicationButtonCollection)
    requires c.Valid() && c.maximizeSpriteActivated && c.window.state == Maximized
    requires c.windowedButtonSource == Some("restore.png") && c.ImageMatchesState()
    modifies c
    ensures c.maximizeButton.sprite.Some? && c.maximizeButton.sprite.value.source == Some("maximize.png")
    ensures !c.ImageMatchesState()
  {
    var r := c.SetMaximizedSource(Some("maximize.png"));
    assert "maximize.png"[0] != "restore.png"[0];
  }
}

=== FILE: drop_down_menu.dfy ===
/**
 * The drop-down menu: a vertical panel of options whose name and shortcut
 * columns are aligned, whose options can open child menus, and whose
 * menus are hidden, recoloured and positioned along the tree of child
 * menus.
 */
module DropDownMenus {
  import opened Toolkit
  import Helper
  import Lists

  /** The height an option gets when none is given. */
  const DefaultOptionHeight := 22.0
  /** The arrow text of an option without a child menu, and of one with a child menu. */
  const PlainArrow := " "
  const SubmenuArrow := ">"
  /** The panel's starting background, the opaque colour 2e2e2e. */
  const InitialBackground := Helper.Color(255, 0x2e, 0x2e, 0x2e)

  /**
   * The exceptions of the menu: the maximum of no widths, an index outside
   * the options, and a grid added to a panel while another panel holds it.
   */
  datatype MenuError = EmptySequence | ArgumentOutOfRange | ElementHasParent

  /** A grid column's width: sized to its content, or a fixed number of pixels. */
  datatype GridLength = Auto | Pixels(width: real)

  /** The two columns of an option that the menu aligns. */
  datatype GridColumn = NameColumn | ShortcutColumn

  /** What a click on an option runs, in the order the commands were added. */
  datatype Command = HideChildrenMenusOf(menu: DropDownMenu) | ToggleVisibilityOf(menu: DropDownMenu) | UserCommand(id: nat)

  /** The visibility `ToggleVisibility` leaves: visible and collapsed swap, hidden stays. */
  function Toggled(v: Visibility): (r: Visibility)
    ensures r == Hidden <==> v == Hidden
    ensures v != Hidden ==> r != v
  {
    match v
    case Visible => Collapsed
    case Collapsed => Visible
    case Hidden => Hidden
  }

  /** Toggling twice gives back the visibility toggled. */
  lemma ToggledTwice(v: Visibility)
    ensures Toggled(Toggled(v)) == v
  {
  }

  /** The largest of a non-empty sequence of widths. */
  function SeqMax(s: seq<real>): (m: real)
    requires |s| > 0
    ensures m in s
    ensures forall k :: 0 <= k < |s| ==> s[k] <= m
  {
    if |s| == 1 then s[0]
    else
      var m := SeqMax(s[..|s| - 1]);
      assert s == s[..|s| - 1] + [s[|s| - 1]];
      if s[|s| - 1] > m then s[|s| - 1] else m
  }

  /** The widths the column's content needs, option by option. */
  function Naturals(os: seq<MenuOption>, c: GridColumn): (ws: seq<real>)
    reads (set o | o in os)`nameNatural, (set o | o in os)`shortcutNatural
    ensures |ws| == |os|
  {
    if |os| == 0 then [] else Naturals(os[..|os| - 1], c) + [os[|os| - 1].Natural(c)]
  }

  lemma {:induction false} NaturalsAt(os: seq<MenuOption>, c: GridColumn)
    ensures forall k :: 0 <= k < |os| ==> Naturals(os, c)[k] == os[k].Natural(c)
  {
    if |os| > 0 {
      NaturalsAt(os[..|os| - 1], c);
    }
  }

  /** The widths the toolkit measures for the column, option by option. */
  function Measured(os: seq<MenuOption>, c: GridColumn): (ws: seq<real>)
    reads (set o | o in os)`nameNatural, (set o | o in os)`shortcutNatural
    reads (set o | o in os)`nameColumn, (set o | o in os)`shortcutColumn
    ensures |ws| == |os|
  {
    if |os| == 0 then [] else Measured(os[..|os| - 1], c) + [os[|os| - 1].ActualColumnWidth(c)]
  }

  /** Once every option's column is sized to its content, the measured widths are the content's widths. */
  lemma {:induction false} MeasuredUnderAuto(os: seq<MenuOption>, c: GridColumn)
    requires forall k :: 0 <= k < |os| ==> os[k].Column(c) == Auto
    ensures Measured(os, c) == Naturals(os, c)
  {
    if |os| > 0 {
      MeasuredUnderAuto(os[..|os| - 1], c);
    }
  }

  /** The first index of an option with the given name, or -1. */
  function FindIndex(os: seq<MenuOption>, name: string): (i: int)
    ensures -1 <= i < |os|
    ensures i >= 0 ==> os[i].name == name
    ensures forall k :: 0 <= k < |os| && (i < 0 || k < i) ==> os[k].name != name
  {
    if |os| == 0 then -1
    else if os[0].name == name then 0
    else
      var j := FindIndex(os[1..], name);
      if j < 0 then -1 else j + 1
  }

  /** In a sequence without repetitions, the first index of an element is its index. */
  lemma DistinctIndex<T>(s: seq<T>, i: nat)
    requires i < |s|
    requires forall a, b :: 0 <= a < b < |s| ==> s[a] != s[b]
    ensures Lists.IndexOf(s, s[i]) == i
  {
  }

  /**
   * A ghost view of a structure of drop-down menus: the menus it spans,
   * each with a rank, and the options it spans. The source stores no such
   * thing; the recursive operations take one so that their frames and
   * their termination can be stated.
   */
  datatype Scope = Scope(rank: map<DropDownMenu, nat>, opts: set<MenuOption>)

  /**
   * Every option of a menu in the scope is in it, and so is the child menu
   * of such an option that has one, ranked below the option's menu. A
   * structure has a closed scope exactly when its child menus form no
   * cycle, whatever order it was built in; along a cycle the source's
   * recursion never ends.
   */
  ghost predicate Closed(s: Scope)
    reads s.rank.Keys`options, s.opts`hasMenu, s.opts`childMenu
  {
    forall m, j :: m in s.rank && 0 <= j < |m.options| ==>
      m.options[j] in s.opts &&
      (m.options[j].hasMenu ==> m.options[j].childMenu in s.rank && s.rank[m.options[j].childMenu] < s.rank[m])
  }

  /** The menus reachable from `m` through child menus, `m` included. */
  ghost function Below(s: Scope, m: DropDownMenu): (r: set<DropDownMenu>)
    requires Closed(s) && m in s.rank
    reads s.rank.Keys`options, s.opts`hasMenu, s.opts`childMenu
    ensures m in r && r <= s.rank.Keys
    ensures forall x :: x in r ==> s.rank[x] <= s.rank[m]
    decreases s.rank[m], 1
  {
    {m} + BelowFrom(s, m, |m.options|)
  }

  /** The menus reachable through the child menus of the first `n` options of `m`. */
  ghost function BelowFrom(s: Scope, m: DropDownMenu, n: nat): (r: set<DropDownMenu>)
    requires Closed(s) && m in s.rank && n <= |m.options|
    reads s.rank.Keys`options, s.opts`hasMenu, s.opts`childMenu
    ensures r <= s.rank.Keys
    ensures forall x :: x in r ==> s.rank[x] < s.rank[m]
    decreases s.rank[m], 0, n
  {
    if n == 0 then {}
    else
      BelowFrom(s, m, n - 1) +
      (if m.options[n - 1].hasMenu then Below(s, m.options[n - 1].childMenu) else {})
  }

  lemma {:induction false} BelowFromHas(s: Scope, m: DropDownMenu, n: nat, j: nat)
    requires Closed(s) && m in s.rank && j < n <= |m.options| && m.options[j].hasMenu
    ensures Below(s, m.options[j].childMenu) <= BelowFrom(s, m, n)
    decreases n
  {
    if j < n - 1 {
      BelowFromHas(s, m, n - 1, j);
    }
  }

  lemma {:induction false} BelowFromCases(s: Scope, m: DropDownMenu, n: nat, x: DropDownMenu) returns (j: nat)
    requires Closed(s) && m in s.rank && n <= |m.options| && x in BelowFrom(s, m, n)
    ensures j < n && m.options[j].hasMenu && x in Below(s, m.options[j].childMenu)
    decreases n
  {
    if x in BelowFrom(s, m, n - 1) {
      j := BelowFromCases(s, m, n - 1, x);
    } else {
      j := n - 1;
    }
  }

  /** The menus below a child menu of `m` are below `m`, and `m` is not among them. */
  lemma ChildBelow(s: Scope, m: DropDownMenu, j: nat)
    requires Closed(s) && m in s.rank && j < |m.options| && m.options[j].hasMenu
    ensures Below(s, m.options[j].childMenu) <= Below(s, m) - {m}
  {
    BelowFromHas(s, m, |m.options|, j);
  }

  /** A menu below `m`, other than `m`, is below the child menu of one of `m`'s options. */
  lemma BelowCases(s: Scope, m: DropDownMenu, x: DropDownMenu) returns (j: nat)
    requires Closed(s) && m in s.rank && x in Below(s, m) && x != m
    ensures j < |m.options| && m.options[j].hasMenu && x in Below(s, m.options[j].childMenu)
  {
    j := BelowFromCases(s, m, |m.options|, x);
  }

  /** Whatever is reachable from a menu below `m` is below `m`. */
  lemma {:induction false} BelowTransitive(s: Scope, m: DropDownMenu, y: DropDownMenu)
    requires Closed(s) && m in s.rank && y in Below(s, m)
    ensures Below(s, y) <= Below(s, m)
    decreases s.rank[m]
  {
    if y != m {
      var j := BelowCases(s, m, y);
      ChildBelow(s, m, j);
      BelowTransitive(s, m.options[j].childMenu, y);
    }
  }

  /** A menu below `m`, other than `m`, is the child menu of an option of a menu below `m`. */
  lemma {:induction false} BelowHasParent(s: Scope, m: DropDownMenu, y: DropDownMenu) returns (z: DropDownMenu, k: nat)
    requires Closed(s) && m in s.rank && y in Below(s, m) && y != m
    ensures z in Below(s, m) && k < |z.options| && z.options[k].hasMenu && z.options[k].childMenu == y
    decreases s.rank[m]
  {
    var j := BelowCases(s, m, y);
    var c := m.options[j].childMenu;
    ChildBelow(s, m, j);
    if y == c {
      z, k := m, j;
    } else {
      z, k := BelowHasParent(s, c, y);
    }
  }

  /** The menus below `m` are all collapsed. */
  ghost predicate AllCollapsed(s: Scope, m: DropDownMenu)
    requires Closed(s) && m in s.rank
    reads s.rank.Keys`options, s.opts`hasMenu, s.opts`childMenu, s.rank.Keys`visibility
  {
    forall x :: x in Below(s, m) ==> x.visibility == Collapsed
  }

  /**
   * Below `m`, no menu holds an option twice, and every child menu names
   * its option and that option's menu as its parents.
   */
  ghost predicate Linked(s: Scope, m: DropDownMenu)
    requires Closed(s) && m in s.rank
    reads s.rank.Keys`options, s.opts`hasMenu, s.opts`childMenu
    reads s.rank.Keys`isChildOfMenu, s.rank.Keys`parentMenu, s.rank.Keys`parentOption
  {
    forall x :: x in Below(s, m) ==> x.Distinct() && ParentsNamed(s, x)
  }

  /** Every child menu of an option of `x` names that option and `x` as its parents. */
  ghost predicate ParentsNamed(s: Scope, x: DropDownMenu)
    requires Closed(s) && x in s.rank
    reads s.rank.Keys`options, s.opts`hasMenu, s.opts`childMenu
    reads s.rank.Keys`isChildOfMenu, s.rank.Keys`parentMenu, s.rank.Keys`parentOption
  {
    forall j :: 0 <= j < |x.options| && x.options[j].hasMenu ==>
      x.options[j].childMenu.isChildOfMenu && x.options[j].childMenu.parentMenu == x &&
      x.options[j].childMenu.parentOption == x.options[j]
  }

  /**
   * Below `m`, every child menu sits at its menu's position moved right by
   * its option's width and down by its option's index times the option's
   * height.
   */
  ghost predicate Cascaded(s: Scope, m: DropDownMenu)
    requires Closed(s) && m in s.rank
    reads s.rank.Keys`options, s.opts`hasMenu, s.opts`childMenu
    reads s.rank.Keys`position, s.opts`actualWidth, s.opts`actualHeight
  {
    forall x :: x in Below(s, m) ==> ChildrenPlaced(s, x)
  }

  /** Every child menu of an option of `x` sits at the option's cascade position. */
  ghost predicate ChildrenPlaced(s: Scope, x: DropDownMenu)
    requires Closed(s) && x in s.rank
    reads s.rank.Keys`options, s.opts`hasMenu, s.opts`childMenu, s.opts`actualWidth, s.opts`actualHeight
    reads s.rank.Keys`position
  {
    forall j :: 0 <= j < |x.options| && x.options[j].hasMenu ==>
      x.options[j].childMenu.position == x.CascadeAt(j)
  }

  /**
   * In a linked structure the menus below two different options of one
   * menu are disjoint: each menu names one parent.
   */
  lemma LinkedSeparate(s: Scope, m: DropDownMenu, i: nat, j: nat)
    requires Closed(s) && m in s.rank && Linked(s, m)
    requires i < |m.options| && j < |m.options| && i != j && m.options[i].hasMenu && m.options[j].hasMenu
    ensures Below(s, m.options[i].childMenu) !! Below(s, m.options[j].childMenu)
  {
    forall y | y in Below(s, m.options[i].childMenu) && y in Below(s, m.options[j].childMenu)
      ensures false
    {
      SharedClimb(s, m, i, j, y);
    }
  }

  /** A menu below both of two different options of a linked menu has a parent below both, ranked higher. */
  lemma {:induction false} SharedClimb(s: Scope, m: DropDownMenu, i: nat, j: nat, y: DropDownMenu)
    requires Closed(s) && m in s.rank && Linked(s, m)
    requires i < |m.options| && j < |m.options| && i != j && m.options[i].hasMenu && m.options[j].hasMenu
    requires y in Below(s, m.options[i].childMenu) && y in Below(s, m.options[j].childMenu)
    ensures false
    decreases s.rank[m.options[i].childMenu] - s.rank[y]
  {
    var ci, cj := m.options[i].childMenu, m.options[j].childMenu;
    ChildBelow(s, m, i);
    ChildBelow(s, m, j);
    assert m.Distinct() && ParentsNamed(s, m);
    if y == ci || y == cj {
      var other := if y == ci then cj else ci;
      if y != other {
        var z, k := BelowHasParent(s, other, y);
      }
    } else {
      var zi, ki := BelowHasParent(s, ci, y);
      var zj, kj := BelowHasParent(s, cj, y);
      assert ParentsNamed(s, zi) && ParentsNamed(s, zj);
      SharedClimb(s, m, i, j, zi);
    }
  }

  /**
   * A child menu naming option `i` of `m` and `m` as its parents goes to
   * that option's cascade position, when `m` holds no option twice.
   */
  lemma NamedChildPosition(child: DropDownMenu, m: DropDownMenu, i: nat)
    requires i < |m.options| && m.Distinct()
    requires child.isChildOfMenu && child.parentMenu == m && child.parentOption == m.options[i]
    ensures child.NewPosition() == Some(m.CascadeAt(i))
  {
    DistinctIndex<MenuOption>(m.options, i);
    assert child.NewPosition().value.y == m.position.y + (Lists.IndexOf<MenuOption>(m.options, m.options[i]) as real) * m.options[i].actualHeight;
    assert (Lists.IndexOf<MenuOption>(m.options, m.options[i]) as real) == i as real;
    assert child.NewPosition().value == m.CascadeAt(i);
  }

  /** The element a top-level menu hangs below: its position in the window and its height, both measured by the toolkit. */
  class Anchor {
    var absolute: Point
    var actualHeight: real

    constructor (absolute: Point, actualHeight: real)
      ensures this.absolute == absolute && this.actualHeight == actualHeight
    {
      this.absolute := absolute;
      this.actualHeight := actualHeight;
    }
  }

  /** An option: a grid row with an icon, a name, a keyboard shortcut and an arrow, and possibly a child menu. */
  class MenuOption {
    const name: string
    const height: real
    const parentMenu: DropDownMenu
    var childMenu: DropDownMenu
    var hasMenu: bool
    var arrowText: string
    var commands: seq<Command>
    var nameColumn: GridLength
    var shortcutColumn: GridLength
    /** The menu whose panel holds the option's grid, if any: the toolkit gives an element one parent. */
    var shownIn: DropDownMenu?
    /** What the toolkit measures: the widths the name and the shortcut need, and the option's size. */
    var nameNatural: real
    var shortcutNatural: real
    var actualWidth: real
    var actualHeight: real

    /** A new option of `parentMenu`, with a fresh, empty child menu of the same name that it does not show. */
    constructor (height: real, optionName: string, parentMenu: DropDownMenu)
      ensures this.name == optionName && this.height == height && this.parentMenu == parentMenu
      ensures fresh(childMenu) && childMenu.name == optionName && childMenu.options == []
      ensures !hasMenu && arrowText == PlainArrow && commands == [] && shownIn == null
      ensures nameColumn == Auto && shortcutColumn == Auto
    {
      this.name := optionName;
      this.height := height;
      this.parentMenu := parentMenu;
      childMenu := new DropDownMenu(optionName);
      hasMenu := false;
      arrowText := PlainArrow;
      commands := [];
      nameColumn := Auto;
      shortcutColumn := Auto;
      shownIn := null;
      nameNatural := 0.0;
      shortcutNatural := 0.0;
      actualWidth := 0.0;
      actualHeight := 0.0;
    }

    function Column(c: GridColumn): GridLength
      reads this`nameColumn, this`shortcutColumn
    {
      match c
      case NameColumn => nameColumn
      case ShortcutColumn => shortcutColumn
    }

    function Natural(c: GridColumn): real
      reads this`nameNatural, this`shortcutNatural
    {
      match c
      case NameColumn => nameNatural
      case ShortcutColumn => shortcutNatural
    }

    /** The width the toolkit measures for a column: its content's width when sized to content, its fixed width otherwise. */
    function ActualColumnWidth(c: GridColumn): real
      reads this`nameNatural, this`shortcutNatural, this`nameColumn, this`shortcutColumn
    {
      match Column(c)
      case Auto => Natural(c)
      case Pixels(w) => w
    }

    method SetColumn(c: GridColumn, g: GridLength)
      modifies this`nameColumn, this`shortcutColumn
      ensures Column(c) == g
      ensures forall d :: d != c ==> Column(d) == old(Column(d))
    {
      match c
      case NameColumn => nameColumn := g;
      case ShortcutColumn => shortcutColumn := g;
    }

    /** Adds a command run on a click, after the ones already there. */
    method AddCommand(command: Command) returns (r: MenuOption)
      modifies this`commands
      ensures r == this && commands == old(commands) + [command]
    {
      commands := commands + [command];
      r := this;
    }

    /**
     * Makes `menu` this option's child menu and shows the submenu arrow; a
     * click then hides the child menus of the option's menu and toggles
     * `menu`.
     */
    method AddDropdownMenu(menu: DropDownMenu) returns (r: MenuOption)
      modifies this`arrowText, this`childMenu, this`hasMenu, this`commands
      ensures r == this && childMenu == menu && hasMenu && arrowText == SubmenuArrow
      ensures commands == old(commands) + [HideChildrenMenusOf(parentMenu), ToggleVisibilityOf(menu)]
    {
      arrowText := SubmenuArrow;
      childMenu := menu;
      hasMenu := true;
      var _ := AddCommand(HideChildrenMenusOf(parentMenu));
      r := AddCommand(ToggleVisibilityOf(menu));
    }

    /** Hides the child menu and every menu below it, and no other menu. */
    method HideChildrenMenu(ghost s: Scope)
      requires Closed(s) && childMenu in s.rank
      modifies Below(s, childMenu)`visibility
      ensures AllCollapsed(s, childMenu)
      decreases s.rank[childMenu], 3
    {
      childMenu.HideWidthChildrenMenus(s);
    }

    /** Positions the child menu, then the menus below it; no other menu moves. */
    method UpdateMenuPosition(ghost s: Scope)
      requires Closed(s) && childMenu in s.rank
      modifies Below(s, childMenu)`position, Below(s, childMenu)`offset
      ensures old(childMenu.NewPosition()).None? ==>
                childMenu.position == old(childMenu.position) && childMenu.offset == old(childMenu.offset)
      ensures old(childMenu.NewPosition()).Some? ==>
                childMenu.position == old(childMenu.NewPosition()).value && childMenu.offset == Some(childMenu.position)
      ensures old(Linked(s, childMenu)) ==> Cascaded(s, childMenu)
      decreases s.rank[childMenu], 4
    {
      childMenu.UpdateMenuPositionWithChildren(s);
    }
  }

  /**
   * A drop-down menu. `panel` is the children of the vertical panel the
   * options' grids are placed in; `options` is the list the menu keeps,
   * which an add that throws leaves one option longer than the panel.
   */
  class DropDownMenu {
    const name: string
    var visibility: Visibility
    var background: Helper.Color
    var options: seq<MenuOption>
    var panel: seq<MenuOption>
    var position: Point
    /** The translation the menu is drawn with; none until it is first positioned. */
    var offset: Option<Point>
    var isChildOfMenu: bool
    var parentMenu: DropDownMenu?
    var parentOption: MenuOption?
    var parentElement: Anchor?

    /** No option appears twice. */
    predicate Distinct()
      reads this`options
    {
      forall i, j :: 0 <= i < j < |options| ==> options[i] != options[j]
    }

    /** Where the child menu of option `j` goes: right of the option, down by the option's index times its height. */
    function CascadeAt(j: nat): Point
      requires j < |options|
      reads this`options, this`position, {options[j]}`actualWidth, {options[j]}`actualHeight
    {
      Point(position.x + options[j].actualWidth, position.y + (j as real) * options[j].actualHeight)
    }

    /** A new menu without options, shown, with no parent set. */
    constructor (name: string)
      ensures this.name == name && options == [] && panel == []
      ensures visibility == Visible && background == InitialBackground
      ensures position == Point(0.0, 0.0) && offset == None
      ensures !isChildOfMenu && parentMenu == null && parentOption == null && parentElement == null
    {
      this.name := name;
      visibility := Visible;
      background := InitialBackground;
      options := [];
      panel := [];
      position := Point(0.0, 0.0);
      offset := None;
      isChildOfMenu := false;
      parentMenu := null;
      parentOption := null;
      parentElement := null;
    }

    /** Makes this a top-level menu hanging below `parent`. */
    method Instanciate(parent: Anchor)
      modifies this`parentElement
      ensures parentElement == parent
    {
      parentElement := parent;
    }

    /** Makes this the child menu of `parentOption` in `parentMenu`. */
    method InstanciateChild(parentOption: MenuOption, parentMenu: DropDownMenu)
      modifies this`isChildOfMenu, this`parentMenu, this`parentOption
      ensures isChildOfMenu && this.parentMenu == parentMenu && this.parentOption == parentOption
    {
      isChildOfMenu := true;
      this.parentMenu := parentMenu;
      this.parentOption := parentOption;
    }

    method Show()
      modifies this`visibility
      ensures visibility == Visible
    {
      visibility := Visible;
    }

    method Hide()
      modifies this`visibility
      ensures visibility == Collapsed
    {
      visibility := Collapsed;
    }

    /** Hides a visible menu and shows a collapsed one; a hidden menu stays hidden. */
    method ToggleVisibility()
      modifies this`visibility
      ensures visibility == Toggled(old(visibility))
    {
      if visibility == Visible {
        Hide();
      } else if visibility == Collapsed {
        Show();
      }
    }

    /** Hides every menu below this one; this menu keeps its visibility, and no menu outside changes. */
    method HideChildrenMenus(ghost s: Scope)
      requires Closed(s) && this in s.rank
      modifies (Below(s, this) - {this})`visibility
      ensures visibility == old(visibility)
      ensures forall j :: 0 <= j < |options| && options[j].hasMenu ==> AllCollapsed(s, options[j].childMenu)
      decreases s.rank[this], 1
    {
      var i := 0;
      while i < |options|
        invariant 0 <= i <= |options|
        invariant forall j :: 0 <= j < i && options[j].hasMenu ==> AllCollapsed(s, options[j].childMenu)
      {
        if options[i].hasMenu {
          ChildBelow(s, this, i);
          HideChild(s, i);
        }
        i := i + 1;
      }
    }

    /**
     * Hides the menus below option `i`, extending the run of options whose
     * child menus are hidden by one.
     */
    method HideChild(ghost s: Scope, i: nat)
      requires Closed(s) && this in s.rank && i < |options| && options[i].hasMenu
      requires forall j :: 0 <= j < i && options[j].hasMenu ==> AllCollapsed(s, options[j].childMenu)
      modifies Below(s, options[i].childMenu)`visibility
      ensures forall j :: 0 <= j <= i && options[j].hasMenu ==> AllCollapsed(s, options[j].childMenu)
      decreases s.rank[this], 0
    {
      var hidden := options[i].childMenu;
      options[i].HideChildrenMenu(s);
      forall j | 0 <= j < i && options[j].hasMenu
        ensures AllCollapsed(s, options[j].childMenu)
      {
        var c := options[j].childMenu;
        assert old(AllCollapsed(s, c));
        forall x | x in Below(s, c)
          ensures x.visibility == Collapsed
        {
          assert old(x.visibility) == Collapsed;
          if x !in Below(s, hidden) {
            assert x.visibility == old(x.visibility);
          }
        }
      }
    }

    /** Hides this menu and every menu below it, and no other menu. */
    method HideWidthChildrenMenus(ghost s: Scope)
      requires Closed(s) && this in s.rank
      modifies Below(s, this)`visibility
      ensures AllCollapsed(s, this)
      decreases s.rank[this], 2
    {
      visibility := Collapsed;
      HideChildrenMenus(s);
      forall x | x in Below(s, this)
        ensures x.visibility == Collapsed
      {
        if x != this {
          var j := BelowCases(s, this, x);
        }
      }
    }

    method ChangeBGColor(color: Helper.Color)
      modifies this`background
      ensures background == color
    {
      background := color;
    }

    /** The child menus of this menu's options that have one. */
    function DirectChildren(): set<DropDownMenu>
      reads this`options, (set o | o in options)`hasMenu, (set o | o in options)`childMenu
    {
      set j | 0 <= j < |options| && options[j].hasMenu :: options[j].childMenu
    }

    /** Recolours this menu and its direct child menus; the menus further down keep their colour. */
    method ChangeBGColorWithChildren(color: Helper.Color)
      modifies this`background, DirectChildren()`background
      ensures background == color
      ensures forall m :: m in old(DirectChildren()) ==> m.background == color
    {
      ChangeBGColor(color);
      var i := 0;
      while i < |options|
        invariant 0 <= i <= |options|
        invariant background == color
        invariant forall j :: 0 <= j < i && options[j].hasMenu ==> options[j].childMenu.background == color
      {
        if options[i].hasMenu {
          options[i].childMenu.ChangeBGColor(color);
        }
        i := i + 1;
      }
    }

    /** The option at `index`; an index outside the options throws. */
    function GetOption(index: int): (r: Result<MenuOption, MenuError>)
      reads this`options
      ensures r.Ok? <==> 0 <= index < |options|
      ensures r.Ok? ==> r.value == options[index]
      ensures r.Err? ==> r.error == ArgumentOutOfRange
    {
      if 0 <= index < |options| then Ok(options[index]) else Err(ArgumentOutOfRange)
    }

    /** The first option with the given name, or none. */
    function GetOptionByName(name: string): (r: Option<MenuOption>)
      reads this`options
      ensures r.None? <==> forall k :: 0 <= k < |options| ==> options[k].name != name
      ensures r.Some? ==> r.value in options && r.value.name == name
      ensures r.Some? ==> forall k :: 0 <= k < |options| && options[k].name == name ==>
                            r.value == options[Lists.IndexOf(options, r.value)] && Lists.IndexOf(options, r.value) <= k
    {
      var i := FindIndex(options, name);
      if i < 0 then None
      else
        assert Lists.IndexOf(options, options[i]) <= i;
        Some(options[i])
    }

    /** Sets every option's column `c` to `g`, the other column staying as it was. */
    method SetColumns(c: GridColumn, g: GridLength)
      modifies (set o | o in panel)`nameColumn, (set o | o in panel)`shortcutColumn
      ensures forall k :: 0 <= k < |panel| ==> panel[k].Column(c) == g
      ensures forall k, d :: 0 <= k < |panel| && d != c ==> panel[k].Column(d) == old(panel[k].Column(d))
    {
      var i := 0;
      while i < |panel|
        invariant 0 <= i <= |panel|
        invariant forall k :: 0 <= k < i ==> panel[k].Column(c) == g
        invariant forall k, d :: 0 <= k < |panel| && d != c ==> panel[k].Column(d) == old(panel[k].Column(d))
      {
        panel[i].SetColumn(c, g);
        i := i + 1;
      }
    }

    /**
     * Sizes every option's column `c` to its content and returns the widest
     * width the toolkit then measures: the largest natural width.
     */
    method WidestColumn(c: GridColumn) returns (w: real)
      requires |panel| > 0
      modifies (set o | o in panel)`nameColumn, (set o | o in panel)`shortcutColumn
      ensures w == SeqMax(Naturals(panel, c))
      ensures forall k :: 0 <= k < |panel| ==> panel[k].Column(c) == Auto
      ensures forall k, d :: 0 <= k < |panel| && d != c ==> panel[k].Column(d) == old(panel[k].Column(d))
    {
      SetColumns(c, Auto);
      MeasuredUnderAuto(panel, c);
      w := SeqMax(Measured(panel, c));
    }

    /**
     * Aligns column `c`: every option's column is first sized to its
     * content, then all are fixed to the widest the toolkit measures.
     */
    method AlignColumn(c: GridColumn)
      requires |panel| > 0
      modifies (set o | o in panel)`nameColumn, (set o | o in panel)`shortcutColumn
      ensures forall k :: 0 <= k < |panel| ==> panel[k].Column(c) == Pixels(SeqMax(Naturals(panel, c)))
      ensures forall k, d :: 0 <= k < |panel| && d != c ==> panel[k].Column(d) == old(panel[k].Column(d))
    {
      var w := WidestColumn(c);
      ghost var naturals := Naturals(panel, c);
      SetColumns(c, Pixels(w));
      assert Naturals(panel, c) == naturals;
    }

    /**
     * Aligns the name column and then the shortcut column. Without options
     * the loops have nothing to do and taking the widest throws.
     */
    method UpdateOptionLayout() returns (r: Outcome<MenuError>)
      modifies (set o | o in panel)`nameColumn, (set o | o in panel)`shortcutColumn
      ensures |panel| == 0 ==> r == Fail(EmptySequence)
      ensures |panel| > 0 ==> r == Pass && forall k :: 0 <= k < |panel| ==>
                panel[k].nameColumn == Pixels(SeqMax(Naturals(panel, NameColumn))) &&
                panel[k].shortcutColumn == Pixels(SeqMax(Naturals(panel, ShortcutColumn)))
    {
      if |panel| == 0 {
        return Fail(EmptySequence);
      }
      AlignColumn(NameColumn);
      AlignColumn(ShortcutColumn);
      r := Pass;
    }


    /**
     * Appends `option` to the options, then its grid to the panel. The
     * panel refuses a grid that already has a parent, and the toolkit then
     * throws with the option already in the list.
     */
    method Append(option: MenuOption) returns (r: Outcome<MenuError>)
      modifies this`options, this`panel, option`shownIn
      ensures options == old(options) + [option]
      ensures r == Pass <==> old(option.shownIn) == null
      ensures r == Pass ==> panel == old(panel) + [option] && option.shownIn == this
      ensures r.Fail? ==> r.error == ElementHasParent && panel == old(panel) && option.shownIn == old(option.shownIn)
    {
      options := options + [option];
      if option.shownIn != null {
        return Fail(ElementHasParent);
      }
      panel := panel + [option];
      option.shownIn := this;
      r := Pass;
    }

    /**
     * Appends `option` to the options and its grid to the panel, then
     * aligns the columns; a grid another panel holds throws before the
     * columns are touched.
     */
    method AddOption(option: MenuOption) returns (r: Result<MenuOption, MenuError>)
      modifies this`options, this`panel, option`shownIn
      modifies (set o | o in panel + [option])`nameColumn, (set o | o in panel + [option])`shortcutColumn
      ensures options == old(options) + [option]
      ensures r.Ok? <==> old(option.shownIn) == null
      ensures r.Ok? ==> r.value == option && panel == old(panel) + [option] && option.shownIn == this
      ensures r.Ok? ==> forall k :: 0 <= k < |panel| ==>
                panel[k].nameColumn == Pixels(SeqMax(Naturals(panel, NameColumn))) &&
                panel[k].shortcutColumn == Pixels(SeqMax(Naturals(panel, ShortcutColumn)))
      ensures r.Err? ==> r.error == ElementHasParent && panel == old(panel) && option.shownIn == old(option.shownIn)
      ensures r.Err? ==> forall o :: o in old(panel) + [option] ==>
                o.nameColumn == old(o.nameColumn) && o.shortcutColumn == old(o.shortcutColumn)
    {
      var added := Append(option);
      if added.Fail? {
        return Err(added.error);
      }
      var _ := UpdateOptionLayout();
      r := Ok(option);
    }

    /** A new option of this menu, not yet added to it. */
    method NewOption(name: string, height: real := DefaultOptionHeight) returns (o: MenuOption)
      ensures fresh(o) && fresh(o.childMenu) && o.name == name && o.height == height && o.parentMenu == this
      ensures !o.hasMenu && o.shownIn == null
    {
      o := new MenuOption(height, name, this);
    }

    /**
     * Creates an option with the given name and height, 22 unless given,
     * and adds it; a new option has no parent yet, so the add succeeds and
     * the columns are aligned.
     */
    method AddNamedOption(name: string, height: real := DefaultOptionHeight) returns (r: MenuOption)
      modifies this`options, this`panel, (set o | o in panel)`nameColumn, (set o | o in panel)`shortcutColumn
      ensures fresh(r) && r.name == name && r.height == height && r.parentMenu == this && !r.hasMenu
      ensures options == old(options) + [r] && panel == old(panel) + [r] && r.shownIn == this
      ensures forall k :: 0 <= k < |panel| ==>
                panel[k].nameColumn == Pixels(SeqMax(Naturals(panel, NameColumn))) &&
                panel[k].shortcutColumn == Pixels(SeqMax(Naturals(panel, ShortcutColumn)))
    {
      var o := NewOption(name, height);
      var added := AddOption(o);
      r := o;
    }

    /**
     * The position `UpdateMenuPosition` gives the menu, if any: a top-level
     * menu goes below its parent element, a child menu to the right of its
     * option and down by the option's index times its height; without the
     * parents it needs the menu stays where it is.
     */
    function NewPosition(): Option<Point>
      reads this`isChildOfMenu, this`parentElement, this`parentMenu, this`parentOption
      reads if parentElement == null then {} else {parentElement}
      reads if parentMenu == null then {} else {parentMenu}
      reads if parentOption == null then {} else {parentOption}
    {
      if !isChildOfMenu then
        if parentElement == null then None
        else
          var p := Helper.GetAbsolutePosition(Some(parentElement.absolute));
          Some(Point(p.x, p.y + parentElement.actualHeight))
      else if parentMenu != null && parentOption != null then
        var o: MenuOption := parentOption;
        Some(Point(parentMenu.position.x + o.actualWidth,
                   parentMenu.position.y + (Lists.IndexOf(parentMenu.options, o) as real) * o.actualHeight))
      else None
    }

    method UpdateMenuPosition()
      modifies this`position, this`offset
      ensures old(NewPosition()).None? ==> position == old(position) && offset == old(offset)
      ensures old(NewPosition()).Some? ==> position == old(NewPosition()).value && offset == Some(position)
    {
      var p := NewPosition();
      if p.Some? {
        position := p.value;
        offset := Some(position);
      }
    }

    /**
     * Positions this menu, then every menu below it, parents before
     * children; in a linked structure every child menu ends up cascaded
     * from its menu's new position. No menu outside moves.
     */
    method UpdateMenuPositionWithChildren(ghost s: Scope)
      requires Closed(s) && this in s.rank
      modifies Below(s, this)`position, Below(s, this)`offset
      ensures old(NewPosition()).None? ==> position == old(position) && offset == old(offset)
      ensures old(NewPosition()).Some? ==> position == old(NewPosition()).value && offset == Some(position)
      ensures old(Linked(s, this)) ==> Cascaded(s, this)
      decreases s.rank[this], 3
    {
      UpdateMenuPosition();
      PositionChildren(s);
    }

    /** Positions the menus below this one, this menu staying where it is. */
    method PositionChildren(ghost s: Scope)
      requires Closed(s) && this in s.rank
      modifies (Below(s, this) - {this})`position, (Below(s, this) - {this})`offset
      ensures position == old(position)
      ensures old(Linked(s, this)) ==> Cascaded(s, this)
      decreases s.rank[this], 2
    {
      ghost var linked := Linked(s, this);
      for i := 0 to |options|
        invariant linked == Linked(s, this)
        invariant linked ==> forall j :: 0 <= j < i && options[j].hasMenu ==> Placed(s, j)
      {
        if options[i].hasMenu {
          ChildBelow(s, this, i);
          PositionChild(s, i);
        }
      }
      if linked {
        CascadedFromChildren(s);
      }
    }

    /** The child menu of option `j` sits at the option's cascade position and the menus below it are cascaded. */
    ghost predicate Placed(s: Scope, j: nat)
      requires Closed(s) && this in s.rank && j < |options| && options[j].hasMenu
      reads s.rank.Keys`options, s.opts`hasMenu, s.opts`childMenu
      reads s.rank.Keys`position, s.opts`actualWidth, s.opts`actualHeight
    {
      options[j].childMenu.position == CascadeAt(j) && Cascaded(s, options[j].childMenu)
    }

    /** A menu whose child menus are placed and cascaded is cascaded. */
    lemma CascadedFromChildren(s: Scope)
      requires Closed(s) && this in s.rank
      requires forall j :: 0 <= j < |options| && options[j].hasMenu ==> Placed(s, j)
      ensures Cascaded(s, this)
    {
      forall x | x in Below(s, this)
        ensures ChildrenPlaced(s, x)
      {
        if x != this {
          var j := BelowCases(s, this, x);
          assert Placed(s, j);
        }
      }
    }

    /** Whether the menus below this one are cascaded depends on their positions and the structure only. */
    twostate lemma CascadedKept(s: Scope)
      requires old(Closed(s)) && this in s.rank
      requires unchanged(s.rank.Keys`options, s.opts`hasMenu, s.opts`childMenu, s.opts`actualWidth, s.opts`actualHeight)
      requires forall x :: x in old(Below(s, this)) ==> x.position == old(x.position)
      ensures old(Cascaded(s, this)) ==> Cascaded(s, this)
    {
      if old(Cascaded(s, this)) {
        forall x | x in Below(s, this)
          ensures ChildrenPlaced(s, x)
        {
          assert old(ChildrenPlaced(s, x));
          BelowTransitive(s, this, x);
          forall k | 0 <= k < |x.options| && x.options[k].hasMenu
            ensures x.options[k].childMenu.position == x.CascadeAt(k)
          {
            ChildBelow(s, x, k);
          }
        }
      }
    }

    /** In a linked structure, the child menu of option `i` is linked and goes next to that option. */
    lemma LinkedChildPosition(s: Scope, i: nat)
      requires Closed(s) && this in s.rank && Linked(s, this) && i < |options| && options[i].hasMenu
      ensures Linked(s, options[i].childMenu)
      ensures options[i].childMenu.NewPosition() == Some(CascadeAt(i))
    {
      var child := options[i].childMenu;
      ChildBelow(s, this, i);
      assert Distinct() && ParentsNamed(s, this);
      NamedChildPosition(child, this, i);
    }

    /**
     * One step of positioning the children: positions the child menu of
     * option `i` and the menus below it; in a linked structure that child
     * ends up placed and the other child menus stay placed.
     */
    method PositionChild(ghost s: Scope, i: nat)
      requires Closed(s) && this in s.rank && i < |options| && options[i].hasMenu
      modifies Below(s, options[i].childMenu)`position, Below(s, options[i].childMenu)`offset
      ensures old(options[i].childMenu.NewPosition()).Some? ==>
                options[i].childMenu.position == old(options[i].childMenu.NewPosition()).value
      ensures old(options[i].childMenu.NewPosition()).None? ==>
                options[i].childMenu.position == old(options[i].childMenu.position)
      ensures old(Linked(s, this)) ==> Placed(s, i)
      ensures old(Linked(s, this)) ==> forall j :: 0 <= j < |options| && j != i && options[j].hasMenu ==>
                old(Placed(s, j)) ==> Placed(s, j)
      decreases s.rank[this], 1
    {
      ChildBelow(s, this, i);
      PlaceChild(s, i);
      if old(Linked(s, this)) {
        PlacedKept(s);
        forall j | 0 <= j < |options| && j != i && options[j].hasMenu
          ensures forall x :: x in Below(s, options[j].childMenu) ==> x.position == old(x.position)
        {
          LinkedSeparate(s, this, i, j);
        }
      }
    }

    /** Positions the child menu of option `i` and the menus below it; this menu does not move. */
    method PlaceChild(ghost s: Scope, i: nat)
      requires Closed(s) && this in s.rank && i < |options| && options[i].hasMenu
      requires Below(s, options[i].childMenu) <= Below(s, this) - {this}
      modifies Below(s, options[i].childMenu)`position, Below(s, options[i].childMenu)`offset
      ensures position == old(position)
      ensures old(options[i].childMenu.NewPosition()).Some? ==>
                options[i].childMenu.position == old(options[i].childMenu.NewPosition()).value
      ensures old(options[i].childMenu.NewPosition()).None? ==>
                options[i].childMenu.position == old(options[i].childMenu.position)
      ensures old(Linked(s, this)) ==> Placed(s, i)
      decreases s.rank[this], 0
    {
      ghost var target := CascadeAt(i);
      if Linked(s, this) {
        LinkedChildPosition(s, i);
      }
      options[i].UpdateMenuPosition(s);
      assert CascadeAt(i) == target;
    }

    /** The child menu of an option stays placed while this menu and the menus below that child keep their positions. */
    twostate lemma PlacedKept(s: Scope)
      requires old(Closed(s)) && this in s.rank
      requires unchanged(s.rank.Keys`options, s.opts`hasMenu, s.opts`childMenu, s.opts`actualWidth, s.opts`actualHeight)
      requires position == old(position)
      ensures forall j :: 0 <= j < |options| && options[j].hasMenu && old(Placed(s, j)) ==>
                (forall x :: x in Below(s, options[j].childMenu) ==> x.position == old(x.position)) ==> Placed(s, j)
    {
      forall j | 0 <= j < |options| && options[j].hasMenu && old(Placed(s, j)) &&
                 (forall x :: x in Below(s, options[j].childMenu) ==> x.position == old(x.position))
        ensures Placed(s, j)
      {
        var c := options[j].childMenu;
        assert c in Below(s, c);
        c.CascadedKept(s);
      }
    }
  }
}

=== FILE: helper.dfy ===
/**
 * The colour-string parser of the helper class, and the null case of its
 * absolute-position query.
 */
module Helper {
  import opened Toolkit

  type Byte = x: int | 0 <= x < 256

  /** A colour given as alpha, red, green and blue bytes. */
  datatype Color = Color(a: Byte, r: Byte, g: Byte, b: Byte)

  /** The exceptions the parser can raise. */
  datatype BrushError =
    | IndexOutOfRange     // the first character of an empty string is read
    | ArgumentOutOfRange  // fewer than eight characters follow a leading '#'
    | InvalidColorString  // no leading '#' and a length other than eight
    | HexFormat           // a pair of characters is not a hexadecimal byte

  predicate IsHexDigit(c: char) {
    '0' <= c <= '9' || 'a' <= c <= 'f' || 'A' <= c <= 'F'
  }

  function HexValue(c: char): (v: nat)
    requires IsHexDigit(c)
    ensures v < 16
  {
    if '0' <= c <= '9' then c as int - '0' as int
    else if 'a' <= c <= 'f' then c as int - 'a' as int + 10
    else c as int - 'A' as int + 10
  }

  /** The white space a hexadecimal number may be padded with: tab to carriage return, and space. */
  predicate IsWhite(c: char) {
    c == ' ' || '\t' <= c <= '\r'
  }

  /**
   * Parses a two-character hexadecimal byte. Leading and trailing white
   * space is allowed, so one hexadecimal digit padded by white space is a
   * valid byte as well; so is one digit followed by a NUL character, since
   * the number parser accepts trailing NUL characters after the number.
   */
  function ParseHexByte(p: string): (r: Result<Byte, BrushError>)
    requires |p| == 2
    ensures IsHexDigit(p[0]) && IsHexDigit(p[1]) ==> r == Ok(16 * HexValue(p[0]) + HexValue(p[1]))
    ensures IsHexDigit(p[0]) && (IsWhite(p[1]) || p[1] == '\0') ==> r == Ok(HexValue(p[0]))
    ensures !IsHexDigit(p[0]) && !IsHexDigit(p[1]) ==> r == Err(HexFormat)
    ensures (!IsHexDigit(p[0]) && !IsWhite(p[0])) || (!IsHexDigit(p[1]) && !IsWhite(p[1]) && p[1] != '\0') ==>
              r == Err(HexFormat)
  {
    if IsHexDigit(p[0]) && IsHexDigit(p[1]) then Ok(16 * HexValue(p[0]) + HexValue(p[1]))
    else if IsWhite(p[0]) && IsHexDigit(p[1]) then Ok(HexValue(p[1]))
    else if IsHexDigit(p[0]) && (IsWhite(p[1]) || p[1] == '\0') then Ok(HexValue(p[0]))
    else Err(HexFormat)
  }

  /**
   * The characters the parser reads: the whole string without a leading
   * '#', the eight characters after it otherwise.
   */
  function ColorDigits(s: string): (r: Result<string, BrushError>)
    ensures r.Ok? ==> |s| > 0 && r.value <= (if s[0] == '#' then s[1..] else s)
    ensures r.Ok? && s[0] == '#' ==> |r.value| == 8
    ensures r.Ok? ==> r.value == s || (s[0] == '#' && r.value == s[1..9])
  {
    if |s| == 0 then Err(IndexOutOfRange)
    else if s[0] == '#' then
      if |s| < 9 then Err(ArgumentOutOfRange) else Ok(s[1..9])
    else Ok(s)
  }

  /**
   * Converts a colour string into a colour: an optional '#', then alpha,
   * red, green and blue as two hexadecimal digits each.
   */
  function StringToBrush(s: string): (r: Result<Color, BrushError>)
    ensures |s| == 0 ==> r == Err(IndexOutOfRange)
    ensures |s| > 0 && s[0] == '#' && |s| < 9 ==> r == Err(ArgumentOutOfRange)
    ensures |s| > 0 && s[0] != '#' && |s| != 8 ==> r == Err(InvalidColorString)
    ensures r.Ok? ==> |s| == 8 || (|s| >= 9 && s[0] == '#')
  {
    match ColorDigits(s)
    case Err(e) => Err(e)
    case Ok(t) =>
      if |t| != 8 then Err(InvalidColorString)
      else
        match (ParseHexByte(t[0..2]), ParseHexByte(t[2..4]), ParseHexByte(t[4..6]), ParseHexByte(t[6..8]))
        case (Ok(a), Ok(r), Ok(g), Ok(b)) => Ok(Color(a, r, g, b))
        case (Err(e), _, _, _) => Err(e)
        case (_, Err(e), _, _) => Err(e)
        case (_, _, Err(e), _) => Err(e)
        case (_, _, _, Err(e)) => Err(e)
  }

  /** The eight digits of a well-formed colour string, each a hexadecimal digit. */
  predicate AllHex(t: string) {
    forall k :: 0 <= k < |t| ==> IsHexDigit(t[k])
  }

  /** An eight-digit string of hexadecimal digits denotes bytes A, R, G, B in that order. */
  lemma DigitsDecode(t: string)
    requires |t| == 8 && AllHex(t) && t[0] != '#'
    ensures StringToBrush(t) == Ok(Color(16 * HexValue(t[0]) + HexValue(t[1]),
                                         16 * HexValue(t[2]) + HexValue(t[3]),
                                         16 * HexValue(t[4]) + HexValue(t[5]),
                                         16 * HexValue(t[6]) + HexValue(t[7])))
  {
    assert t[0..2][0] == t[0] && t[0..2][1] == t[1];
    assert t[2..4][0] == t[2] && t[2..4][1] == t[3];
    assert t[4..6][0] == t[4] && t[4..6][1] == t[5];
    assert t[6..8][0] == t[6] && t[6..8][1] == t[7];
  }

  /** After a leading '#', exactly the next eight characters are read and the rest is ignored. */
  lemma HashPrefixReadsEightCharacters(s: string, rest: string)
    requires |s| == 8 && s[0] != '#'
    ensures StringToBrush("#" + s + rest) == StringToBrush(s)
  {
    var u := "#" + s + rest;
    assert u[0] == '#';
    assert u[1..9] == s;
  }

  /**
   * A non-hexadecimal, non-blank character anywhere in the eight digits is
   * a format error, except a NUL character second in its pair.
   */
  lemma BadDigitRejected(t: string, k: nat)
    requires |t| == 8 && t[0] != '#' && k < 8
    requires !IsHexDigit(t[k]) && !IsWhite(t[k]) && (t[k] != '\0' || k % 2 == 0)
    ensures StringToBrush(t) == Err(HexFormat)
  {
    var p := k / 2 * 2;
    assert t[p..p + 2][k - p] == t[k];
  }

  /** A single hexadecimal digit padded with blank space is accepted as a byte. */
  lemma PaddedDigitAccepted(d: char)
    requires IsHexDigit(d)
    ensures StringToBrush([' ', d, ' ', d, ' ', d, ' ', d]) ==
            Ok(Color(HexValue(d), HexValue(d), HexValue(d), HexValue(d)))
  {
  }

  /** A single hexadecimal digit followed by a NUL character is accepted as a byte. */
  lemma TrailingNulAccepted(d: char, e: char)
    requires IsHexDigit(d) && IsHexDigit(e)
    ensures StringToBrush([d, '\0', e, e, e, e, e, e]) ==
            Ok(Color(HexValue(d), 16 * HexValue(e) + HexValue(e), 16 * HexValue(e) + HexValue(e),
                     16 * HexValue(e) + HexValue(e)))
  {
  }

  /** The upper-case hexadecimal digit of a value below sixteen. */
  function HexDigit(v: nat): (c: char)
    requires v < 16
    ensures IsHexDigit(c) && HexValue(c) == v && c != '#'
  {
    if v < 10 then ('0' as int + v) as char else ('A' as int + v - 10) as char
  }

  /** The two upper-case hexadecimal digits of a byte. */
  function HexPair(b: Byte): (p: string)
    ensures |p| == 2 && IsHexDigit(p[0]) && IsHexDigit(p[1]) && p[0] != '#'
    ensures 16 * HexValue(p[0]) + HexValue(p[1]) == b
  {
    [HexDigit(b / 16), HexDigit(b % 16)]
  }

  /** The colour string of a colour, without the '#'. */
  function FormatColor(c: Color): (s: string)
    ensures |s| == 8 && AllHex(s)
  {
    HexPair(c.a) + HexPair(c.r) + HexPair(c.g) + HexPair(c.b)
  }

  /** Parsing the colour string of any colour gives that colour back, with or without a '#'. */
  lemma {:induction false} FormatParseRoundTrip(c: Color, rest: string)
    ensures StringToBrush(FormatColor(c)) == Ok(c)
    ensures StringToBrush("#" + FormatColor(c) + rest) == Ok(c)
  {
    var s := FormatColor(c);
    assert s[0..2] == HexPair(c.a) && s[2..4] == HexPair(c.r);
    assert s[4..6] == HexPair(c.g) && s[6..8] == HexPair(c.b);
    DigitsDecode(s);
    HashPrefixReadsEightCharacters(s, rest);
  }

  /** The absolute position of an element; a missing element is placed at (-1, -1). */
  function GetAbsolutePosition(element: Option<Point>): (p: Point)
    ensures element.None? ==> p == Point(-1.0, -1.0)
    ensures element.Some? ==> p == element.value
  {
    match element
    case None => Point(-1.0, -1.0)
    case Some(q) => q
  }
}

=== FILE: lists.dfy ===
/**
 * The list and delegate operations of the runtime that the collections
 * rely on: first index, insertion and removal at an index, removal of the
 * first occurrence.
 */
module Lists {

  /** The index of the first occurrence of `x`, or -1 when there is none. */
  function IndexOf<T(==)>(s: seq<T>, x: T): (i: int)
    ensures -1 <= i < |s|
    ensures i == -1 <==> x !in s
    ensures i >= 0 ==> s[i] == x && x !in s[..i]
  {
    if |s| == 0 then -1
    else if s[0] == x then 0
    else
      var j := IndexOf(s[1..], x);
      assert s[1..][..if j < 0 then 0 else j] == s[1..if j < 0 then 1 else j + 1];
      if j < 0 then -1 else j + 1
  }

  /** `s` with `x` inserted so that it ends up at index `i`. */
  function InsertAt<T>(s: seq<T>, i: nat, x: T): (r: seq<T>)
    requires i <= |s|
    ensures |r| == |s| + 1 && r[i] == x
    ensures forall k :: 0 <= k < i ==> r[k] == s[k]
    ensures forall k :: i < k < |r| ==> r[k] == s[k - 1]
  {
    s[..i] + [x] + s[i..]
  }

  /** `s` without the element at index `i`. */
  function RemoveAt<T>(s: seq<T>, i: nat): (r: seq<T>)
    requires i < |s|
    ensures |r| == |s| - 1
    ensures forall k :: 0 <= k < i ==> r[k] == s[k]
    ensures forall k :: i <= k < |r| ==> r[k] == s[k + 1]
  {
    s[..i] + s[i + 1..]
  }

  /** `s` without its first occurrence of `x`; `s` itself when there is none. */
  function RemoveFirst<T(==)>(s: seq<T>, x: T): (r: seq<T>)
    ensures x !in s ==> r == s
    ensures x in s ==> |r| == |s| - 1 && r == RemoveAt(s, IndexOf(s, x))
    ensures multiset(r) == multiset(s) - multiset{x}
  {
    var i := IndexOf(s, x);
    if i < 0 then s
    else
      assert s == s[..i] + [x] + s[i + 1..];
      s[..i] + s[i + 1..]
  }
}

=== FILE: popup_menu.dfy ===
/**
 * The popup menu: a column of options whose icon, spacing, name and arrow
 * cells are aligned by `MeasureAndArrange`, and whose inner menus open and
 * close through `Toggle`, `Expand`, `Collapse` and clicks.
 */
module PopupMenus {
  import opened Toolkit

  /** The arrow text of an option whose inner menu is closed, and of one whose inner menu is open. */
  const CollapsedArrow := "\U{1F862}"
  const ExpandedArrow := "\U{1F866}"

  /** The height, left spacing and right spacing every option starts with. */
  const DefaultHeight := 22.0
  const DefaultSpacingLeft := 10.0
  const DefaultSpacingRight := 10.0

  /**
   * The exceptions of the menu: `EmptySequence` when `MeasureAndArrange`
   * takes the maximum of an empty menu's widths, `ElementHasParent` when the
   * toolkit refuses to give an element that already has a parent a second one.
   */
  datatype MenuError = EmptySequence | ElementHasParent

  // ---------------------------------------------------------------------
  // The layout of an option, as a value.
  // ---------------------------------------------------------------------

  /**
   * What the alignment reads and writes of one option. `nameWidth` is what
   * the option's NameWidth getter returns: the width measured by the
   * toolkit, which the setter does not change; the setter writes
   * `nameBoxWidth`, the width of the name's text block. The position of the
   * inner menu is unset (`None`) until the option first places it.
   */
  datatype OptionLayout = OptionLayout(
    hasIcon: bool,
    hasInnerMenu: bool,
    iconWidth: real,
    spacingLeft: real,
    nameWidth: real,
    spacingRight: real,
    arrowWidth: real,
    nameBoxWidth: Option<real>,
    desiredWidth: Option<real>,
    innerLeft: Option<real>,
    innerTop: Option<real>)

  /** The width of an option: the sum of its five cells. */
  function Width(l: OptionLayout): real {
    l.iconWidth + l.spacingLeft + l.nameWidth + l.spacingRight + l.arrowWidth
  }

  /** The layout after the option places its inner menu: at its desired width if set, else at its width, one pixel up. */
  function Adjusted(l: OptionLayout): (r: OptionLayout)
    ensures r.innerLeft.Some? && r.innerTop == Some(-1.0)
    ensures l.desiredWidth.Some? ==> r.innerLeft == l.desiredWidth
    ensures l.desiredWidth.None? ==> r.innerLeft == Some(Width(l))
    ensures r.(innerLeft := l.innerLeft, innerTop := l.innerTop) == l
  {
    l.(innerLeft := Some(l.desiredWidth.GetOr(Width(l))), innerTop := Some(-1.0))
  }

  /** The cells of a column of the menu. */
  datatype Column = IconCell | SpacingLeftCell | NameCell | SpacingRightCell | ArrowCell | WholeWidth

  function Cell(l: OptionLayout, c: Column): real {
    match c
    case IconCell => l.iconWidth
    case SpacingLeftCell => l.spacingLeft
    case NameCell => l.nameWidth
    case SpacingRightCell => l.spacingRight
    case ArrowCell => l.arrowWidth
    case WholeWidth => Width(l)
  }

  /** The largest value of a column from option `j` down. */
  function MaxFrom(ls: seq<OptionLayout>, c: Column, j: nat): real
    requires j < |ls|
    decreases |ls| - j
  {
    if j == |ls| - 1 then Cell(ls[j], c)
    else
      var t := MaxFrom(ls, c, j + 1);
      if Cell(ls[j], c) >= t then Cell(ls[j], c) else t
  }

  /** The largest value of a column: LINQ's `Max`, defined on non-empty sequences only. */
  function MaxOf(ls: seq<OptionLayout>, c: Column): real
    requires |ls| > 0
  {
    MaxFrom(ls, c, 0)
  }

  lemma {:induction false} MaxFromIsMax(ls: seq<OptionLayout>, c: Column, j: nat)
    requires j < |ls|
    ensures forall k :: j <= k < |ls| ==> Cell(ls[k], c) <= MaxFrom(ls, c, j)
    ensures exists k :: j <= k < |ls| && Cell(ls[k], c) == MaxFrom(ls, c, j)
    decreases |ls| - j
  {
    if j < |ls| - 1 {
      MaxFromIsMax(ls, c, j + 1);
      if Cell(ls[j], c) < MaxFrom(ls, c, j + 1) {
        var k :| j + 1 <= k < |ls| && Cell(ls[k], c) == MaxFrom(ls, c, j + 1);
        assert Cell(ls[k], c) == MaxFrom(ls, c, j);
      } else {
        assert Cell(ls[j], c) == MaxFrom(ls, c, j);
      }
    } else {
      assert Cell(ls[j], c) == MaxFrom(ls, c, j);
    }
  }

  /** `MaxOf` bounds its column and is one of its values. */
  lemma MaxOfIsMax(ls: seq<OptionLayout>, c: Column)
    requires |ls| > 0
    ensures forall k :: 0 <= k < |ls| ==> Cell(ls[k], c) <= MaxOf(ls, c)
    ensures exists k :: 0 <= k < |ls| && Cell(ls[k], c) == MaxOf(ls, c)
  {
    MaxFromIsMax(ls, c, 0);
  }

  /** A value of a column that bounds the whole column is its maximum. */
  lemma MaxIsTheBound(ls: seq<OptionLayout>, c: Column, m: real)
    requires exists k :: 0 <= k < |ls| && Cell(ls[k], c) == m
    requires forall k :: 0 <= k < |ls| ==> Cell(ls[k], c) <= m
    ensures MaxOf(ls, c) == m
  {
    MaxOfIsMax(ls, c);
    var j :| 0 <= j < |ls| && Cell(ls[j], c) == m;
    var j2 :| 0 <= j2 < |ls| && Cell(ls[j2], c) == MaxOf(ls, c);
    assert MaxOf(ls, c) >= Cell(ls[j], c);
    assert m >= Cell(ls[j2], c);
  }

  /** When one column is another shifted by `d`, so is its maximum. */
  lemma MaxShift(ls: seq<OptionLayout>, c1: Column, rs: seq<OptionLayout>, c2: Column, d: real)
    requires |ls| > 0 && |rs| == |ls|
    requires forall k :: 0 <= k < |ls| ==> Cell(rs[k], c2) == d + Cell(ls[k], c1)
    ensures MaxOf(rs, c2) == d + MaxOf(ls, c1)
  {
    MaxOfIsMax(ls, c1);
    var j :| 0 <= j < |ls| && Cell(ls[j], c1) == MaxOf(ls, c1);
    assert Cell(rs[j], c2) == d + MaxOf(ls, c1);
    MaxIsTheBound(rs, c2, d + MaxOf(ls, c1));
  }

  /** `HasIcon`: some option shows an icon. */
  predicate HasIcon(ls: seq<OptionLayout>) {
    exists k :: 0 <= k < |ls| && ls[k].hasIcon
  }

  /** `HasArrow`: some option has an inner menu. */
  predicate HasArrow(ls: seq<OptionLayout>) {
    exists k :: 0 <= k < |ls| && ls[k].hasInnerMenu
  }

  /** The widest icon cell, or 0 when no option shows an icon. */
  function MaxIconWidth(ls: seq<OptionLayout>): real
    requires |ls| > 0
  {
    if HasIcon(ls) then MaxOf(ls, IconCell) else 0.0
  }

  /** The widest arrow cell, or 0 when no option has an inner menu. */
  function MaxArrowWidth(ls: seq<OptionLayout>): real
    requires |ls| > 0
  {
    if HasArrow(ls) then MaxOf(ls, ArrowCell) else 0.0
  }

  /** The icon maximum is 0 without icons, and otherwise the widest icon cell. */
  lemma MaxIconWidthIsMax(ls: seq<OptionLayout>)
    requires |ls| > 0
    ensures !HasIcon(ls) ==> MaxIconWidth(ls) == 0.0
    ensures HasIcon(ls) ==> (forall k :: 0 <= k < |ls| ==> ls[k].iconWidth <= MaxIconWidth(ls)) &&
                            exists k :: 0 <= k < |ls| && ls[k].iconWidth == MaxIconWidth(ls)
  {
    MaxOfIsMax(ls, IconCell);
  }

  /** The arrow maximum is 0 without inner menus, and otherwise the widest arrow cell. */
  lemma MaxArrowWidthIsMax(ls: seq<OptionLayout>)
    requires |ls| > 0
    ensures !HasArrow(ls) ==> MaxArrowWidth(ls) == 0.0
    ensures HasArrow(ls) ==> (forall k :: 0 <= k < |ls| ==> ls[k].arrowWidth <= MaxArrowWidth(ls)) &&
                             exists k :: 0 <= k < |ls| && ls[k].arrowWidth == MaxArrowWidth(ls)
  {
    MaxOfIsMax(ls, ArrowCell);
  }

  /** The widths every option is given. */
  datatype Maxima = Maxima(icon: real, spacingLeft: real, name: real, spacingRight: real, arrow: real)

  function MaximaOf(ls: seq<OptionLayout>): Maxima
    requires |ls| > 0
  {
    Maxima(MaxIconWidth(ls), MaxOf(ls, SpacingLeftCell), MaxOf(ls, NameCell),
           MaxOf(ls, SpacingRightCell), MaxArrowWidth(ls))
  }

  /** The width of an aligned option whose measured name is `nameWidth`. */
  function AlignedWidth(m: Maxima, nameWidth: real): real {
    m.icon + m.spacingLeft + nameWidth + m.spacingRight + m.arrow
  }

  // ---------------------------------------------------------------------
  // MeasureAndArrange, as written: every maximum is taken again right
  // before the write that uses it.
  // ---------------------------------------------------------------------

  /** Writing a new icon width: the option then places its inner menu again. */
  function WithIconWidth(l: OptionLayout, v: real): OptionLayout {
    Adjusted(l.(iconWidth := v))
  }

  /** Writing a new name width sizes the text block; the measured width does not change. */
  function WithNameWidth(l: OptionLayout, v: real): OptionLayout {
    Adjusted(l.(nameBoxWidth := Some(v)))
  }

  function WithArrowWidth(l: OptionLayout, v: real): OptionLayout {
    Adjusted(l.(arrowWidth := v))
  }

  /*
   * The six writes of the loop body to option `i`, each reading the maxima
   * of the menu as it is at that moment.
   */

  function WriteIcon(ls: seq<OptionLayout>, i: nat): (r: seq<OptionLayout>)
    requires i < |ls|
    ensures |r| == |ls|
  {
    ls[i := WithIconWidth(ls[i], MaxIconWidth(ls))]
  }

  function WriteSpacingLeft(ls: seq<OptionLayout>, i: nat): (r: seq<OptionLayout>)
    requires i < |ls|
    ensures |r| == |ls|
  {
    ls[i := ls[i].(spacingLeft := MaxOf(ls, SpacingLeftCell))]
  }

  function WriteName(ls: seq<OptionLayout>, i: nat): (r: seq<OptionLayout>)
    requires i < |ls|
    ensures |r| == |ls|
  {
    ls[i := WithNameWidth(ls[i], MaxOf(ls, NameCell))]
  }

  function WriteSpacingRight(ls: seq<OptionLayout>, i: nat): (r: seq<OptionLayout>)
    requires i < |ls|
    ensures |r| == |ls|
  {
    ls[i := ls[i].(spacingRight := MaxOf(ls, SpacingRightCell))]
  }

  function WriteArrow(ls: seq<OptionLayout>, i: nat): (r: seq<OptionLayout>)
    requires i < |ls|
    ensures |r| == |ls|
  {
    ls[i := WithArrowWidth(ls[i], MaxArrowWidth(ls))]
  }

  function WriteDesired(ls: seq<OptionLayout>, i: nat): (r: seq<OptionLayout>)
    requires i < |ls|
    ensures |r| == |ls|
  {
    ls[i := ls[i].(desiredWidth := Some(MaxOf(ls, WholeWidth)))]
  }

  /** The write of column `c` of option `i`; the whole width is the desired width. */
  function Write(ls: seq<OptionLayout>, i: nat, c: Column): (r: seq<OptionLayout>)
    requires i < |ls|
    ensures |r| == |ls|
  {
    match c
    case IconCell => WriteIcon(ls, i)
    case SpacingLeftCell => WriteSpacingLeft(ls, i)
    case NameCell => WriteName(ls, i)
    case SpacingRightCell => WriteSpacingRight(ls, i)
    case ArrowCell => WriteArrow(ls, i)
    case WholeWidth => WriteDesired(ls, i)
  }

  /** One pass of the loop body over option `i`. */
  function Step(ls: seq<OptionLayout>, i: nat): (r: seq<OptionLayout>)
    requires i < |ls|
    ensures |r| == |ls|
  {
    WriteDesired(WriteArrow(WriteSpacingRight(WriteName(WriteSpacingLeft(WriteIcon(ls, i), i), i), i), i), i)
  }

  /** The six writes in order make one pass. */
  lemma WritesMakeStep(l0: seq<OptionLayout>, l1: seq<OptionLayout>, l2: seq<OptionLayout>, l3: seq<OptionLayout>,
                       l4: seq<OptionLayout>, l5: seq<OptionLayout>, l6: seq<OptionLayout>, i: nat)
    requires i < |l0|
    requires l1 == Write(l0, i, IconCell) && l2 == Write(l1, i, SpacingLeftCell) && l3 == Write(l2, i, NameCell)
    requires l4 == Write(l3, i, SpacingRightCell) && l5 == Write(l4, i, ArrowCell) && l6 == Write(l5, i, WholeWidth)
    ensures l6 == Step(l0, i)
  {
  }

  /** The first `n` passes of the loop. */
  function Iterate(ls: seq<OptionLayout>, n: nat): (r: seq<OptionLayout>)
    requires n <= |ls|
    ensures |r| == |ls|
  {
    if n == 0 then ls else Step(Iterate(ls, n - 1), n - 1)
  }

  /**
   * `after` is what the whole loop makes of `before`: one pass for every
   * option. Stated through the count `n` so that it is unfolded only
   * where a pass count is in view.
   */
  ghost predicate Arranged(before: seq<OptionLayout>, after: seq<OptionLayout>)
  {
    forall n :: n == |before| ==> after == Iterate(before, n)
  }

  /** Option `l` with the cells of `m`, its inner menu placed after the last write, its desired width not yet touched. */
  function AlignedCells(l: OptionLayout, m: Maxima): (r: OptionLayout)
    ensures r.iconWidth == m.icon && r.spacingLeft == m.spacingLeft && r.spacingRight == m.spacingRight
    ensures r.arrowWidth == m.arrow && r.nameBoxWidth == Some(m.name) && r.nameWidth == l.nameWidth
    ensures r.desiredWidth == l.desiredWidth && r.hasIcon == l.hasIcon && r.hasInnerMenu == l.hasInnerMenu
    ensures r.innerTop == Some(-1.0)
    ensures r.innerLeft == Some(l.desiredWidth.GetOr(AlignedWidth(m, l.nameWidth)))
  {
    Adjusted(l.(iconWidth := m.icon, spacingLeft := m.spacingLeft, nameBoxWidth := Some(m.name),
                spacingRight := m.spacingRight, arrowWidth := m.arrow))
  }

  /** Giving one option the maximum of a column leaves that maximum as it was. */
  lemma {:induction false} SetToMaxKeepsMax(ls: seq<OptionLayout>, i: nat, l: OptionLayout, c: Column)
    requires i < |ls| && Cell(l, c) == MaxOf(ls, c)
    ensures MaxOf(ls[i := l], c) == MaxOf(ls, c)
  {
    var m := MaxOf(ls, c);
    MaxOfIsMax(ls, c);
    var ms := ls[i := l];
    assert Cell(ms[i], c) == m;
    assert forall k :: 0 <= k < |ms| && k != i ==> ms[k] == ls[k];
    MaxIsTheBound(ms, c, m);
  }

  /** A write that keeps the icon flags and gives option `i` its old icon width or the widest one keeps the icon maximum. */
  lemma {:induction false} IconMaxKept(ls: seq<OptionLayout>, i: nat, l: OptionLayout)
    requires |ls| > 0 && i < |ls| && l.hasIcon == ls[i].hasIcon
    requires l.iconWidth == ls[i].iconWidth || l.iconWidth == MaxIconWidth(ls)
    ensures MaxIconWidth(ls[i := l]) == MaxIconWidth(ls)
  {
    var ms := ls[i := l];
    assert forall k :: 0 <= k < |ls| ==> ms[k].hasIcon == ls[k].hasIcon;
    if HasIcon(ls) {
      assert HasIcon(ms);
      if l.iconWidth == ls[i].iconWidth {
        MaxShift(ls, IconCell, ms, IconCell, 0.0);
      } else {
        SetToMaxKeepsMax(ls, i, l, IconCell);
      }
      assert MaxIconWidth(ms) == MaxOf(ms, IconCell);
    } else {
      assert !HasIcon(ms);
    }
  }

  /** The same for the arrow column and the inner-menu flags. */
  lemma {:induction false} ArrowMaxKept(ls: seq<OptionLayout>, i: nat, l: OptionLayout)
    requires |ls| > 0 && i < |ls| && l.hasInnerMenu == ls[i].hasInnerMenu
    requires l.arrowWidth == ls[i].arrowWidth || l.arrowWidth == MaxArrowWidth(ls)
    ensures MaxArrowWidth(ls[i := l]) == MaxArrowWidth(ls)
  {
    var ms := ls[i := l];
    assert forall k :: 0 <= k < |ls| ==> ms[k].hasInnerMenu == ls[k].hasInnerMenu;
    if HasArrow(ls) {
      assert HasArrow(ms);
      if l.arrowWidth == ls[i].arrowWidth {
        MaxShift(ls, ArrowCell, ms, ArrowCell, 0.0);
      } else {
        SetToMaxKeepsMax(ls, i, l, ArrowCell);
      }
      assert MaxArrowWidth(ms) == MaxOf(ms, ArrowCell);
    } else {
      assert !HasArrow(ms);
    }
  }

  /** A write that leaves a column's cell of option `i` alone leaves that column's maximum alone. */
  lemma {:induction false} OtherCellKeepsMax(ls: seq<OptionLayout>, i: nat, l: OptionLayout, c: Column)
    requires i < |ls| && Cell(l, c) == Cell(ls[i], c)
    ensures MaxOf(ls[i := l], c) == MaxOf(ls, c)
  {
    MaxShift(ls, c, ls[i := l], c, 0.0);
  }

  /** A column cell that is either left alone or set to the column's maximum keeps that maximum. */
  lemma CellMaxKept(ls: seq<OptionLayout>, i: nat, l: OptionLayout, c: Column)
    requires i < |ls|
    requires Cell(l, c) == Cell(ls[i], c) || Cell(l, c) == MaxOf(ls, c)
    ensures MaxOf(ls[i := l], c) == MaxOf(ls, c)
  {
    if Cell(l, c) == Cell(ls[i], c) {
      OtherCellKeepsMax(ls, i, l, c);
    } else {
      SetToMaxKeepsMax(ls, i, l, c);
    }
  }

  /** A write to option `i` that sets each cell to its column's maximum or leaves it alone keeps all maxima. */
  lemma WriteKeepsMaxima(ls: seq<OptionLayout>, i: nat, l: OptionLayout)
    requires i < |ls| && l.hasIcon == ls[i].hasIcon && l.hasInnerMenu == ls[i].hasInnerMenu
    requires l.nameWidth == ls[i].nameWidth
    requires l.iconWidth == ls[i].iconWidth || l.iconWidth == MaxIconWidth(ls)
    requires l.spacingLeft == ls[i].spacingLeft || l.spacingLeft == MaxOf(ls, SpacingLeftCell)
    requires l.spacingRight == ls[i].spacingRight || l.spacingRight == MaxOf(ls, SpacingRightCell)
    requires l.arrowWidth == ls[i].arrowWidth || l.arrowWidth == MaxArrowWidth(ls)
    ensures MaximaOf(ls[i := l]) == MaximaOf(ls)
  {
    IconMaxKept(ls, i, l);
    CellMaxKept(ls, i, l, SpacingLeftCell);
    OtherCellKeepsMax(ls, i, l, NameCell);
    CellMaxKept(ls, i, l, SpacingRightCell);
    ArrowMaxKept(ls, i, l);
  }

  /**
   * One pass gives option `i` every maximum, placing its inner menu after
   * the last write, and records as its desired width the widest option at
   * that moment, when the options after `i` are not yet aligned.
   */
  lemma {:induction false} StepAligns(ls: seq<OptionLayout>, i: nat)
    requires i < |ls|
    ensures var a := AlignedCells(ls[i], MaximaOf(ls));
            Step(ls, i) == ls[i := a.(desiredWidth := Some(MaxOf(ls[i := a], WholeWidth)))]
  {
    var m := MaximaOf(ls);
    var l := ls[i];
    var ls1 := WriteIcon(ls, i);
    WriteKeepsMaxima(ls, i, ls1[i]);
    var ls2 := WriteSpacingLeft(ls1, i);
    WriteKeepsMaxima(ls1, i, ls2[i]);
    var ls3 := WriteName(ls2, i);
    WriteKeepsMaxima(ls2, i, ls3[i]);
    var ls4 := WriteSpacingRight(ls3, i);
    WriteKeepsMaxima(ls3, i, ls4[i]);
    var ls5 := WriteArrow(ls4, i);
    WriteKeepsMaxima(ls4, i, ls5[i]);
    var cells := l.(iconWidth := m.icon, spacingLeft := m.spacingLeft, nameBoxWidth := Some(m.name),
                    spacingRight := m.spacingRight);
    assert ls4[i].(innerLeft := l.innerLeft, innerTop := l.innerTop) == cells;
    AdjustedIgnoresPlacement(ls4[i].(arrowWidth := m.arrow), cells.(arrowWidth := m.arrow));
    assert ls5[i] == AlignedCells(l, m);
    UpdatedTwice(ls, i, ls1[i], ls2[i]);
    UpdatedTwice(ls, i, ls2[i], ls3[i]);
    UpdatedTwice(ls, i, ls3[i], ls4[i]);
    UpdatedTwice(ls, i, ls4[i], ls5[i]);
    var r := WriteDesired(ls5, i);
    assert r == Step(ls, i);
    UpdatedTwice(ls, i, ls5[i], r[i]);
  }

  /** A second write to the same index overrides the first. */
  lemma UpdatedTwice<T>(s: seq<T>, i: nat, a: T, b: T)
    requires i < |s|
    ensures s[i := a][i := b] == s[i := b]
  {
  }

  /** One pass keeps every maximum. */
  lemma StepKeepsMaxima(ls: seq<OptionLayout>, i: nat)
    requires i < |ls|
    ensures MaximaOf(Step(ls, i)) == MaximaOf(ls)
  {
    StepAligns(ls, i);
    var a := AlignedCells(ls[i], MaximaOf(ls));
    WriteKeepsMaxima(ls, i, a);
    var b := a.(desiredWidth := Some(MaxOf(ls[i := a], WholeWidth)));
    WriteKeepsMaxima(ls[i := a], i, b);
    UpdatedTwice(ls, i, a, b);
  }

  /** One pass changes option `i` only. */
  lemma StepKeepsOthers(ls: seq<OptionLayout>, i: nat)
    requires i < |ls|
    ensures forall k :: 0 <= k < |ls| && k != i ==> Step(ls, i)[k] == ls[k]
    ensures Step(ls, i)[i].desiredWidth.Some?
    ensures Step(ls, i)[i].(desiredWidth := ls[i].desiredWidth) == AlignedCells(ls[i], MaximaOf(ls))
  {
    StepAligns(ls, i);
  }

  /** Where the inner menu was before does not matter to where the option places it. */
  lemma AdjustedIgnoresPlacement(x: OptionLayout, y: OptionLayout)
    requires x.(innerLeft := y.innerLeft, innerTop := y.innerTop) == y
    ensures Adjusted(x) == Adjusted(y)
  {
  }

  /** The loop keeps every maximum. */
  lemma {:induction false} IterateKeepsMaxima(ls: seq<OptionLayout>, n: nat)
    requires 0 < |ls| && n <= |ls|
    ensures MaximaOf(Iterate(ls, n)) == MaximaOf(ls)
  {
    if n > 0 {
      IterateKeepsMaxima(ls, n - 1);
      StepKeepsMaxima(Iterate(ls, n - 1), n - 1);
    }
  }

  /** The first `n` passes align the first `n` options and leave the remaining options alone. */
  lemma {:induction false} IterateAligns(ls: seq<OptionLayout>, n: nat)
    requires 0 < |ls| && n <= |ls|
    ensures forall k :: n <= k < |ls| ==> Iterate(ls, n)[k] == ls[k]
    ensures forall k :: 0 <= k < n ==>
              Iterate(ls, n)[k].desiredWidth.Some? &&
              Iterate(ls, n)[k].(desiredWidth := ls[k].desiredWidth) == AlignedCells(ls[k], MaximaOf(ls))
  {
    if n > 0 {
      var p := Iterate(ls, n - 1);
      IterateAligns(ls, n - 1);
      IterateKeepsMaxima(ls, n - 1);
      StepKeepsOthers(p, n - 1);
    }
  }

  /**
   * After the whole loop, every option has the widest icon cell (0 when no
   * option shows an icon), the widest spacings, the widest name box and
   * the widest arrow cell (0 when no option has an inner menu), and all
   * options are equally wide apart from their measured names. The widest
   * option, which sizes the border, is the sum of the column maxima.
   */
  lemma {:induction false} MeasureAndArrangeAligns(ls: seq<OptionLayout>)
    requires |ls| > 0
    ensures var r := Iterate(ls, |ls|);
            forall k :: 0 <= k < |ls| ==>
              r[k].iconWidth == MaxIconWidth(ls) && r[k].spacingLeft == MaxOf(ls, SpacingLeftCell) &&
              r[k].nameBoxWidth == Some(MaxOf(ls, NameCell)) && r[k].nameWidth == ls[k].nameWidth &&
              r[k].spacingRight == MaxOf(ls, SpacingRightCell) && r[k].arrowWidth == MaxArrowWidth(ls) &&
              Width(r[k]) == AlignedWidth(MaximaOf(ls), ls[k].nameWidth) &&
              r[k].innerTop == Some(-1.0) &&
              r[k].innerLeft == Some(ls[k].desiredWidth.GetOr(AlignedWidth(MaximaOf(ls), ls[k].nameWidth)))
    ensures MaxOf(Iterate(ls, |ls|), WholeWidth) == AlignedWidth(MaximaOf(ls), MaxOf(ls, NameCell))
    ensures !HasIcon(ls) ==> forall k :: 0 <= k < |ls| ==> Iterate(ls, |ls|)[k].iconWidth == 0.0
    ensures !HasArrow(ls) ==> forall k :: 0 <= k < |ls| ==> Iterate(ls, |ls|)[k].arrowWidth == 0.0
  {
    var r := Iterate(ls, |ls|);
    var m := MaximaOf(ls);
    IterateAligns(ls, |ls|);
    var c := m.icon + m.spacingLeft + m.spacingRight + m.arrow;
    assert forall k :: 0 <= k < |ls| ==> r[k].nameWidth == ls[k].nameWidth && Width(r[k]) == c + r[k].nameWidth;
    MaxShift(ls, NameCell, r, WholeWidth, c);
  }

  /**
   * The last option records the border width as its desired width; an
   * earlier one records the widest option as it was when its turn came,
   * before the options below it were aligned.
   */
  lemma {:induction false} LastDesiredWidthIsBorder(ls: seq<OptionLayout>)
    requires |ls| > 0
    ensures Iterate(ls, |ls|)[|ls| - 1].desiredWidth == Some(MaxOf(Iterate(ls, |ls|), WholeWidth))
  {
    var n := |ls|;
    var p := Iterate(ls, n - 1);
    StepAligns(p, n - 1);
    var a := AlignedCells(p[n - 1], MaximaOf(p));
    var r := Iterate(ls, n);
    assert r == p[n - 1 := a.(desiredWidth := Some(MaxOf(p[n - 1 := a], WholeWidth)))];
    MaxShift(p[n - 1 := a], WholeWidth, r, WholeWidth, 0.0);
  }

  /** Two options as the constructor leaves them, both with inner menus and without icons, with names 50 wide. */
  function FreshPair(): seq<OptionLayout> {
    var l := OptionLayout(false, true, 22.0, 10.0, 50.0, 10.0, 22.0, None, None, Some(64.0), Some(-1.0));
    [l, l]
  }

  /**
   * The first option records 114 as its desired width, the width the
   * second option still had before losing its icon cell, while the border
   * ends 92 wide; its inner menu is placed 22 pixels off the border at the
   * next placement.
   */
  lemma StaleDesiredWidth()
    ensures Iterate(FreshPair(), 2)[0].desiredWidth == Some(114.0)
    ensures MaxOf(Iterate(FreshPair(), 2), WholeWidth) == 92.0
  {
    var ls := FreshPair();
    var m := MaximaOf(ls);
    assert !HasIcon(ls);
    assert ls[0].hasInnerMenu;
    assert m == Maxima(0.0, 10.0, 50.0, 10.0, 22.0) by {
      MaxIsTheBound(ls, SpacingLeftCell, 10.0);
      MaxIsTheBound(ls, NameCell, 50.0);
      MaxIsTheBound(ls, SpacingRightCell, 10.0);
      MaxIsTheBound(ls, ArrowCell, 22.0);
    }
    var p := Iterate(ls, 1);
    StepAligns(ls, 0);
    var a := AlignedCells(ls[0], m);
    assert Width(a) == 92.0 && Width(ls[1]) == 114.0;
    assert ls[0 := a][1] == ls[1];
    MaxIsTheBound(ls[0 := a], WholeWidth, 114.0);
    assert p[0].desiredWidth == Some(114.0);
    MeasureAndArrangeAligns(ls);
    MaxIsTheBound(ls, NameCell, 50.0);
    IterateAligns(ls, 2);
  }

  // ---------------------------------------------------------------------
  // MeasureAndArrange as evidently intended: the maxima and the border
  // width first, then every option gets them, its desired width before
  // the writes that place its inner menu.
  // ---------------------------------------------------------------------

  /** Option `l` aligned to `m`, told the border width `w` before its cells are written. */
  function ArrangedOption(l: OptionLayout, m: Maxima, w: real): (r: OptionLayout)
    ensures r.desiredWidth == Some(w) && r.innerLeft == Some(w) && r.innerTop == Some(-1.0)
    ensures r.(desiredWidth := l.desiredWidth) == AlignedCells(l, m).(innerLeft := Some(w))
  {
    AlignedCells(l.(desiredWidth := Some(w)), m)
  }

  function ArrangedIntended(ls: seq<OptionLayout>): (r: seq<OptionLayout>)
    requires |ls| > 0
    ensures |r| == |ls|
  {
    var m := MaximaOf(ls);
    seq(|ls|, k requires 0 <= k < |ls| => ArrangedOption(ls[k], m, AlignedWidth(m, MaxOf(ls, NameCell))))
  }

  /**
   * Arranged as intended, the options have the same cells as after the
   * loop, and every option's desired width and inner-menu position is the
   * border width.
   */
  lemma {:induction false} ArrangedIntendedAligns(ls: seq<OptionLayout>)
    requires |ls| > 0
    ensures var r := ArrangedIntended(ls);
            forall k :: 0 <= k < |ls| ==>
              r[k].desiredWidth == Some(MaxOf(r, WholeWidth)) && r[k].innerLeft == Some(MaxOf(r, WholeWidth)) &&
              r[k].(desiredWidth := None, innerLeft := None) ==
              Iterate(ls, |ls|)[k].(desiredWidth := None, innerLeft := None)
  {
    var r := ArrangedIntended(ls);
    var m := MaximaOf(ls);
    IterateAligns(ls, |ls|);
    var c := m.icon + m.spacingLeft + m.spacingRight + m.arrow;
    assert forall k :: 0 <= k < |ls| ==> Width(r[k]) == c + ls[k].nameWidth;
    MaxShift(ls, NameCell, r, WholeWidth, c);
  }

  // ---------------------------------------------------------------------
  // The objects.
  // ---------------------------------------------------------------------

  /** The layouts of a sequence of options, in order. */
  function LayoutsOf(os: seq<PopupMenuOption>): (ls: seq<OptionLayout>)
    reads (set p | p in os)`hasIcon, (set p | p in os)`iconWidth, (set p | p in os)`spacingLeft, (set p | p in os)`nameWidth, (set p | p in os)`spacingRight, (set p | p in os)`arrowWidth
    reads (set p | p in os)`nameBoxWidth, (set p | p in os)`desiredWidth, (set p | p in os)`innerLeft, (set p | p in os)`innerTop
    ensures |ls| == |os|
  {
    if |os| == 0 then [] else LayoutsOf(os[..|os| - 1]) + [os[|os| - 1].Layout()]
  }

  /** The layout at index `k` is the layout of option `k`. */
  lemma {:induction false} LayoutsOfAt(os: seq<PopupMenuOption>)
    ensures forall k :: 0 <= k < |os| ==> LayoutsOf(os)[k] == os[k].Layout()
  {
    if |os| > 0 {
      LayoutsOfAt(os[..|os| - 1]);
    }
  }

  /** A sequence holding the layout of every option, in order, is their layouts. */
  lemma LayoutsOfIs(os: seq<PopupMenuOption>, ls: seq<OptionLayout>)
    requires |ls| == |os| && forall k :: 0 <= k < |os| ==> ls[k] == os[k].Layout()
    ensures LayoutsOf(os) == ls
  {
    LayoutsOfAt(os);
  }

  lemma LayoutsOfAppend(os: seq<PopupMenuOption>, o: PopupMenuOption)
    ensures LayoutsOf(os + [o]) == LayoutsOf(os) + [o.Layout()]
  {
    assert (os + [o])[..|os|] == os;
  }

  // ---------------------------------------------------------------------
  // The structure of nested menus.
  // ---------------------------------------------------------------------

  /**
   * A ghost view of a structure of popup menus: the menus it spans, each
   * with a rank, and the options it spans. The source stores no such
   * thing; the recursive operations take one so that their frames and
   * their termination can be stated.
   */
  datatype Scope = Scope(rank: map<PopupMenu, nat>, opts: set<PopupMenuOption>)

  /**
   * Every option of a menu in the scope is in it, and so is the inner menu
   * of such an option that has one, ranked below the option's menu. A
   * structure has a closed scope exactly when its inner menus form no
   * cycle, whatever order it was built in; along a cycle the source's
   * recursion never ends.
   */
  ghost predicate Closed(s: Scope)
    reads s.rank.Keys`options
  {
    forall m, j :: m in s.rank && 0 <= j < |m.options| ==>
      m.options[j] in s.opts &&
      (m.options[j].innerMenu != null ==>
         m.options[j].innerMenu in s.rank && s.rank[m.options[j].innerMenu] < s.rank[m])
  }

  /** The menus reachable from `m` through inner menus, `m` included. */
  ghost function Below(s: Scope, m: PopupMenu): (r: set<PopupMenu>)
    requires Closed(s) && m in s.rank
    reads s.rank.Keys`options
    ensures m in r && r <= s.rank.Keys
    ensures forall x :: x in r ==> s.rank[x] <= s.rank[m]
    decreases s.rank[m], 1
  {
    {m} + BelowFrom(s, m, |m.options|)
  }

  /** The menus reachable through the inner menus of the first `n` options of `m`. */
  ghost function BelowFrom(s: Scope, m: PopupMenu, n: nat): (r: set<PopupMenu>)
    requires Closed(s) && m in s.rank && n <= |m.options|
    reads s.rank.Keys`options
    ensures r <= s.rank.Keys
    ensures forall x :: x in r ==> s.rank[x] < s.rank[m]
    decreases s.rank[m], 0, n
  {
    if n == 0 then {}
    else
      BelowFrom(s, m, n - 1) +
      (if m.options[n - 1].innerMenu != null then Below(s, m.options[n - 1].innerMenu) else {})
  }

  lemma {:induction false} BelowFromHas(s: Scope, m: PopupMenu, n: nat, j: nat)
    requires Closed(s) && m in s.rank && j < n <= |m.options| && m.options[j].innerMenu != null
    ensures Below(s, m.options[j].innerMenu) <= BelowFrom(s, m, n)
    decreases n
  {
    if j < n - 1 {
      BelowFromHas(s, m, n - 1, j);
    }
  }

  lemma {:induction false} BelowFromCases(s: Scope, m: PopupMenu, n: nat, x: PopupMenu) returns (j: nat)
    requires Closed(s) && m in s.rank && n <= |m.options| && x in BelowFrom(s, m, n)
    ensures j < n && m.options[j].innerMenu != null && x in Below(s, m.options[j].innerMenu)
    decreases n
  {
    if x in BelowFrom(s, m, n - 1) {
      j := BelowFromCases(s, m, n - 1, x);
    } else {
      j := n - 1;
    }
  }

  /** The menus below an inner menu of `m` are below `m`, and `m` is not among them. */
  lemma ChildBelow(s: Scope, m: PopupMenu, j: nat)
    requires Closed(s) && m in s.rank && j < |m.options| && m.options[j].innerMenu != null
    ensures Below(s, m.options[j].innerMenu) <= Below(s, m) - {m}
  {
    BelowFromHas(s, m, |m.options|, j);
  }

  /** A menu below `m`, other than `m`, is below the inner menu of one of `m`'s options. */
  lemma BelowCases(s: Scope, m: PopupMenu, x: PopupMenu) returns (j: nat)
    requires Closed(s) && m in s.rank && x in Below(s, m) && x != m
    ensures j < |m.options| && m.options[j].innerMenu != null && x in Below(s, m.options[j].innerMenu)
  {
    j := BelowFromCases(s, m, |m.options|, x);
  }

  /** A menu below `m`, other than `m`, is the inner menu of an option of a menu below `m`. */
  lemma {:induction false} BelowHasParent(s: Scope, m: PopupMenu, y: PopupMenu) returns (z: PopupMenu, k: nat)
    requires Closed(s) && m in s.rank && y in Below(s, m) && y != m
    ensures z in Below(s, m) && k < |z.options| && z.options[k].innerMenu == y
    decreases s.rank[m]
  {
    var j := BelowCases(s, m, y);
    var c := m.options[j].innerMenu;
    ChildBelow(s, m, j);
    if y == c {
      z, k := m, j;
    } else {
      z, k := BelowHasParent(s, c, y);
    }
  }

  /** The options of the menus in `ms` that have an inner menu: the arrows a collapse may change. */
  ghost function Arrows(ms: set<PopupMenu>): set<PopupMenuOption>
    reads ms`options
  {
    set x, j | x in ms && 0 <= j < |x.options| && x.options[j].innerMenu != null :: x.options[j]
  }

  /** What a collapse through option `j` of `m` may change lies within what a collapse of `m` may change. */
  lemma ArrowsBelow(s: Scope, m: PopupMenu, j: nat)
    requires Closed(s) && m in s.rank && j < |m.options| && m.options[j].innerMenu != null
    ensures Below(s, m.options[j].innerMenu) <= Below(s, m) - {m}
    ensures Arrows(Below(s, m.options[j].innerMenu)) + {m.options[j]} <= Arrows(Below(s, m))
  {
    ChildBelow(s, m, j);
  }

  /** The menus below `m` are collapsed, and every option in them with an inner menu shows the closed arrow. */
  ghost predicate AllCollapsed(s: Scope, m: PopupMenu)
    requires Closed(s) && m in s.rank
    reads s.rank.Keys`options, s.rank.Keys`visibility, s.opts`arrowText
  {
    forall x :: x in Below(s, m) ==> x.visibility == Collapsed && ArrowsClosed(s, x)
  }

  /** Every option of `x` with an inner menu shows the closed arrow. */
  ghost predicate ArrowsClosed(s: Scope, x: PopupMenu)
    requires Closed(s) && x in s.rank
    reads s.rank.Keys`options, s.opts`arrowText
  {
    forall j :: 0 <= j < |x.options| && x.options[j].innerMenu != null ==> x.options[j].arrowText == CollapsedArrow
  }

  /**
   * Below `m`, no menu lists an option twice, every option is shown in the
   * panel of the menu that lists it, and every inner menu is held by its
   * option: the toolkit gives an element one parent, so a structure built
   * without a failed add looks like this.
   */
  ghost predicate Held(s: Scope, m: PopupMenu)
    requires Closed(s) && m in s.rank
    reads s.rank.Keys`options, s.rank.Keys`holder, s.opts`shownIn
  {
    forall x :: x in Below(s, m) ==> x.Distinct() && ParentsHeld(s, x)
  }

  /** Every option of `x` is shown by `x`, and every inner menu of them is held by its option. */
  ghost predicate ParentsHeld(s: Scope, x: PopupMenu)
    requires Closed(s) && x in s.rank
    reads s.rank.Keys`options, s.rank.Keys`holder, s.opts`shownIn
  {
    forall j :: 0 <= j < |x.options| ==>
      x.options[j].shownIn == x &&
      (x.options[j].innerMenu != null ==> x.options[j].innerMenu.holder == x.options[j])
  }

  /** In a held structure the menus below two different options of one menu are disjoint. */
  lemma HeldSeparate(s: Scope, m: PopupMenu, i: nat, j: nat)
    requires Closed(s) && m in s.rank && Held(s, m)
    requires i < |m.options| && j < |m.options| && i != j
    requires m.options[i].innerMenu != null && m.options[j].innerMenu != null
    ensures Below(s, m.options[i].innerMenu) !! Below(s, m.options[j].innerMenu)
  {
    forall y | y in Below(s, m.options[i].innerMenu) && y in Below(s, m.options[j].innerMenu)
      ensures false
    {
      SharedClimb(s, m, i, j, y);
    }
  }

  /** A menu below both of two different options of a held menu has a parent below both, ranked higher. */
  lemma {:induction false} SharedClimb(s: Scope, m: PopupMenu, i: nat, j: nat, y: PopupMenu)
    requires Closed(s) && m in s.rank && Held(s, m)
    requires i < |m.options| && j < |m.options| && i != j
    requires m.options[i].innerMenu != null && m.options[j].innerMenu != null
    requires y in Below(s, m.options[i].innerMenu) && y in Below(s, m.options[j].innerMenu)
    ensures false
    decreases s.rank[m.options[i].innerMenu] - s.rank[y]
  {
    var ci, cj := m.options[i].innerMenu, m.options[j].innerMenu;
    ChildBelow(s, m, i);
    ChildBelow(s, m, j);
    assert m.Distinct() && ParentsHeld(s, m);
    if y == ci || y == cj {
      var other := if y == ci then cj else ci;
      if y != other {
        var z, k := BelowHasParent(s, other, y);
        BelowTransitiveHeld(s, m, other, z);
      }
    } else {
      var zi, ki := BelowHasParent(s, ci, y);
      var zj, kj := BelowHasParent(s, cj, y);
      BelowTransitiveHeld(s, m, ci, zi);
      BelowTransitiveHeld(s, m, cj, zj);
      SharedClimb(s, m, i, j, zi);
    }
  }

  /** Whatever is reachable from a menu below `m` is below `m`. */
  lemma {:induction false} BelowTransitive(s: Scope, m: PopupMenu, y: PopupMenu)
    requires Closed(s) && m in s.rank && y in Below(s, m)
    ensures Below(s, y) <= Below(s, m)
    decreases s.rank[m]
  {
    if y != m {
      var j := BelowCases(s, m, y);
      ChildBelow(s, m, j);
      BelowTransitive(s, m.options[j].innerMenu, y);
    }
  }

  /** A menu below a menu below `m` is below `m`, so a held `m` makes its options shown by it. */
  lemma BelowTransitiveHeld(s: Scope, m: PopupMenu, c: PopupMenu, z: PopupMenu)
    requires Closed(s) && m in s.rank && Held(s, m) && c in Below(s, m) && z in Below(s, c)
    ensures z in Below(s, m) && z.Distinct() && ParentsHeld(s, z)
  {
    BelowTransitive(s, m, c);
  }

  /**
   * An option of a popup menu: an icon cell, a left spacing, the name, a
   * right spacing and an arrow cell in a row, and optionally an inner menu
   * shown to the right of the row.
   */
  class PopupMenuOption {
    const name: string
    const innerMenu: PopupMenu?
    var hasIcon: bool
    var height: real
    var iconWidth: real
    var spacingLeft: real
    /** The width the NameWidth getter returns: measured by the toolkit, an input here. */
    var nameWidth: real
    var spacingRight: real
    var arrowWidth: real
    /** The width the NameWidth setter gives the name's text block. */
    var nameBoxWidth: Option<real>
    var desiredWidth: Option<real>
    /** Where the inner menu's container sits on the option's canvas. */
    var innerLeft: Option<real>
    var innerTop: Option<real>
    var arrowText: string
    var canBeMeasured: bool
    /** The menus whose MeasureAndArrange runs once the option can be measured. */
    var measureListeners: seq<PopupMenu>
    /** The menu whose panel shows the option's element; null until a menu adds it. */
    var shownIn: PopupMenu?

    function Layout(): OptionLayout
      reads this`hasIcon, this`iconWidth, this`spacingLeft, this`nameWidth, this`spacingRight, this`arrowWidth
      reads this`nameBoxWidth, this`desiredWidth, this`innerLeft, this`innerTop
    {
      OptionLayout(hasIcon, innerMenu != null, iconWidth, spacingLeft, nameWidth, spacingRight, arrowWidth,
                   nameBoxWidth, desiredWidth, innerLeft, innerTop)
    }

    /**
     * A new option. Its name has not been laid out yet, so it cannot be
     * measured and its name width is the cached 0; the icon and arrow cells
     * are as wide as the option is high, so its inner menu is placed at 64.
     */
    constructor (name: string, innerMenu: PopupMenu?)
      requires innerMenu != null ==> innerMenu.holder == null
      modifies (if innerMenu == null then {} else {innerMenu})`holder
      ensures this.name == name && this.innerMenu == innerMenu
      ensures Layout() == OptionLayout(false, innerMenu != null, DefaultHeight, DefaultSpacingLeft, 0.0,
                                       DefaultSpacingRight, DefaultHeight, None, None, Some(64.0), Some(-1.0))
      ensures height == DefaultHeight && arrowText == "" && !canBeMeasured && measureListeners == []
      ensures shownIn == null && (innerMenu != null ==> innerMenu.holder == this)
    {
      this.name := name;
      this.innerMenu := innerMenu;
      shownIn := null;
      hasIcon := false;
      canBeMeasured := false;
      measureListeners := [];
      arrowText := "";
      nameWidth := 0.0;
      nameBoxWidth := None;
      desiredWidth := None;
      innerLeft := None;
      innerTop := None;
      iconWidth := 0.0;
      arrowWidth := 0.0;
      height := DefaultHeight;
      spacingLeft := DefaultSpacingLeft;
      spacingRight := DefaultSpacingRight;
      new;
      if innerMenu != null {
        innerMenu.holder := this;
      }
      SetIconWidth(height);
      SetArrowWidth(height);
    }

    /** Places the inner menu's container at the desired width if set, else at the option's width, one pixel up. */
    method AdjustInnerMenuPos()
      modifies this`innerLeft, this`innerTop
      ensures Layout() == Adjusted(old(Layout()))
    {
      innerLeft := Some(desiredWidth.GetOr(Width(Layout())));
      innerTop := Some(-1.0);
    }

    /** The size-changed event places the inner menu again, when there is one. */
    method SizeChanged()
      modifies this`innerLeft, this`innerTop
      ensures innerMenu != null ==> Layout() == Adjusted(old(Layout()))
      ensures innerMenu == null ==> Layout() == old(Layout())
    {
      if innerMenu != null {
        AdjustInnerMenuPos();
      }
    }

    method SetIconWidth(value: real)
      modifies this`iconWidth, this`innerLeft, this`innerTop
      ensures Layout() == WithIconWidth(old(Layout()), value)
    {
      iconWidth := value;
      AdjustInnerMenuPos();
      SizeChanged();
    }

    method SetSpacingLeft(value: real)
      modifies this`spacingLeft
      ensures Layout() == old(Layout()).(spacingLeft := value)
    {
      spacingLeft := value;
    }

    method SetNameWidth(value: real)
      modifies this`nameBoxWidth, this`innerLeft, this`innerTop
      ensures Layout() == WithNameWidth(old(Layout()), value)
    {
      nameBoxWidth := Some(value);
      AdjustInnerMenuPos();
      SizeChanged();
    }

    method SetSpacingRight(value: real)
      modifies this`spacingRight
      ensures Layout() == old(Layout()).(spacingRight := value)
    {
      spacingRight := value;
    }

    method SetArrowWidth(value: real)
      modifies this`arrowWidth, this`innerLeft, this`innerTop
      ensures Layout() == WithArrowWidth(old(Layout()), value)
    {
      arrowWidth := value;
      AdjustInnerMenuPos();
      SizeChanged();
    }

    /** Setting the desired width does not place the inner menu again. */
    method SetDesiredWidth(value: Option<real>)
      modifies this`desiredWidth
      ensures Layout() == old(Layout()).(desiredWidth := value)
    {
      desiredWidth := value;
    }

    method SetIcon(present: bool)
      modifies this`hasIcon
      ensures Layout() == old(Layout()).(hasIcon := present)
    {
      hasIcon := present;
    }

    /** Whether the inner menu is shown; false without one. */
    predicate IsExpanded()
      reads (if innerMenu == null then {} else {innerMenu})`visibility
    {
      innerMenu != null && innerMenu.visibility == Visible
    }

    /**
     * Collapses the inner menu and everything below it, and shows the
     * closed arrow; nothing without an inner menu. A collapse only
     * collapses: whatever it changes ends collapsed.
     */
    method Collapse(ghost s: Scope)
      requires Closed(s) && (innerMenu != null ==> innerMenu in s.rank)
      modifies (if innerMenu == null then {} else Below(s, innerMenu))`visibility
      modifies (if innerMenu == null then {} else Arrows(Below(s, innerMenu)) + {this})`arrowText
      ensures innerMenu == null ==> arrowText == old(arrowText)
      ensures innerMenu != null ==> arrowText == CollapsedArrow && AllCollapsed(s, innerMenu)
      ensures forall x :: x in s.rank ==> x.visibility == old(x.visibility) || x.visibility == Collapsed
      ensures forall p :: p in s.opts ==> p.arrowText == old(p.arrowText) || p.arrowText == CollapsedArrow
      decreases if innerMenu == null then 0 else s.rank[innerMenu] + 1, 3
    {
      if innerMenu != null {
        innerMenu.Collapse(s);
        arrowText := CollapsedArrow;
      }
    }

    /** Shows the inner menu and the open arrow; nothing without an inner menu. */
    method Expand()
      modifies (if innerMenu == null then {} else {innerMenu})`visibility, (if innerMenu == null then {} else {this})`arrowText
      ensures innerMenu == null ==> arrowText == old(arrowText)
      ensures innerMenu != null ==> arrowText == ExpandedArrow && innerMenu.visibility == Visible
    {
      if innerMenu != null {
        innerMenu.Expand();
        arrowText := ExpandedArrow;
      }
    }

    /** Collapses an expanded inner menu and expands one that is not. */
    method Toggle(ghost s: Scope)
      requires Closed(s) && (innerMenu != null ==> innerMenu in s.rank)
      modifies (if innerMenu == null then {} else Below(s, innerMenu))`visibility
      modifies (if innerMenu == null then {} else Arrows(Below(s, innerMenu)) + {this})`arrowText
      ensures innerMenu == null ==> !IsExpanded() && arrowText == old(arrowText)
      ensures innerMenu != null ==> (IsExpanded() <==> !old(IsExpanded()))
      ensures old(IsExpanded()) ==> arrowText == CollapsedArrow && AllCollapsed(s, innerMenu)
      ensures innerMenu != null && !old(IsExpanded()) ==> arrowText == ExpandedArrow
    {
      if IsExpanded() {
        Collapse(s);
      } else {
        Expand();
      }
    }
  }

  /**
   * A popup menu: a bordered column of options. `options` is the list the
   * menu keeps and `panel` the children of the stack panel the options'
   * elements are placed in; an add the toolkit refuses leaves the list one
   * option longer than the panel. `holder` is the option whose container
   * shows this menu as its inner menu, null while none does.
   */
  class PopupMenu {
    var visibility: Visibility
    var options: seq<PopupMenuOption>
    var panel: seq<PopupMenuOption>
    var openOption: PopupMenuOption?
    var borderWidth: Option<real>
    var holder: PopupMenuOption?

    /** No option appears twice. */
    predicate Distinct()
      reads this`options
    {
      forall i, j :: 0 <= i < j < |options| ==> options[i] != options[j]
    }

    /** Every listed option has been shown by some menu: an add either shows it here or fails because it is shown elsewhere. */
    predicate Shown()
      reads this`options, (set p | p in options)`shownIn
    {
      forall j :: 0 <= j < |options| ==> options[j].shownIn != null
    }

    /** A menu without options, held by no option. */
    constructor ()
      ensures options == [] && panel == [] && holder == null
      ensures visibility == Visible && openOption == null && borderWidth == None
    {
      visibility := Visible;
      options := [];
      panel := [];
      openOption := null;
      borderWidth := None;
      holder := null;
    }

    predicate IsExpanded()
      reads this`visibility
    {
      visibility == Visible
    }

    function Layouts(): (ls: seq<OptionLayout>)
      reads this`options
      reads (set p | p in options)`hasIcon, (set p | p in options)`iconWidth, (set p | p in options)`spacingLeft, (set p | p in options)`nameWidth, (set p | p in options)`spacingRight
      reads (set p | p in options)`arrowWidth, (set p | p in options)`nameBoxWidth, (set p | p in options)`desiredWidth, (set p | p in options)`innerLeft, (set p | p in options)`innerTop
    {
      LayoutsOf(options)
    }

    /** Writes column `c` of option `i` through the option's setter, with the maximum the menu has right then. */
    method WriteCell(i: nat, c: Column)
      requires Distinct() && i < |options|
      modifies (set p | p in options)`iconWidth, (set p | p in options)`spacingLeft, (set p | p in options)`nameBoxWidth, (set p | p in options)`spacingRight
      modifies (set p | p in options)`arrowWidth, (set p | p in options)`desiredWidth, (set p | p in options)`innerLeft, (set p | p in options)`innerTop
      ensures Layouts() == Write(old(Layouts()), i, c)
    {
      var o := options[i];
      assert forall k :: 0 <= k < |options| && k != i ==> options[k] != o;
      LayoutsOfAt(options);
      ghost var before := Layouts();
      match c {
        case IconCell => o.SetIconWidth(MaxIconWidth(Layouts()));
        case SpacingLeftCell => o.SetSpacingLeft(MaxOf(Layouts(), SpacingLeftCell));
        case NameCell => o.SetNameWidth(MaxOf(Layouts(), NameCell));
        case SpacingRightCell => o.SetSpacingRight(MaxOf(Layouts(), SpacingRightCell));
        case ArrowCell => o.SetArrowWidth(MaxArrowWidth(Layouts()));
        case WholeWidth => o.SetDesiredWidth(Some(MaxOf(Layouts(), WholeWidth)));
      }
      LayoutsOfIs(options, before[i := o.Layout()]);
    }

    /**
     * The loop body of MeasureAndArrange for option `i`: six writes, each
     * reading the menu's maxima anew. The first `i` passes over `start`
     * become the first `i + 1`.
     */
    method AlignOption(ghost start: seq<OptionLayout>, i: nat)
      requires Distinct() && i < |options| == |start| && Layouts() == Iterate(start, i)
      modifies (set p | p in options)`iconWidth, (set p | p in options)`spacingLeft, (set p | p in options)`nameBoxWidth, (set p | p in options)`spacingRight
      modifies (set p | p in options)`arrowWidth, (set p | p in options)`desiredWidth, (set p | p in options)`innerLeft, (set p | p in options)`innerTop
      ensures Layouts() == Iterate(start, i + 1)
    {
      ghost var l0 := Layouts();
      WriteCell(i, IconCell);
      ghost var l1 := Layouts();
      WriteCell(i, SpacingLeftCell);
      ghost var l2 := Layouts();
      WriteCell(i, NameCell);
      ghost var l3 := Layouts();
      WriteCell(i, SpacingRightCell);
      ghost var l4 := Layouts();
      WriteCell(i, ArrowCell);
      ghost var l5 := Layouts();
      WriteCell(i, WholeWidth);
      WritesMakeStep(l0, l1, l2, l3, l4, l5, Layouts(), i);
    }

    /**
     * Gives every option the widest cells of the menu, one option after the
     * other, then sizes the border to the widest option. On a menu without
     * options the loop does nothing and taking the widest option fails.
     */
    method MeasureAndArrange() returns (r: Outcome<MenuError>)
      requires Distinct()
      modifies (set p | p in options)`iconWidth, (set p | p in options)`spacingLeft, (set p | p in options)`nameBoxWidth, (set p | p in options)`spacingRight
      modifies (set p | p in options)`arrowWidth, (set p | p in options)`desiredWidth, (set p | p in options)`innerLeft, (set p | p in options)`innerTop, this`borderWidth
      ensures |options| == 0 ==> r == Fail(EmptySequence) && borderWidth == old(borderWidth)
      ensures |options| > 0 ==> r == Pass && Layouts() == Iterate(old(Layouts()), |options|)
      ensures |options| > 0 ==> borderWidth == Some(MaxOf(Layouts(), WholeWidth))
    {
      if |options| == 0 {
        // the loop has nothing to do; taking the widest option throws
        return Fail(EmptySequence);
      }
      ghost var start := Layouts();
      var i := 0;
      while i < |options|
        invariant 0 <= i <= |options| && Distinct()
        invariant Layouts() == Iterate(start, i)
      {
        AlignOption(start, i);
        i := i + 1;
      }
      borderWidth := Some(MaxOf(Layouts(), WholeWidth));
      return Pass;
    }

    /**
     * Collapses every option, and with them every menu below, then hides
     * this menu. A collapse only collapses: whatever it changes ends
     * collapsed.
     */
    method Collapse(ghost s: Scope)
      requires Closed(s) && this in s.rank
      modifies Below(s, this)`visibility, Arrows(Below(s, this))`arrowText
      ensures AllCollapsed(s, this)
      ensures forall x :: x in s.rank ==> x.visibility == old(x.visibility) || x.visibility == Collapsed
      ensures forall p :: p in s.opts ==> p.arrowText == old(p.arrowText) || p.arrowText == CollapsedArrow
      decreases s.rank[this] + 1, 2
    {
      CollapseOptions(s);
      Hide(s);
    }

    /** Collapses every option in turn, and with them every menu below. */
    method CollapseOptions(ghost s: Scope)
      requires Closed(s) && this in s.rank
      modifies (Below(s, this) - {this})`visibility, Arrows(Below(s, this))`arrowText
      ensures forall j :: 0 <= j < |options| && options[j].innerMenu != null ==>
                options[j].arrowText == CollapsedArrow && AllCollapsed(s, options[j].innerMenu)
      ensures forall x :: x in s.rank ==> x.visibility == old(x.visibility) || x.visibility == Collapsed
      ensures forall p :: p in s.opts ==> p.arrowText == old(p.arrowText) || p.arrowText == CollapsedArrow
      decreases s.rank[this] + 1, 1
    {
      var i := 0;
      while i < |options|
        invariant 0 <= i <= |options|
        invariant OthersCollapsed(s, null, i)
        invariant forall x :: x in s.rank ==> x.visibility == old(x.visibility) || x.visibility == Collapsed
        invariant forall p :: p in s.opts ==> p.arrowText == old(p.arrowText) || p.arrowText == CollapsedArrow
      {
        if options[i].innerMenu != null {
          ArrowsBelow(s, this, i);
        }
        CollapseAt(s, i, null);
        i := i + 1;
      }
    }

    /** Hides a menu whose options are all collapsed, which collapses it with everything below it. */
    method Hide(ghost s: Scope)
      requires Closed(s) && this in s.rank
      requires forall j :: 0 <= j < |options| && options[j].innerMenu != null ==>
                 options[j].arrowText == CollapsedArrow && AllCollapsed(s, options[j].innerMenu)
      modifies this`visibility
      ensures visibility == Collapsed && AllCollapsed(s, this)
    {
      visibility := Collapsed;
      forall j | 0 <= j < |options| && options[j].innerMenu != null
        ensures AllCollapsed(s, options[j].innerMenu)
      {
        options[j].innerMenu.CollapsedKept(s);
      }
      CollapsedFromOptions(s);
    }

    /**
     * Collapses option `i`; whatever was already collapsed stays so, and
     * nothing outside the option and the menus below it changes.
     */
    method CollapseAt(ghost s: Scope, i: nat, ghost o: PopupMenuOption?)
      requires Closed(s) && this in s.rank && i < |options|
      modifies (if options[i].innerMenu == null then {} else Below(s, options[i].innerMenu))`visibility
      modifies (if options[i].innerMenu == null then {} else Arrows(Below(s, options[i].innerMenu)) + {options[i]})`arrowText
      ensures options[i].innerMenu != null ==>
                options[i].arrowText == CollapsedArrow && AllCollapsed(s, options[i].innerMenu)
      ensures forall j :: 0 <= j < |options| && j != i && options[j].innerMenu != null ==>
                old(options[j].arrowText == CollapsedArrow && AllCollapsed(s, options[j].innerMenu)) ==>
                options[j].arrowText == CollapsedArrow && AllCollapsed(s, options[j].innerMenu)
      ensures old(OthersCollapsed(s, o, i)) ==> OthersCollapsed(s, o, i + 1)
      ensures forall x :: x in s.rank ==> x.visibility == old(x.visibility) || x.visibility == Collapsed
      ensures forall p :: p in s.opts ==> p.arrowText == old(p.arrowText) || p.arrowText == CollapsedArrow
      decreases s.rank[this] + 1, 0
    {
      if options[i].innerMenu != null {
        ChildBelow(s, this, i);
      }
      options[i].Collapse(s);
      forall j | 0 <= j < |options| && j != i && options[j].innerMenu != null &&
                 old(options[j].arrowText == CollapsedArrow && AllCollapsed(s, options[j].innerMenu))
        ensures AllCollapsed(s, options[j].innerMenu)
      {
        options[j].innerMenu.CollapsedKept(s);
      }
    }

    /**
     * Of the first `n` options, every one but `o` is collapsed, with every
     * menu below it; with `o` null, every one of them.
     */
    ghost predicate OthersCollapsed(s: Scope, o: PopupMenuOption?, n: nat)
      requires Closed(s) && this in s.rank && n <= |options|
      reads s.rank.Keys`options, s.rank.Keys`visibility, s.opts`arrowText
    {
      forall j :: 0 <= j < n && options[j] != o && options[j].innerMenu != null ==>
        options[j].arrowText == CollapsedArrow && AllCollapsed(s, options[j].innerMenu)
    }

    /** A menu that is hidden, with every option collapsed, is collapsed with everything below it. */
    lemma CollapsedFromOptions(s: Scope)
      requires Closed(s) && this in s.rank && visibility == Collapsed
      requires forall j :: 0 <= j < |options| && options[j].innerMenu != null ==>
                 options[j].arrowText == CollapsedArrow && AllCollapsed(s, options[j].innerMenu)
      ensures AllCollapsed(s, this)
    {
      forall x | x in Below(s, this)
        ensures x.visibility == Collapsed && ArrowsClosed(s, x)
      {
        if x != this {
          var j := BelowCases(s, this, x);
        }
      }
    }

    /** In a collapsed menu every option is collapsed, with every menu below it. */
    lemma CollapsedOptions(s: Scope)
      requires Closed(s) && this in s.rank && AllCollapsed(s, this)
      ensures OthersCollapsed(s, null, |options|)
    {
      forall j | 0 <= j < |options| && options[j].innerMenu != null
        ensures options[j].arrowText == CollapsedArrow && AllCollapsed(s, options[j].innerMenu)
      {
        ChildBelow(s, this, j);
      }
    }

    /** Whatever only collapses keeps a collapsed menu collapsed. */
    twostate lemma CollapsedKept(s: Scope)
      requires old(Closed(s)) && this in s.rank && old(AllCollapsed(s, this))
      requires unchanged(s.rank.Keys`options)
      requires forall x :: x in s.rank ==> x.visibility == old(x.visibility) || x.visibility == Collapsed
      requires forall p :: p in s.opts ==> p.arrowText == old(p.arrowText) || p.arrowText == CollapsedArrow
      ensures AllCollapsed(s, this)
    {
      forall x | x in Below(s, this)
        ensures x.visibility == Collapsed && ArrowsClosed(s, x)
      {
        assert old(x.visibility == Collapsed && ArrowsClosed(s, x));
      }
    }

    /** Shows this menu; the menus below keep their visibility. */
    method Expand()
      modifies this`visibility
      ensures visibility == Visible
    {
      visibility := Visible;
    }

    /** Collapses an expanded menu with everything below it, and shows one that is not expanded. */
    method Toggle(ghost s: Scope)
      requires Closed(s) && this in s.rank
      modifies Below(s, this)`visibility, Arrows(Below(s, this))`arrowText
      ensures IsExpanded() == !old(IsExpanded())
      ensures old(IsExpanded()) ==> AllCollapsed(s, this)
      ensures !old(IsExpanded()) ==> forall m :: m in s.rank && m != this ==> m.visibility == old(m.visibility)
      ensures !old(IsExpanded()) ==> forall p :: p in s.opts ==> p.arrowText == old(p.arrowText)
    {
      if IsExpanded() {
        Collapse(s);
      } else {
        Expand();
      }
    }

    /**
     * The handler the menu gives each option it adds: records `o` as the
     * open option, collapses every other option and, when `o` has no inner
     * menu, the whole menu. Where every option is held by one menu, the
     * inner menu of `o` keeps its visibility.
     */
    method OptionClicked(ghost s: Scope, o: PopupMenuOption)
      requires Closed(s) && this in s.rank && o in options
      modifies Below(s, this)`visibility, Arrows(Below(s, this))`arrowText, this`openOption
      ensures openOption == o
      ensures forall j :: 0 <= j < |options| && options[j] != o && options[j].innerMenu != null ==>
                options[j].arrowText == CollapsedArrow && AllCollapsed(s, options[j].innerMenu)
      ensures o.innerMenu != null ==> visibility == old(visibility)
      ensures o.innerMenu != null && old(Held(s, this)) ==> o.IsExpanded() == old(o.IsExpanded())
      ensures o.innerMenu == null ==> AllCollapsed(s, this)
    {
      openOption := o;
      CollapseOthers(s, o);
      if o.innerMenu == null {
        Collapse(s);
        CollapsedOptions(s);
      }
    }

    /** The handler's loop: collapses every option but `o`. */
    method CollapseOthers(ghost s: Scope, o: PopupMenuOption)
      requires Closed(s) && this in s.rank && o in options
      modifies (Below(s, this) - {this})`visibility, Arrows(Below(s, this))`arrowText
      ensures OthersCollapsed(s, o, |options|)
      ensures old(Held(s, this)) && o.innerMenu != null ==> o.IsExpanded() == old(o.IsExpanded())
      ensures visibility == old(visibility)
    {
      ghost var held := Held(s, this);
      var i := 0;
      while i < |options|
        invariant 0 <= i <= |options|
        invariant OthersCollapsed(s, o, i)
        invariant held == Held(s, this)
        invariant held && o.innerMenu != null ==> o.IsExpanded() == old(o.IsExpanded())
        invariant visibility == old(visibility)
      {
        CollapseOther(s, i, o);
        i := i + 1;
      }
    }

    /**
     * One step of the handler's loop: option `i` is collapsed unless it is
     * `o`. Options already collapsed stay so; where every option is held
     * by one menu, the other options and the inner menu of `o` keep their
     * state.
     */
    method CollapseOther(ghost s: Scope, i: nat, o: PopupMenuOption)
      requires Closed(s) && this in s.rank && i < |options| && o in options
      modifies (Below(s, this) - {this})`visibility, Arrows(Below(s, this))`arrowText
      ensures options[i] != o && options[i].innerMenu != null ==>
                options[i].arrowText == CollapsedArrow && AllCollapsed(s, options[i].innerMenu)
      ensures forall j :: 0 <= j < |options| && j != i && options[j].innerMenu != null ==>
                old(options[j].arrowText == CollapsedArrow && AllCollapsed(s, options[j].innerMenu)) ==>
                options[j].arrowText == CollapsedArrow && AllCollapsed(s, options[j].innerMenu)
      ensures old(OthersCollapsed(s, o, i)) ==> OthersCollapsed(s, o, i + 1)
      ensures old(Held(s, this)) ==> forall j :: 0 <= j < |options| && j != i ==> options[j].arrowText == old(options[j].arrowText)
      ensures old(Held(s, this)) && o.innerMenu != null ==> o.IsExpanded() == old(o.IsExpanded())
      ensures visibility == old(visibility)
    {
      if options[i] != o {
        if options[i].innerMenu != null {
          ArrowsBelow(s, this, i);
          if Held(s, this) {
            HeldApart(s, i, o);
          }
        }
        CollapseAt(s, i, o);
      }
    }

    /**
     * In a held menu, the option `j` is neither option `i` nor an option
     * below it: a collapse through option `i` leaves its arrow alone.
     */
    lemma HeldArrowsApart(s: Scope, i: nat, j: nat)
      requires Closed(s) && this in s.rank && Held(s, this)
      requires i < |options| && j < |options| && i != j && options[i].innerMenu != null
      ensures options[j] !in Arrows(Below(s, options[i].innerMenu)) + {options[i]}
    {
      ChildBelow(s, this, i);
      assert Distinct() && ParentsHeld(s, this);
    }

    /**
     * In a held menu, a collapse through option `i` reaches neither the
     * other options nor the inner menu of another option `o`.
     */
    lemma HeldApart(s: Scope, i: nat, o: PopupMenuOption)
      requires Closed(s) && this in s.rank && Held(s, this)
      requires i < |options| && options[i].innerMenu != null && o in options && o != options[i]
      ensures forall j :: 0 <= j < |options| && j != i ==> options[j] !in Arrows(Below(s, options[i].innerMenu)) + {options[i]}
      ensures o.innerMenu != null ==> o.innerMenu !in Below(s, options[i].innerMenu)
    {
      forall j | 0 <= j < |options| && j != i
        ensures options[j] !in Arrows(Below(s, options[i].innerMenu)) + {options[i]}
      {
        HeldArrowsApart(s, i, j);
      }
      if o.innerMenu != null {
        var k :| 0 <= k < |options| && options[k] == o;
        HeldSeparate(s, this, i, k);
        assert o.innerMenu in Below(s, options[k].innerMenu);
      }
    }

    /** A click on option `o`: the option's own handler toggles its inner menu, then the menu's handler runs. */
    method Click(ghost s: Scope, o: PopupMenuOption)
      requires Closed(s) && this in s.rank && o in options
      modifies Below(s, this)`visibility, Arrows(Below(s, this))`arrowText, this`openOption
      ensures openOption == o
      ensures forall j :: 0 <= j < |options| && options[j] != o && options[j].innerMenu != null ==>
                options[j].arrowText == CollapsedArrow && AllCollapsed(s, options[j].innerMenu)
      ensures o.innerMenu != null ==> visibility == old(visibility)
      ensures o.innerMenu != null && old(Held(s, this)) ==> (o.IsExpanded() <==> !old(o.IsExpanded()))
      ensures o.innerMenu == null ==> AllCollapsed(s, this)
    {
      if o.innerMenu != null {
        var k :| 0 <= k < |options| && options[k] == o;
        ArrowsBelow(s, this, k);
      }
      ghost var held, below := Held(s, this), Below(s, this);
      o.Toggle(s);
      assert Below(s, this) == below && (held ==> Held(s, this));
      OptionClicked(s, o);
    }

    /**
     * Appends `o` to the options, then its element to the panel. The
     * toolkit refuses the second step when the element is already shown by
     * a menu, after the first has happened.
     */
    method Append(o: PopupMenuOption) returns (r: Outcome<MenuError>)
      modifies this`options, this`panel, o`shownIn
      ensures options == old(options) + [o]
      ensures r == Pass <==> old(o.shownIn) == null
      ensures r == Pass ==> panel == old(panel) + [o] && o.shownIn == this
      ensures r.Fail? ==> r.error == ElementHasParent && panel == old(panel) && o.shownIn == old(o.shownIn)
      ensures Layouts() == old(Layouts()) + [o.Layout()]
      ensures old(Shown()) ==> Shown()
      ensures old(Distinct() && Shown()) && r == Pass ==> Distinct()
    {
      ghost var old_options := options;
      LayoutsOfAt(options);
      ghost var before := Layouts();
      options := options + [o];
      if o.shownIn != null {
        r := Fail(ElementHasParent);
      } else {
        assert old(Shown()) ==> o !in old_options;
        panel := panel + [o];
        o.shownIn := this;
        r := Pass;
      }
      LayoutsOfAppend(old_options, o);
      LayoutsOfIs(old_options, before);
      if old(Shown()) {
        forall j | 0 <= j < |options|
          ensures options[j].shownIn != null
        {
          if j < |old_options| {
            assert old(options[j].shownIn) != null;
          }
        }
      }
    }

    /**
     * Adds option `o`. When its element is already shown by a menu the add
     * fails once the option is listed. Otherwise an option that can be
     * measured is aligned with the others right away, and one that cannot
     * yet is given this menu to re-measure once it can.
     */
    method AddOption(o: PopupMenuOption) returns (r: Outcome<MenuError>)
      requires Distinct() && Shown()
      modifies this`options, this`panel, o`shownIn, o`measureListeners, this`borderWidth
      modifies (set p | p in options + [o])`iconWidth, (set p | p in options + [o])`spacingLeft, (set p | p in options + [o])`nameBoxWidth
      modifies (set p | p in options + [o])`spacingRight, (set p | p in options + [o])`arrowWidth, (set p | p in options + [o])`desiredWidth
      modifies (set p | p in options + [o])`innerLeft, (set p | p in options + [o])`innerTop
      ensures options == old(options) + [o] && Shown()
      ensures r == Pass <==> old(o.shownIn) == null
      ensures r == Pass ==> panel == old(panel) + [o] && o.shownIn == this && Distinct()
      ensures r == Pass && old(o.canBeMeasured) ==>
                o.measureListeners == old(o.measureListeners) &&
                Layouts() == Iterate(old(Layouts()) + [old(o.Layout())], |options|) &&
                borderWidth == Some(MaxOf(Layouts(), WholeWidth))
      ensures r == Pass && !old(o.canBeMeasured) ==>
                o.measureListeners == old(o.measureListeners) + [this] &&
                Layouts() == old(Layouts()) + [old(o.Layout())] && borderWidth == old(borderWidth)
      ensures r.Fail? ==>
                r.error == ElementHasParent && panel == old(panel) && o.shownIn == old(o.shownIn) &&
                o.measureListeners == old(o.measureListeners) &&
                Layouts() == old(Layouts()) + [old(o.Layout())] && borderWidth == old(borderWidth)
    {
      ghost var layout, all := o.Layout(), options + [o];
      r := Append(o);
      assert options == all && o.Layout() == layout;
      if r == Pass {
        Fit(o);
      }
    }

    /** Aligns a newly shown option `o` now if it can be measured, and has it notify this menu once it can otherwise. */
    method Fit(o: PopupMenuOption)
      requires Distinct() && o in options
      modifies o`measureListeners, this`borderWidth
      modifies (set p | p in options)`iconWidth, (set p | p in options)`spacingLeft, (set p | p in options)`nameBoxWidth
      modifies (set p | p in options)`spacingRight, (set p | p in options)`arrowWidth, (set p | p in options)`desiredWidth
      modifies (set p | p in options)`innerLeft, (set p | p in options)`innerTop
      ensures o.canBeMeasured ==>
                o.measureListeners == old(o.measureListeners) &&
                Arranged(old(Layouts()), Layouts()) && borderWidth == Some(MaxOf(Layouts(), WholeWidth))
      ensures !o.canBeMeasured ==>
                o.measureListeners == old(o.measureListeners) + [this] &&
                Layouts() == old(Layouts()) && borderWidth == old(borderWidth)
      ensures old(Shown()) ==> Shown()
    {
      if o.canBeMeasured {
        Remeasure();
      } else {
        Listen(o);
      }
    }

    /** Measures and arranges the options of a menu that has some. */
    method Remeasure()
      requires Distinct() && |options| > 0
      modifies (set p | p in options)`iconWidth, (set p | p in options)`spacingLeft, (set p | p in options)`nameBoxWidth, (set p | p in options)`spacingRight
      modifies (set p | p in options)`arrowWidth, (set p | p in options)`desiredWidth, (set p | p in options)`innerLeft, (set p | p in options)`innerTop, this`borderWidth
      ensures Layouts() == Iterate(old(Layouts()), |options|)
      ensures borderWidth == Some(MaxOf(Layouts(), WholeWidth))
    {
      var _ := MeasureAndArrange();
    }

    /** Has `o` notify this menu once it is measured, so the menu re-measures then. */
    method Listen(o: PopupMenuOption)
      modifies o`measureListeners
      ensures Layouts() == old(Layouts())
      ensures o.measureListeners == old(o.measureListeners) + [this]
    {
      LayoutsOfAt(options);
      ghost var before := Layouts();
      o.measureListeners := o.measureListeners + [this];
      LayoutsOfIs(options, before);
    }
  }
}

=== FILE: toolkit.dfy ===
/**
 * Stand-ins for the values and objects of the host GUI toolkit that the
 * library reads and writes. Layout lengths are `real`: the library only
 * compares, maximises and adds them.
 */
module Toolkit {

  datatype Option<T> = None | Some(value: T) {
    /** The `??` operator: the value if present, otherwise `default`. */
    function GetOr(default: T): T {
      if Some? then value else default
    }
  }

  datatype Result<T, E> = Ok(value: T) | Err(error: E)

  /** How a call that returns nothing ends: normally, or with an exception. */
  datatype Outcome<E> = Pass | Fail(error: E)

  /** The three visibilities an element can have. */
  datatype Visibility = Visible | Hidden | Collapsed

  /** The three states of a top-level window. */
  datatype WindowState = Normal | Minimized | Maximized

  datatype Point = Point(x: real, y: real)

  /** Padding of a border; the default value is all zero. */
  datatype Thickness = Thickness(left: real, top: real, right: real, bottom: real)

  const DefaultThickness := Thickness(0.0, 0.0, 0.0, 0.0)

  /** The parts of a top-level window the window chrome reads and writes. */
  class Window {
    var state: WindowState
    var top: real
    var left: real
    var width: real
    var height: real

    constructor (state: WindowState, top: real, left: real, width: real, height: real)
      ensures this.state == state && this.top == top && this.left == left
      ensures this.width == width && this.height == height
    {
      this.state := state;
      this.top := top;
      this.left := left;
      this.width := width;
      this.height := height;
    }
  }

  /** A grid column whose width is a fixed number of pixels. */
  class ColumnDefinition {
    var width: real

    constructor (width: real)
      ensures this.width == width
    {
      this.width := width;
    }
  }

  /** The window wrapping the title bar sits in; only its corner style is read and written. */
  class WindowWrapping {
    var roundedCorners: bool

    constructor (roundedCorners: bool)
      ensures this.roundedCorners == roundedCorners
    {
      this.roundedCorners := roundedCorners;
    }
  }
}

=== FILE: window_handle.dfy ===
/**
 * The title bar's own pieces: the client-button collection, which keeps a
 * list of buttons and the panel showing them in lockstep; the client
 * button's menu placement; the handle's height setter; and the 32-bit
 * rectangle arithmetic of the fix for maximised windows.
 */
module WindowHandles {
  import opened Toolkit
  import Lists
  import ApplicationButtons

  // ---------------------------------------------------------------------
  // 32-bit integers, as the window-message structures hold them
  // ---------------------------------------------------------------------

  const Int32Min: int := -0x8000_0000
  const Int32Max: int := 0x7FFF_FFFF

  type Int32 = x: int | -0x8000_0000 <= x < 0x8000_0000

  predicate InRange(x: int) {
    Int32Min <= x <= Int32Max
  }

  /** Two's-complement wrap-around of an unchecked 32-bit operation. */
  function Wrap(x: int): (r: Int32)
    ensures (x - r) % 0x1_0000_0000 == 0
    ensures InRange(x) ==> r == x
    ensures x > Int32Max && x - 0x1_0000_0000 <= Int32Max ==> r == x - 0x1_0000_0000
  {
    (x + 0x8000_0000) % 0x1_0000_0000 - 0x8000_0000
  }

  /** Unchecked 32-bit subtraction. */
  function Sub(a: Int32, b: Int32): Int32 {
    Wrap(a - b)
  }

  datatype ArithError = Overflow

  /** The absolute value of a 32-bit integer, which overflows on the smallest one. */
  function Abs(x: Int32): (r: Result<Int32, ArithError>)
    ensures r.Err? <==> x == Int32Min
    ensures r.Ok? ==> r.value >= 0 && (r.value == x || r.value == -x)
  {
    if x == Int32Min then Err(Overflow) else Ok(if x < 0 then -x else x)
  }

  // ---------------------------------------------------------------------
  // The native rectangle
  // ---------------------------------------------------------------------

  /** An object handed to `Equals`: a boxed native rectangle, a boxed floating-point `Rect` of the toolkit, anything else, or null. */
  datatype Boxed = BoxedRect(rect: Rect) | BoxedToolkitRect(x: real, y: real, width: real, height: real) | BoxedOther | Null

  datatype CastError = InvalidCast

  datatype Rect = Rect(left: Int32, top: Int32, right: Int32, bottom: Int32) {

    /** The horizontal extent, made non-negative; overflows when the wrapped difference is the smallest integer. */
    function Width(): (r: Result<Int32, ArithError>)
      ensures r.Err? <==> Sub(right, left) == Int32Min
      ensures InRange(right - left) && right - left != Int32Min ==>
                r == Ok(if right >= left then right - left else left - right)
    {
      Abs(Sub(right, left))
    }

    /** The vertical extent, not made non-negative and wrapped on overflow. */
    function Height(): (r: Int32)
      ensures InRange(bottom - top) ==> r == bottom - top
      ensures bottom < top && InRange(bottom - top) ==> r < 0
    {
      Sub(bottom, top)
    }

    predicate IsEmpty() {
      left >= right || top >= bottom
    }

    /** The deep comparison of the `==` operator. */
    predicate Same(other: Rect) {
      left == other.left && top == other.top && right == other.right && bottom == other.bottom
    }

    /** The hash code: the wrapped sum of the four fields. */
    function HashCode(): (h: Int32)
      ensures InRange(left + top + right + bottom) ==> h == left + top + right + bottom
    {
      Wrap(Wrap(Wrap(left + top) + right) + bottom)
    }

    /**
     * `Equals` as written: it tests the argument against the toolkit's
     * floating-point rectangle type, so a boxed native rectangle is never
     * equal, and a boxed toolkit rectangle fails the unboxing cast.
     */
    function Equals(obj: Boxed): (r: Result<bool, CastError>)
      ensures r != Ok(true)
      ensures r.Err? <==> obj.BoxedToolkitRect?
    {
      match obj
      case BoxedToolkitRect(_, _, _, _) => Err(InvalidCast)
      case _ => Ok(false)
    }

    /** `Equals` as evidently intended: a boxed native rectangle with the same four fields. */
    predicate EqualsIntended(obj: Boxed) {
      obj.BoxedRect? && Same(obj.rect)
    }
  }

  const EmptyRect := Rect(0, 0, 0, 0)

  /** The deep comparison is structural equality, and the empty constant is empty. */
  lemma SameIsEquality(a: Rect, b: Rect)
    ensures a.Same(b) <==> a == b
    ensures EmptyRect.IsEmpty()
  {
  }

  /** A rectangle with positive extents that fit in 32 bits is non-empty and has exactly those extents. */
  lemma NonEmptyExtents(a: Rect)
    requires InRange(a.right - a.left) && InRange(a.bottom - a.top)
    ensures !a.IsEmpty() <==> a.Width().Ok? && a.Width().value > 0 && a.Height() > 0 && a.right > a.left
    ensures !a.IsEmpty() ==> a.Width() == Ok(a.right - a.left) && a.Height() == a.bottom - a.top
  {
  }

  /** A rectangle taller than the 32-bit range reports a negative height although it is not empty. */
  lemma TallRectHeightWraps()
    ensures var a := Rect(Int32Min, Int32Min, Int32Max, Int32Max);
            !a.IsEmpty() && a.Height() == -1 && a.Width() == Ok(1)
  {
    var a := Rect(Int32Min, Int32Min, Int32Max, Int32Max);
    assert a.bottom - a.top == 0xFFFF_FFFF;
    assert a.right - a.left == 0xFFFF_FFFF;
  }

  /** As written, no rectangle equals even itself: the counterexample to reflexivity. */
  lemma EqualsNotReflexive(a: Rect)
    ensures a.Equals(BoxedRect(a)) == Ok(false)
    ensures a.EqualsIntended(BoxedRect(a))
  {
  }

  /** The intended `Equals` is an equivalence on boxed rectangles, agrees with `==`, and respects the hash code. */
  lemma EqualsIntendedIsEquality(a: Rect, b: Rect, obj: Boxed)
    ensures a.EqualsIntended(BoxedRect(b)) <==> a == b
    ensures a.EqualsIntended(BoxedRect(b)) <==> b.EqualsIntended(BoxedRect(a))
    ensures a.EqualsIntended(obj) ==> obj == BoxedRect(a) && a.HashCode() == obj.rect.HashCode()
  {
  }

  // ---------------------------------------------------------------------
  // The maximised-window fix
  // ---------------------------------------------------------------------

  datatype Point32 = Point32(x: Int32, y: Int32)

  /** The size and position limits the system asks a window for. */
  datatype MinMaxInfo = MinMaxInfo(reserved: Point32, maxSize: Point32, maxPosition: Point32,
                                   minTrackSize: Point32, maxTrackSize: Point32)

  /** The monitor a window is nearest to: its whole area and its work area (without the task bar). */
  datatype MonitorInfo = MonitorInfo(monitor: Rect, work: Rect)

  /** The work area lies inside the monitor, and every extent the fix computes fits in 32 bits. */
  predicate WorkAreaInside(m: MonitorInfo) {
    m.monitor.left <= m.work.left <= m.work.right && m.monitor.top <= m.work.top <= m.work.bottom &&
    InRange(m.work.left - m.monitor.left) && InRange(m.work.top - m.monitor.top) &&
    InRange(m.work.right - m.work.left) && InRange(m.work.bottom - m.work.top)
  }

  /**
   * The answer to the window message that asks for the limits. Without a
   * monitor the limits are handed back as they came; otherwise the
   * maximised position is the work area's offset in the monitor and the
   * maximised size is the work area's size. An overflowing absolute value
   * throws before the limits are written back.
   */
  method WmGetMinMaxInfo(mmi: MinMaxInfo, monitor: Option<MonitorInfo>) returns (r: Result<MinMaxInfo, ArithError>)
    ensures monitor.None? ==> r == Ok(mmi)
    ensures r.Err? <==> (monitor.Some? &&
              (Sub(monitor.value.work.left, monitor.value.monitor.left) == Int32Min ||
               Sub(monitor.value.work.top, monitor.value.monitor.top) == Int32Min ||
               Sub(monitor.value.work.right, monitor.value.work.left) == Int32Min ||
               Sub(monitor.value.work.bottom, monitor.value.work.top) == Int32Min))
    ensures r.Ok? ==> r.value.reserved == mmi.reserved && r.value.minTrackSize == mmi.minTrackSize &&
                      r.value.maxTrackSize == mmi.maxTrackSize
    ensures monitor.Some? && r.Ok? ==>
              r.value.maxSize.x >= 0 && r.value.maxSize.y >= 0 &&
              r.value.maxPosition.x >= 0 && r.value.maxPosition.y >= 0
    ensures monitor.Some? && WorkAreaInside(monitor.value) ==>
              var m := monitor.value;
              r.Ok? &&
              m.monitor.left + r.value.maxPosition.x == m.work.left &&
              m.monitor.top + r.value.maxPosition.y == m.work.top &&
              m.monitor.left + r.value.maxPosition.x + r.value.maxSize.x == m.work.right &&
              m.monitor.top + r.value.maxPosition.y + r.value.maxSize.y == m.work.bottom
  {
    var info := mmi;
    if monitor.Some? {
      var work := monitor.value.work;
      var whole := monitor.value.monitor;
      var px := Abs(Sub(work.left, whole.left));
      if px.Err? { return Err(Overflow); }
      info := info.(maxPosition := info.maxPosition.(x := px.value));
      var py := Abs(Sub(work.top, whole.top));
      if py.Err? { return Err(Overflow); }
      info := info.(maxPosition := info.maxPosition.(y := py.value));
      var sx := Abs(Sub(work.right, work.left));
      if sx.Err? { return Err(Overflow); }
      info := info.(maxSize := info.maxSize.(x := sx.value));
      var sy := Abs(Sub(work.bottom, work.top));
      if sy.Err? { return Err(Overflow); }
      info := info.(maxSize := info.maxSize.(y := sy.value));
    }
    r := Ok(info);
  }

  // ---------------------------------------------------------------------
  // Client buttons
  // ---------------------------------------------------------------------

  /** A visual element that a panel can show; a panel refuses an element that already has a parent. */
  class Element {
    /** The panel that shows the element, if any. */
    var parent: object?

    constructor ()
      ensures parent == null
    {
      parent := null;
    }
  }

  /** A title-bar button with a popup menu placed on a canvas below it. */
  class ClientButton {
    /** The stack panel that shows the button; the collection's panel holds this element. */
    const element: Element
    /** The canvas position of the button's element; an unset position is not a number. */
    var left: Option<real>
    var top: Option<real>
    /** The canvas position of the menu's element. */
    var menuLeft: Option<real>
    var menuTop: Option<real>

    /** A new button: its own element, and no canvas position set yet for it or its menu. */
    constructor ()
      ensures fresh(element) && element.parent == null
      ensures left.None? && top.None? && menuLeft.None? && menuTop.None?
    {
      element := new Element();
      left := None;
      top := None;
      menuLeft := None;
      menuTop := None;
    }

    /**
     * Places the menu at the button's left edge and its bottom edge,
     * `actualHeight` being the measured height of the button's element. An
     * unset top stays unset, since adding to a value that is not a number
     * gives a value that is not a number.
     */
    method InitSpacing(actualHeight: real)
      modifies this`menuLeft, this`menuTop
      ensures menuLeft == left
      ensures menuTop.Some? <==> top.Some?
      ensures menuTop.Some? ==> menuTop.value - top.value == actualHeight
    {
      menuLeft := left;
      menuTop := if top.None? then None else Some(top.value + actualHeight);
    }
  }

  /** The exceptions the list and the panel throw. */
  datatype CollectionError = ArgumentOutOfRange | AlreadyParented

  /**
   * A list of client buttons and the horizontal panel that shows their
   * elements. Each operation first updates the list and then the panel; an
   * exception from the panel leaves the list updated. The panel becomes
   * the parent of each element it shows and stops being so when the
   * element leaves it.
   */
  class ClientButtonCollection {
    var objects: seq<ClientButton>
    /** The panel's children. */
    var children: seq<Element>

    constructor ()
      ensures objects == [] && children == [] && Valid()
    {
      objects := [];
      children := [];
    }

    /**
     * The panel shows, index by index, the element of each button in the
     * list, no element twice, and is the parent of each.
     */
    predicate Valid()
      reads this, children
    {
      Aligned(objects, children) && ParentOfAll(this, children)
    }

    /** The number of buttons, which is the number of elements the panel shows. */
    function Count(): (n: nat)
      reads this, children
      ensures Valid() ==> n == |children|
    {
      |objects|
    }

    /** The indexer's getter; an index outside the list throws. */
    function Get(index: int): (r: Result<ClientButton, CollectionError>)
      reads this, children
      ensures r.Err? <==> !(0 <= index < |objects|)
      ensures r.Err? ==> r.error == ArgumentOutOfRange
      ensures r.Ok? ==> r.value == objects[index]
      ensures r.Ok? && Valid() ==> children[index] == r.value.element && r.value.element.parent == this
    {
      if 0 <= index < |objects| then Ok(objects[index]) else Err(ArgumentOutOfRange)
    }

    /** The button is in the list and its element among the panel's children. */
    function Contains(item: ClientButton): (r: bool)
      reads this, children
      ensures r ==> item in objects
      ensures Valid() ==> (r <==> item in objects)
    {
      item in objects && item.element in children
    }

    /** The index of the button in the list, or -1; while valid, also the index of its element in the panel. */
    function IndexOf(item: ClientButton): (r: int)
      reads this, children
      ensures -1 <= r < |objects|
      ensures r == -1 <==> item !in objects
      ensures r >= 0 ==> objects[r] == item && item !in objects[..r]
      ensures Valid() && r >= 0 ==> r == Lists.IndexOf(children, item.element)
    {
      if Valid() && item in objects then
        SameIndex(objects, children, item);
        Lists.IndexOf(objects, item)
      else
        Lists.IndexOf(objects, item)
    }

    /** Appends the button to the list and its element to the panel; an element with a parent is refused. */
    method Add(item: ClientButton) returns (r: Outcome<CollectionError>)
      modifies this, item.element
      ensures objects == old(objects) + [item]
      ensures r.Pass? <==> old(item.element.parent) == null
      ensures r.Fail? ==> r.error == AlreadyParented && children == old(children) && unchanged(item.element)
      ensures r.Pass? ==> children == old(children) + [item.element] && item.element.parent == this
      ensures old(Valid()) ==> (Valid() <==> r.Pass?)
    {
      objects := objects + [item];
      if item.element.parent != null {
        return Fail(AlreadyParented);
      }
      ghost var before := children;
      children := children + [item.element];
      item.element.parent := this;
      r := Pass;
      assert children[|before|] == item.element;
      assert forall k :: 0 <= k < |before| ==> children[k] == before[k];
    }

    /** Empties the list and the panel; the elements it showed lose their parent. */
    method Clear()
      modifies this, children
      ensures objects == [] && children == [] && Valid()
      ensures forall e :: e in old(children) ==> e.parent == null
    {
      forall e | e in children {
        e.parent := null;
      }
      objects := [];
      children := [];
    }

    /**
     * Inserts the button at `index` in the list and its element at the same
     * index in the panel. An index beyond the list throws before anything
     * changes; an element with a parent is refused.
     */
    method Insert(index: int, item: ClientButton) returns (r: Outcome<CollectionError>)
      modifies this, item.element
      ensures !(0 <= index <= |old(objects)|) ==>
                r == Fail(ArgumentOutOfRange) && objects == old(objects) && children == old(children)
      ensures 0 <= index <= |old(objects)| ==> objects == Lists.InsertAt(old(objects), index, item)
      ensures r.Pass? ==> index <= |old(children)| && old(item.element.parent) == null &&
                          children == Lists.InsertAt(old(children), index, item.element) && item.element.parent == this
      ensures r.Fail? ==> children == old(children) && unchanged(item.element)
      ensures old(Valid()) ==> (r.Pass? <==> 0 <= index <= |old(objects)| && old(item.element.parent) == null)
      ensures old(Valid()) ==> (Valid() <==> r != Fail(AlreadyParented))
    {
      if !(0 <= index <= |objects|) {
        return Fail(ArgumentOutOfRange);
      }
      objects := Lists.InsertAt(objects, index, item);
      if index > |children| {
        return Fail(ArgumentOutOfRange);
      }
      if item.element.parent != null {
        return Fail(AlreadyParented);
      }
      children := Lists.InsertAt(children, index, item.element);
      item.element.parent := this;
      r := Pass;
    }

    /**
     * Removes the button at `index` from the list and the element at the
     * same index from the panel, which stops being its parent.
     */
    method RemoveAt(index: int) returns (r: Outcome<CollectionError>)
      modifies this, children
      ensures !(0 <= index < |old(objects)|) ==>
                r == Fail(ArgumentOutOfRange) && objects == old(objects) && children == old(children)
      ensures 0 <= index < |old(objects)| ==> objects == Lists.RemoveAt(old(objects), index)
      ensures r.Pass? ==> index < |old(children)| && children == Lists.RemoveAt(old(children), index) &&
                          old(children)[index].parent == null
      ensures r.Fail? ==> r.error == ArgumentOutOfRange && children == old(children) && unchanged(old(children))
      ensures old(Valid()) ==> Valid() && (r.Pass? <==> 0 <= index < |old(objects)|)
    {
      if !(0 <= index < |objects|) {
        return Fail(ArgumentOutOfRange);
      }
      objects := Lists.RemoveAt(objects, index);
      if index >= |children| {
        return Fail(ArgumentOutOfRange);
      }
      ghost var before := children;
      var e := children[index];
      children := Lists.RemoveAt(children, index);
      e.parent := null;
      r := Pass;
      if old(Valid()) {
        RemovedAtStaysAligned(old(objects), before, index);
        RemovedElementGone(before, index);
      }
    }

    /**
     * Removes the button's element from the panel, which stops being its
     * parent, then the first occurrence of the button from the list;
     * answers whether the list held it. While valid, a held button and its
     * element leave the same index.
     */
    method Remove(item: ClientButton) returns (found: bool)
      modifies this, item.element
      ensures found == (item in old(objects))
      ensures objects == Lists.RemoveFirst(old(objects), item)
      ensures children == Lists.RemoveFirst(old(children), item.element)
      ensures item.element in old(children) ==> item.element.parent == null
      ensures item.element !in old(children) ==> item.element.parent == old(item.element.parent)
      ensures old(Valid()) && found ==>
                var i := Lists.IndexOf(old(objects), item);
                objects == Lists.RemoveAt(old(objects), i) && children == Lists.RemoveAt(old(children), i)
      ensures old(Valid()) && (found || item.element !in old(children)) ==> Valid()
    {
      if Valid() && item in objects {
        RemoveFirstStaysAligned(objects, children, item);
      }
      RemoveChild(item.element);
      found := RemoveObject(item);
    }

    /** The list's removal: drops the first occurrence of the button and answers whether there was one. */
    method RemoveObject(item: ClientButton) returns (found: bool)
      modifies this`objects
      ensures found == (item in old(objects))
      ensures objects == Lists.RemoveFirst(old(objects), item)
    {
      found := item in objects;
      objects := Lists.RemoveFirst(objects, item);
    }

    /**
     * The panel's removal: drops the element from the children, and the
     * panel stops being its parent; an element the panel does not show is
     * left alone.
     */
    method RemoveChild(e: Element)
      modifies this`children, e
      ensures children == Lists.RemoveFirst(old(children), e)
      ensures e in old(children) ==> e.parent == null
      ensures e !in old(children) ==> e.parent == old(e.parent)
      ensures old(Aligned(objects, children) && ParentOfAll(this, children)) ==> ParentOfAll(this, children)
    {
      ghost var wasParent := Aligned(objects, children) && ParentOfAll(this, children);
      ghost var before := children;
      if e in children {
        var i := Lists.IndexOf(children, e);
        children := Lists.RemoveFirst(children, e);
        e.parent := null;
        if wasParent {
          RemovedElementGone(before, i);
          forall k | 0 <= k < |children|
            ensures children[k].parent == this
          {
            assert children[k] == before[if k < i then k else k + 1];
          }
        }
      }
    }

    /**
     * The indexer's setter: replaces the button at `index` in the list and
     * the element at the same index in the panel, whose old element loses
     * its parent. Setting the element already there changes nothing in the
     * panel; another element with a parent is refused.
     */
    method Set(index: int, value: ClientButton) returns (r: Outcome<CollectionError>)
      modifies this, children, value.element
      ensures !(0 <= index < |old(objects)|) ==>
                r == Fail(ArgumentOutOfRange) && objects == old(objects) && children == old(children)
      ensures 0 <= index < |old(objects)| ==> objects == old(objects)[index := value]
      ensures r.Pass? ==> index < |old(children)| && children == old(children)[index := value.element]
      ensures r.Pass? && old(children)[index] != value.element ==>
                old(value.element.parent) == null && old(children)[index].parent == null && value.element.parent == this
      ensures r.Fail? ==> children == old(children) && unchanged(old(children)) && unchanged(value.element)
      ensures old(Valid()) ==> (Valid() <==> r != Fail(AlreadyParented))
      ensures old(Valid()) && 0 <= index < |old(objects)| ==>
                (r.Pass? <==> value.element == old(children)[index] || old(value.element.parent) == null)
    {
      if !(0 <= index < |objects|) {
        return Fail(ArgumentOutOfRange);
      }
      objects := objects[index := value];
      if index >= |children| {
        return Fail(ArgumentOutOfRange);
      }
      var e := children[index];
      if e != value.element {
        if value.element.parent != null {
          return Fail(AlreadyParented);
        }
        ghost var before := children;
        e.parent := null;
        children := children[index := value.element];
        value.element.parent := this;
        if old(Valid()) {
          assert forall k :: 0 <= k < |before| && k != index ==> before[k] != e;
        }
      }
      r := Pass;
    }
  }

  /** The panel `p` is the parent of every element in `children`. */
  predicate ParentOfAll(p: object, children: seq<Element>)
    reads children
  {
    forall k :: 0 <= k < |children| ==> children[k].parent == p
  }

  /** After the element at `i` of a panel of distinct elements is removed, it is no longer shown. */
  lemma RemovedElementGone(children: seq<Element>, i: nat)
    requires i < |children| && forall a, b :: 0 <= a < b < |children| ==> children[a] != children[b]
    ensures children[i] !in Lists.RemoveAt(children, i)
  {
    var c := Lists.RemoveAt(children, i);
    forall k | 0 <= k < |c|
      ensures c[k] != children[i]
    {
      assert c[k] == children[if k < i then k else k + 1];
    }
  }

  /** The panel shows, index by index, the element of each button in the list, and no element twice. */
  predicate Aligned(objects: seq<ClientButton>, children: seq<Element>) {
    |children| == |objects| &&
    (forall k :: 0 <= k < |objects| ==> children[k] == objects[k].element) &&
    (forall i, j :: 0 <= i < j < |children| ==> children[i] != children[j])
  }

  /** Removing the same index from an aligned list and panel keeps them aligned. */
  lemma RemovedAtStaysAligned(objects: seq<ClientButton>, children: seq<Element>, i: nat)
    requires Aligned(objects, children) && i < |objects|
    ensures Aligned(Lists.RemoveAt(objects, i), Lists.RemoveAt(children, i))
  {
    var o, c := Lists.RemoveAt(objects, i), Lists.RemoveAt(children, i);
    forall a, b | 0 <= a < b < |c|
      ensures c[a] != c[b]
    {
      var a', b' := if a < i then a else a + 1, if b < i then b else b + 1;
      assert c[a] == children[a'] && c[b] == children[b'];
    }
  }

  /**
   * Removing a button held in an aligned list, and its element from the
   * panel, removes the same index from both and keeps them aligned.
   */
  lemma RemoveFirstStaysAligned(objects: seq<ClientButton>, children: seq<Element>, item: ClientButton)
    requires Aligned(objects, children) && item in objects
    ensures var i := Lists.IndexOf(objects, item);
            Lists.RemoveFirst(objects, item) == Lists.RemoveAt(objects, i) &&
            Lists.RemoveFirst(children, item.element) == Lists.RemoveAt(children, i)
    ensures Aligned(Lists.RemoveFirst(objects, item), Lists.RemoveFirst(children, item.element))
  {
    SameIndex(objects, children, item);
    RemovedAtStaysAligned(objects, children, Lists.IndexOf(objects, item));
  }

  /** In a list aligned with a panel of distinct elements, a button and its element sit at the same first index. */
  lemma SameIndex(objects: seq<ClientButton>, children: seq<Element>, item: ClientButton)
    requires Aligned(objects, children) && item in objects
    ensures Lists.IndexOf(children, item.element) == Lists.IndexOf(objects, item)
  {
    var i := Lists.IndexOf(objects, item);
    var j := Lists.IndexOf(children, item.element);
    assert children[i] == item.element;
  }

  // ---------------------------------------------------------------------
  // The window handle
  // ---------------------------------------------------------------------

  /** The title bar: its height, the grid that draws it, the chrome's caption height and the application buttons. */
  class WindowHandle {
    var height: real
    var gridHeight: real
    var captionHeight: real
    const applicationButtons: ApplicationButtons.ApplicationButtonCollection

    /** A new handle is 30 high; the chrome's caption height starts at the system's default. */
    constructor (applicationButtons: ApplicationButtons.ApplicationButtonCollection, systemCaptionHeight: real)
      ensures this.applicationButtons == applicationButtons
      ensures height == 30.0 && gridHeight == 30.0 && captionHeight == systemCaptionHeight
    {
      this.applicationButtons := applicationButtons;
      height := 30.0;
      gridHeight := 30.0;
      captionHeight := systemCaptionHeight;
    }

    /**
     * Sets the title bar's height. When the application buttons are lower
     * they are raised through their height setter, which ignores a height
     * above the window's and leaves the fullscreen button as it was; they
     * never shrink.
     */
    method SetHeight(h: real)
      modifies this`height, this`gridHeight, this`captionHeight
      modifies applicationButtons.size`height, applicationButtons`exitButton, applicationButtons`minimizeButton
      modifies applicationButtons`maximizeButton, applicationButtons`settingsButton
      ensures height == h && gridHeight == h && captionHeight == h
      ensures applicationButtons.size.height ==
                if old(applicationButtons.size.height) < h && h <= applicationButtons.window.height then h
                else old(applicationButtons.size.height)
      ensures applicationButtons.size.height >= old(applicationButtons.size.height)
      ensures old(applicationButtons.size.height) < h && h <= applicationButtons.window.height ==>
                applicationButtons.exitButton == old(applicationButtons.exitButton).(height := h) &&
                applicationButtons.minimizeButton == old(applicationButtons.minimizeButton).(height := h) &&
                applicationButtons.maximizeButton == old(applicationButtons.maximizeButton).(height := h) &&
                applicationButtons.settingsButton ==
                  (if old(applicationButtons.settingsButton).None? then None
                   else Some(old(applicationButtons.settingsButton).value.(height := h)))
      ensures !(old(applicationButtons.size.height) < h && h <= applicationButtons.window.height) ==>
                unchanged(applicationButtons)
      ensures applicationButtons.fullscreenButton == old(applicationButtons.fullscreenButton)
      ensures old(applicationButtons.Sized()) && applicationButtons.fullscreenButton.None? ==> applicationButtons.Sized()
      ensures applicationButtons.Valid() <==> old(applicationButtons.Valid())
    {
      height := h;
      gridHeight := h;
      captionHeight := h;
      if applicationButtons.size.height < h {
        applicationButtons.SetHeight(h);
      }
      applicationButtons.ResizedKeepsValid();
    }
  }
}
